=== FILE: README.md ===
# libqmatrixclient request core, modelled in Dafny

This project models the request/response core of libqmatrixclient, a Qt
client library for the Matrix protocol. It covers three layers.

1. **Two generations of server requests.**
   - The older `BaseJob` generation (jobs/). A job is configured by a
     `RequestConfig` and started explicitly. It reports `finished`,
     `result` and `success`/`failure`.
   - The newer `ServerApi::PendingCall` generation (serverapi/). A call is
     sent when it is constructed and keeps a typed `Result<T>` promise. It
     reports `resultReady` and `success`/`failure(Status)`.
2. **The endpoints built on them.**
   - Jobs: `SyncJob`, `RoomMessagesJob`, `PostMessageJob`,
     `CheckAuthMethods`.
   - Calls: `PasswordLogin`, `JoinRoom`, `GetMediaThumbnail`.
3. **The two clients of those endpoints.**
   - `Connection`: login, reconnect, logout, sync, joining rooms, and the
     room and user caches.
   - `User`: profile updates and the avatar cache with its thumbnail
     requests.

Every object is an immutable datatype, and every operation is a pure
function from the old state to the new one. Signals become entries in an
appended trace (`trace`, `effects`, `notices`). A network reply, a timer
tick or an abandon call becomes an event, and `Run` folds a sequence of
events over a state. The properties are:
- ensures clauses on the operations;
- lemmas that relate operations (round trips, idempotence, guards);
- invariants that every event sequence preserves (`{:induction false}` Run
  lemmas).

Module layout, one file each:

| module | file | models |
|---|---|---|
| `Wrappers` | wrappers.dfy | `Option` |
| `Decimal` | decimal.dfy | `QString::number` for ints, and reading it back |
| `Json` | json.dfy | `QJsonValue`/`QJsonObject`; JSON text parsing is a parameter |
| `Request` | request.dfy | `ApiPath`, `Query`, `Data`, both `RequestConfig`s |
| `Transport` | transport.dfy | replies, `ConnectionData`, building the network request |
| `JobStatus`, `BaseJob` | jobstatus.dfy, basejob.dfy | the older generation |
| `CallStatus`, `ServerCall` | callstatus.dfy, servercall.dfy | the newer generation |
| `SyncJob`, `Jobs` | syncjob.dfy, jobs.dfy | the job endpoints |
| `Calls` | calls.dfy | the call endpoints |
| `User`, `Connection` | user.dfy, connection.dfy | the clients |

Behaviour of the code as written, worth knowing when reading the contracts:

- **BaseJob signals.** `finishJob` chooses `success` or `failure` by
  `error() != 0`, not by `Status::good()`. A BaseJob status is good when
  its code is below 100 (`ErrorLevel`). A call status is good when its
  code is below 50 (`WarningLevel`), so a call's initial `PendingResult`
  (1) counts as good.
- **Call timeout is silent.** When a call times out, `finish` runs with
  `emitResult == false`. The promise keeps `PendingResult`, and no
  handler runs (`ServerCall.Timeout`, `Connection.LoginTimeoutIsSilent`).
  When a BaseJob times out, it does report failure.
- **`BaseJob::abandon` has no guard.** A second `finishJob` appends
  another `finished` (`BaseJob.Abandon`). Once the reply is released, a
  call ignores everything that follows (`ServerCall.ReleasedCallIsInert`).
- **`ApiPath` only concatenates.** Several short paths already carry a
  prefix or a leading slash. Sync goes to
  `/_matrix/client/r0/_matrix/client/r0/sync`, join goes to
  `/_matrix/client/r0//join/<alias>`, and thumbnails go to
  `/_matrix/client/r0//_matrix/media/v1/thumbnail/...`. The model keeps
  these paths as written and states them as lemmas.
- **Reconnect keeps the old token.** `reconnect` stores the new user id
  from a successful login but not the new access token
  (`Connection.ReconnectKeepsToken`).
- **`logout` leaves `isConnected` set.** It clears only the token.
- **A stuck avatar request is never retried.** The avatar request flag is
  cleared only by the thumbnail call's success handler. After a failed or
  timed-out thumbnail request, the user never asks for the avatar again
  (`User.UnansweredRequestBlocksRequests`).
- **The sync job counter is process-wide.** It is a `size_t` static that
  wraps at 2^64. The model threads it through the `Connection` state.
- **The serverapi headers disagree with each other.**
  - `serverapi/servercallsetup.h` declares a `RequestConfig` with an
    `HttpVerb` and no content type.
  - `serverapi/callconfig.h` builds on `jobs/requestconfig.h`, whose
    verb is a `JobHttpType`; `serverapi/joinroom.cpp` uses that spelling.
  - `serverapi/requestconfig.h` uses `HttpVerb` and has a content type.

  `serverapi/call.cpp` reads `contentType()` and switches on
  `JobHttpType`, so the configuration it is built against has a content
  type. Both headers that have one give a configuration made from a name,
  verb, path, query and body the JSON content type. The call
  configurations here are built that way (`Request.NewJson`), and the
  call's Content-Type header is the configuration's.

## Model

| member | source | states |
|---|---|---|
| Decimal.NatToString | jobs/syncjob.cpp:49 | a natural number is written as a non-empty run of digits, with a leading zero only for zero itself |
| Decimal.NatToStringRoundTrip | serverapi/requestconfig.h:55-58 | the digits written for a natural number read back as that number |
| Decimal.IntToString | serverapi/requestconfig.h:55-58 | `QString::number(int)` writes a non-negative int as plain digits, with a leading zero only for zero, and a negative one as a minus sign followed by digits without a leading zero |
| Decimal.IntToStringRoundTrip | serverapi/requestconfig.h:55-58 | reading back what `QString::number(int)` wrote, minus sign included, gives the same int |
| Decimal.IntToStringInjective | serverapi/requestconfig.h:55-58 | distinct ints are written as distinct strings |
| Json.ValueFound | serverapi/passwordlogin.cpp:37-43 | `value(key)` is defined exactly when `contains(key)` holds, and the value found is the one paired with that key |
| Json.ValueAt | jobs/syncjob.cpp:88-90 | in an object with unique keys, looking up a member's key yields that member's value |
| Json.AsString | jobs/syncjob.cpp:73 | `toString()` yields the string held, or "" for an undefined or non-string value |
| Json.AsObject | jobs/syncjob.cpp:76 | `toObject()` yields the object held, or the empty object |
| Json.AsArray | jobs/syncjob.cpp:99 | `toArray()` yields the array held, or the empty array |
| Json.AsBool | jobs/syncjob.cpp:130 | `toBool()` is true only for a JSON true |
| Json.AsInt | jobs/syncjob.cpp:134-135 | `toInt()` always yields a 32-bit int: the number held when it is in the int range, and 0 for a number outside it or for anything that is not a number |
| Json.DocObject | jobs/syncjob.cpp:72 | `QJsonDocument::object()` yields the top-level object, or the empty object when the document is not one |
| Json.Insert | jobs/requestconfig.h:50-54 | `insert` makes the key map to the new value and leaves every other key's value alone; the key list grows only when the key was absent |
| Json.InsertKeepsUniqueKeys | jobs/requestconfig.h:50-54 | inserting never creates a duplicate key |
| Json.InsertContains | jobs/requestconfig.h:50-54 | after an insert the object holds exactly the keys it held and the inserted one |
| Json.FromPairs | serverapi/requestconfig.h:64-68 | `Data{...}` holds each key once, and exactly the keys listed |
| Json.InsertLast | serverapi/requestconfig.h:64-68 | inserting the last listed pair into an object holding the keys of the earlier pairs yields an object holding the keys of all the pairs |
| Json.FromPairsLookup | serverapi/requestconfig.h:64-68 | with distinct keys, every listed pair is found again in the object |
| Json.StringArray | serverapi/requestconfig.cpp:13-16 | `QJsonArray::fromStringList` holds the strings in order, one JSON string each |
| Request.ApiPath | jobs/requestconfig.cpp:9-11 | the full path starts with "/_matrix/", ends with the short path unchanged, and is exactly as long as "/_matrix/", scope, version, two separators and the short path together |
| Request.DefaultApiPathPrefix | jobs/requestconfig.h:32-34 | the default scope and version give the prefix "/_matrix/client/r0/" |
| Request.ApiPathInjective | serverapi/requestconfig.cpp:9-11 | under the same scope and version, distinct short paths give distinct full paths |
| Request.NewRaw | serverapi/requestconfig.h:86-92 | the raw constructor stores every argument unchanged |
| Request.NewJson | serverapi/requestconfig.h:94-99 | the JSON constructor uses the JSON content type and the dumped body, and keeps the rest |
| Request.NewShort | jobs/requestconfig.h:88-91 | the short constructor has an empty query, an empty JSON body and the JSON content type |
| Request.SetQuery | serverapi/requestconfig.h:111 | `setQuery` replaces the query and nothing else |
| Request.SetData | serverapi/requestconfig.h:114 | `setData` replaces the body with the dumped object and nothing else |
| Request.MakeQuery | jobs/requestconfig.cpp:18-23 | `makeQuery` sets the listed items on an empty query, which gives the same query as adding each item in turn with `addQueryItem`: exactly the listed items, in order |
| Request.AddQueryItemsAppends | jobs/requestconfig.cpp:18-23 | adding items one after another appends them, in order, after the existing ones |
| Request.AddQueryItem | serverapi/requestconfig.h:54 | adding an item appends it after the existing ones |
| Request.AddIntQueryItem | serverapi/requestconfig.h:55-58 | an int item's value reads back as the int |
| Request.InsertStringList | serverapi/requestconfig.cpp:13-16 | the key maps to an array of the strings in order, and no other key changes |
| Transport.BuildRequest | serverapi/call.cpp:53-85 | the request's path is the base path followed by the API path; the query is the configured one plus a trailing access_token exactly when a token is needed; only POST and PUT carry the body; redirects are followed up to 10, as built with Qt 5.6 or later |
| Transport.NoTokenUnlessNeeded | serverapi/call.cpp:57-60 | a config that needs no token sends no access_token item unless it put one in its own query |
| JobStatus.FromCode | jobs/basejob.h:64 | a status built from a code has an empty message |
| JobStatus.CodeLevels | jobs/basejob.h:42-67 | Success is good, and every predefined error code and every code from ErrorLevel on is not |
| CallStatus.FromCode | serverapi/servercallsetup.h:121 | a status built from a code has an empty message |
| CallStatus.CodeLevels | serverapi/servercallsetup.h:95-124 | Success and PendingResult are good, and every code from WarningLevel on, including each predefined error, is not |
| CallStatus.FromStatus | serverapi/servercallsetup.h:143-144 | a result built from a status holds that status and no value |
| CallStatus.FromValue | serverapi/servercallsetup.h:145-150 | a result built from a value holds it, with Success unless told otherwise |
| CallStatus.Wrap | serverapi/servercall.h:117-136 | a plain value is wrapped as a good result, a result passes through unchanged, and a bare status becomes a valueless result |
| CallStatus.WrapIdempotent | serverapi/servercall.h:123-127 | wrapping an already wrapped result changes nothing |
| CallStatus.ValueResultPassesValue | serverapi/servercallsetup.h:145-156 | a result made from a value reports Success and hands that value to `passTo`'s handler |
| BaseJob.New | jobs/basejob.cpp:44-46 | a new job has status NoError, no reply, no timer and an empty trace |
| BaseJob.SendRequest | jobs/basejob.cpp:91-121 | the older generation always sends the Content-Type "application/json", appends the token item exactly when needed, and sends a body only for POST and PUT |
| BaseJob.Start | jobs/basejob.cpp:123-129 | `start` sends the request, wires the reply and arms the 120-second timer, leaving status and trace alone |
| BaseJob.CheckReply | jobs/basejob.cpp:140-155 | a transport success is NoError; the three access-denied kinds are ContentAccessError and every other error is NetworkError, each carrying the reply's error string; the status is good exactly for a transport success |
| BaseJob.DefaultParseJson | jobs/basejob.cpp:167-170 | the default `parseJson` succeeds |
| BaseJob.ParseReply | jobs/basejob.cpp:157-165 | a malformed body gives JsonParseError with the parser's message; a valid one gives whatever `parseJson` returns |
| BaseJob.Emission | jobs/basejob.cpp:185-194 | `finished` always comes first; `result` is emitted exactly when results are emitted, followed by `success` exactly when the code is 0 and `failure` exactly when it is not |
| BaseJob.EmissionCounts | jobs/basejob.cpp:185-194 | one finish emits at most one result, and a success or a failure only together with it |
| BaseJob.FinishJob | jobs/basejob.cpp:172-197 | finishing stops the timer, detaches the reply, keeps the status and appends the emission |
| BaseJob.GotReply | jobs/basejob.cpp:131-138 | a reply the job still listens to sets the status from `checkReply`, overwritten by `parseReply` only when that was good, then finishes with results; an unwired reply changes nothing |
| BaseJob.Timeout | jobs/basejob.cpp:233-237 | a firing timer sets TimeoutError and emits finished, result, failure; a stopped timer changes nothing |
| BaseJob.Abandon | jobs/basejob.cpp:228-231 | abandoning emits only `finished` and keeps the status |
| BaseJob.FailedCheckSkipsParsing | jobs/basejob.cpp:131-138 | when `checkReply` fails, neither the JSON parser nor `parseJson` influences the outcome |
| BaseJob.MalformedBodyFails | jobs/basejob.cpp:157-165 | a transfer that succeeds with a non-JSON body ends in JsonParseError and emits finished, result, failure |
| BaseJob.StartedJobIsConsistent | jobs/basejob.cpp:123-129 | a freshly started job satisfies the signal invariant |
| BaseJob.FinishKeepsConsistent | jobs/basejob.cpp:172-197 | finishing a listening job keeps the signal invariant |
| BaseJob.StepKeepsConsistent | jobs/basejob.cpp:131-138 | each reply, timer tick or abandon keeps the signal invariant |
| BaseJob.RunKeepsConsistent | jobs/basejob.cpp:172-197 | under any event sequence a job emits at most one result, and success or failure only with it and in agreement with its error code |
| BaseJob.RunWithoutAbandonFinishesOnce | jobs/basejob.cpp:131-138 | without abandon, a waiting job's trace stays empty or becomes exactly one finished-result-success/failure sequence matching its code |
| BaseJob.StartedJobFinishesOnce | jobs/basejob.cpp:123-138 | a started job that is never abandoned reaches at most one terminal signal sequence, whatever arrives |
| ServerCall.SendRequest | serverapi/call.cpp:53-85 | the newer generation takes the Content-Type from the configuration and otherwise builds the request as the older one does |
| ServerCall.Construct | serverapi/servercall.h:172-174 | a call sends its request at construction, arms the 120-second timer and starts with a valueless PendingResult promise, which is good |
| ServerCall.CheckReply | serverapi/servercallsetup.cpp:28-43 | the same error mapping as the older generation, in call codes; good exactly for a transport success |
| ServerCall.LoadBytes | serverapi/servercallsetup.cpp:45-48 | the byte loader returns the body unchanged |
| ServerCall.LoadJsonObject | serverapi/servercallsetup.cpp:50-67 | the JSON loader succeeds exactly when the body parses to an object, which it returns; otherwise JsonParseError, naming the parser error and offset or the missing top-level object |
| ServerCall.InvalidJsonMessageCarriesOffset | serverapi/servercallsetup.cpp:56-59 | the "Invalid JSON" message ends with the decimal offset, which reads back as the offset |
| ServerCall.IgnoreReplyBody | serverapi/servercallsetup.h:215-218 | a configuration that ignores the body reports Success |
| ServerCall.FillResult | serverapi/servercall.h:138-154 | on the JSON path a failed load is passed on as a valueless result and a good one goes to `parseReply`; on the reply path `parseReply`'s result is wrapped |
| ServerCall.Finish | serverapi/call.cpp:120-145 | without the reply nothing happens; otherwise the reply is released, and with results `resultReady` is followed by `success` for a good status or `failure(status)` for a bad one |
| ServerCall.GotReply | serverapi/servercall.h:257-265 | the promise takes `checkReply`'s status and, only when that is good, `fillResult`'s result; the signals follow the promise's status |
| ServerCall.Timeout | serverapi/call.cpp:101-105 | a timeout releases the reply silently and leaves the promise as it was |
| ServerCall.Abandon | serverapi/servercall.h:182 | abandoning releases the reply silently and keeps the promise |
| ServerCall.Deliver | serverapi/servercall.h:219-251 | `onAnyResult` receives the promise, `onSuccess` the stored value (or the default) and `onFailure` the call's status |
| ServerCall.FailureHandlerSeesSignalledStatus | serverapi/servercall.h:247-251 | after a failing reply, the `onFailure` handler receives the very status carried by the failure signal |
| ServerCall.IgnoredBodyCallSucceeds | serverapi/servercallsetup.h:210-219 | a body-ignoring call succeeds whenever the transfer succeeds |
| ServerCall.ReleasedCallIsInert | serverapi/call.cpp:128-133 | once the reply is released, no event changes the call |
| ServerCall.RunEmitsAtMostOnce | serverapi/call.cpp:120-145 | under any event sequence a call emits nothing, or exactly resultReady followed by the success or failure that matches its promise |
| ServerCall.ConstructedCallEmitsAtMostOnce | serverapi/servercall.h:172-174 | a constructed call emits at most one outcome, whatever arrives |
| SyncJob.SyncQuery | jobs/syncjob.cpp:43-52 | the query holds filter, set_presence, timeout and since, each only under its condition, in that order |
| SyncJob.AppendRanked | jobs/syncjob.cpp:43-51 | appending the item of the next rank, present or not, keeps the query's keys in strictly increasing order |
| SyncJob.SyncItemsRanked | jobs/syncjob.cpp:43-51 | the four items, appended in the constructor's order, count one per condition that holds and have strictly increasing key ranks |
| SyncJob.SyncQueryStringItems | jobs/syncjob.cpp:44-51 | filter, set_presence and since are in the query exactly when they are non-empty |
| SyncJob.SyncQueryTimeout | jobs/syncjob.cpp:48-49 | a timeout item is present exactly when the timeout is not negative, and it reads back as the timeout |
| SyncJob.NewSyncJob | jobs/syncjob.cpp:35-53 | the job is a GET on the sync path that needs a token; it is named after the pre-incremented counter, which wraps at 2^64 |
| SyncJob.SyncPathRepeatsPrefix | jobs/syncjob.cpp:39-40 | the sync path carries the client prefix twice |
| SyncJob.SuccessiveJobNamesDiffer | jobs/syncjob.cpp:35-39 | two successive sync jobs always get different names, even across the wrap; the counter moves on by one each time, and from the largest `size_t` it wraps to 0 and then 1 |
| SyncJob.NextCounters | jobs/syncjob.cpp:35-39 | two successive pre-increments of the counter modulo 2^64 give distinct values: the next two integers, or 0 and 1 after the largest value |
| SyncJob.JobNamesDiffer | jobs/syncjob.cpp:35-39 | distinct counter values give distinct `SyncJob-N` names |
| SyncJob.ParseJsonStatus | jobs/syncjob.cpp:94 | parsing a sync body always succeeds |
| SyncJob.EventList | jobs/syncjob.cpp:97-100 | an event list is the "events" array of the room's object under its key, and is empty unless that object exists |
| SyncJob.EventListsFollowJoinState | jobs/syncjob.cpp:97-127 | an invitation reads only invite_state; a join reads state, timeline, ephemeral and account_data; a leave reads state and timeline; an unknown state reads none; each list that is read is the "events" array under its key of the room object |
| SyncJob.RoomSummaryIgnoresJoinState | jobs/syncjob.cpp:129-135 | for every join state, the timeline's limited flag is true exactly when timeline.limited is JSON true, prev_batch is its string or "", and each of the highlight and notification counts is the number under unread_notifications when it fits in an int, and 0 when it does not or is absent |
| SyncJob.RoomEntry | jobs/syncjob.cpp:102-137 | a room entry keeps the member's key as room id, the bucket's join state and the member's object |
| SyncJob.Entries | jobs/syncjob.cpp:88-91 | a bucket yields one entry per member, in the bucket's order |
| SyncJob.RoomEntryIsLookup | jobs/syncjob.cpp:88-91 | each entry's room object is what looking up its id in the bucket yields |
| SyncJob.Decode | jobs/syncjob.cpp:70-95 | next_batch is the document's next_batch value when that is a JSON string and "" otherwise; the rooms are the entries of the document's rooms.join bucket, then rooms.invite, then rooms.leave, each read with `toObject()` |
| SyncJob.ParseJson | jobs/syncjob.cpp:70-95 | the two nested loops return Success and exactly the decoded token and room entries |
| SyncJob.AppendBucket | jobs/syncjob.cpp:86-91 | the inner loop appends one entry per bucket member, in the bucket's order, after the entries gathered so far |
| SyncJob.DecodedBuckets | jobs/syncjob.cpp:78-92 | the decoded rooms are the join entries, then the invite entries, then the leave entries |
| SyncJob.ThreeBucketLayout | jobs/syncjob.cpp:84-92 | in three concatenated buckets, each member's entry sits at its bucket offset plus its index |
| SyncJob.BucketLayout | jobs/syncjob.cpp:84-92 | the i-th decoded room is the i-th join member, then the invite and leave members at their offsets |
| SyncJob.DecodedEntriesAreBucketed | jobs/syncjob.cpp:84-92 | every decoded room is a join, invite or leave entry whose id is a key of that bucket |
| SyncJob.JoinedTimelineExample | jobs/syncjob.cpp:102-131 | an illustration on one concrete document, not an all-inputs property: a joined room with a two-event limited timeline decodes to that timeline, its limited flag and prev_batch, and an empty state |
| Jobs.NewRoomMessagesJob | jobs/roommessagesjob.cpp:35-43 | a GET on the room's messages path with exactly the items from, dir ("b" exactly for backward, "f" exactly for forward) and limit (which reads back) |
| Jobs.RoomMessagesQueryRoundTrip | jobs/roommessagesjob.cpp:39-43 | reading the query back gives the direction and limit it was built from |
| Jobs.ParseRoomMessages | jobs/roommessagesjob.cpp:64-70 | the events are the chunk array (or none) and the end token is the end string (or ""); always Success |
| Jobs.RoomMessagesSucceedOnWellFormedReply | jobs/roommessagesjob.cpp:64-70 | a listening messages job that gets a parsable reply emits finished, result, success |
| Jobs.MessageBody | jobs/postmessagejob.cpp:39 | the body holds exactly msgtype and body, with the given strings |
| Jobs.NewPostMessageJob | jobs/postmessagejob.cpp:34-41 | a POST to the room's send path with no query, whose JSON body holds exactly msgtype and body |
| Jobs.ParsePostMessage | jobs/postmessagejob.cpp:48-55 | the reply succeeds exactly when it has an event_id; otherwise UserDefinedError with the fixed message |
| Jobs.PostMessageOutcome | jobs/postmessagejob.cpp:48-55 | a listening post job emits success exactly when the server's reply has an event_id, and failure otherwise |
| Jobs.NewCheckAuthMethods | jobs/checkauthmethods.cpp:39-45 | a GET on the login path that needs no token |
| Jobs.CheckAuthMethodsSendsNoToken | jobs/checkauthmethods.cpp:39-45 | the request it sends carries no query items at all |
| Jobs.ParseCheckAuthMethods | jobs/checkauthmethods.cpp:57-61 | parsing always fails with UserDefinedError "Not implemented" |
| Jobs.CheckAuthMethodsAlwaysFails | jobs/checkauthmethods.cpp:57-61 | whatever the server answers, a listening job ends with a failure |
| Calls.LoginBody | serverapi/passwordlogin.cpp:27-31 | the login body has unique keys: type m.login.password, user and password |
| Calls.NewPasswordLogin | serverapi/passwordlogin.cpp:24-33 | a POST of the login body, as JSON with the JSON content type, to the login path that sends no token |
| Calls.ParsePasswordLogin | serverapi/passwordlogin.cpp:35-45 | the reply succeeds exactly when access_token, home_server and user_id are all present, giving their strings; otherwise UserDefinedError "Unexpected data" |
| Calls.LoginReplyRoundTrip | serverapi/passwordlogin.cpp:35-45 | parsing a login reply gives back the access data it carried |
| Calls.LoginWithoutTokenFails | serverapi/passwordlogin.cpp:37-38 | a login call whose reply lacks access_token fails, and its failure signal carries "Unexpected data" |
| Calls.NewJoinRoom | serverapi/joinroom.cpp:7-9 | a POST on the join path for the alias, with an empty JSON body and the JSON content type, that needs a token |
| Calls.JoinPathHasDoubleSlash | serverapi/joinroom.cpp:8 | the leading slash of the short path doubles the separator after the prefix |
| Calls.ParseJoinRoom | serverapi/joinroom.cpp:11-21 | the reply succeeds exactly when it has a room_id, giving its string; otherwise UserDefinedError with the fixed message |
| Calls.JoinReplyRoundTrip | serverapi/joinroom.cpp:13-16 | a reply naming a room gives back that room id |
| Calls.ThumbnailQuery | serverapi/getmediathumbnail.cpp:29-33 | width, height and method in that order; the sizes read back; the method is "scale" exactly for Scale and "crop" exactly for Crop |
| Calls.NewGetMediaThumbnail | serverapi/getmediathumbnail.cpp:26-35 | a GET named MediaThumbnailJob on the media thumbnail path for the URL's host and path, with the thumbnail query, an empty JSON body and the JSON content type |
| Calls.ThumbnailPathKeepsClientPrefix | serverapi/getmediathumbnail.cpp:28 | the endpoint is the client prefix followed by the whole media path, so a doubled slash separates them |
| Calls.ParseThumbnail | serverapi/getmediathumbnail.cpp:37-44 | the reply succeeds exactly when the bytes decode to an image, which it returns; otherwise UserDefinedError naming the API path |
| Calls.UndecodableThumbnailFails | serverapi/getmediathumbnail.cpp:43 | a thumbnail call whose body does not decode fails with a message that ends in the call's endpoint |
| User.New | user.cpp:50-58 | a new user has no name, a null avatar pixmap, no request outstanding, an invalid requested size and no effects |
| User.DisplayName | user.cpp:75-80 | the display name is the name when there is one and the user id otherwise, so it is empty only when both are |
| User.ProcessEvent | user.cpp:121-138 | a member event sets the name and the avatar URL; a changed name announces the old one; the avatar goes stale exactly when the URL changes, URLs being compared on every component; other events change nothing |
| User.ChangedUrlSchedulesRequest | user.cpp:132-136 | a member event with a new valid URL, while no request is outstanding, makes the avatar stale, so the next avatar request schedules a thumbnail request for the asked size |
| User.ProcessEventIdempotent | user.cpp:121-138 | processing the same event twice is the same as processing it once |
| User.DisplayNameFollowsMemberEvent | user.cpp:75-80 | after a member event the display name is the event's name, or the user id when that is empty |
| User.CropOffset | user.cpp:113-116 | the crop offset is never negative, centres the crop to within one pixel, and is 0 when the scaled side is not larger |
| User.CropOffsetIgnoresRounding | user.cpp:114-115 | clamped at zero, C's truncating halving agrees with floor division |
| User.FindScaled | user.cpp:106-110 | the search finds the first cached pixmap of the asked size, or reports that none has it |
| User.MaybeRequest | user.cpp:91-102 | a request is scheduled, with the asked size recorded, exactly when the avatar is stale or too small, none is outstanding and the URL is valid; otherwise nothing changes |
| User.CroppedAvatar | user.cpp:87-119 | with a null avatar, that null pixmap and no caching; otherwise the first cached pixmap of that size, with the cache unchanged, or a new scaled and centred crop that is cached; an empty asked size always gives a null pixmap, as scaling to an empty size does in Qt; the request trigger as in MaybeRequest |
| User.NoRequestWhileOngoing | user.cpp:95 | while a request is outstanding, asking for an avatar never schedules another |
| User.RequestAvatar | user.cpp:145-148 | the thumbnail call asks for the avatar URL at the requested size |
| User.ScheduledRequestAsksForRequestedSize | user.cpp:97-100 | a request scheduled for a stale avatar asks the server for exactly the size the caller wanted |
| User.AvatarReceived | user.cpp:149-156 | success clears the outstanding flag, marks the avatar valid, empties the cache and announces the change; the stored avatar is the thumbnail scaled to the requested size, and null when that size is empty or the thumbnail is null |
| User.EmptySizeGivesNullAvatar | user.cpp:87-119 | asking for an empty size schedules a request whose thumbnail is stored as a null pixmap, and asking again then yields a null pixmap and caches nothing |
| User.ReceivedAvatarIsNotRequestedAgain | user.cpp:91-102 | after a thumbnail arrives, asking for no more than the requested size schedules nothing |
| User.StepKeepsRequestsPaired | user.cpp:87-157 | each event, avatar lookup or arriving thumbnail keeps every scheduled request paired with a delivery, except the outstanding one |
| User.RunKeepsRequestsPaired | user.cpp:87-157 | requests never overlap: under any input sequence, scheduled requests exceed deliveries by one exactly while a request is outstanding |
| User.NewUserRequestsPaired | user.cpp:50-58 | a new user has no unpaired request |
| User.UnansweredRequestBlocksRequests | user.cpp:95-100 | while no thumbnail arrives, an outstanding request stays outstanding and no further request is ever scheduled |
| Connection.Initial | connection.cpp:63-67 | a new connection is not connected, has no token, no sync job and empty caches, and keeps the path of the given server URL |
| Connection.Default | connection.cpp:70-73 | the default connection is a new connection to the root path of the default server |
| Connection.InitialIsValid | connection.cpp:42-47 | a new connection satisfies the invariant |
| Connection.ProvideRoom | connection.cpp:277-299 | an empty id gives nothing; a known id gives the cached room; an unknown id creates, caches and announces a room; no other room changes |
| Connection.ProvideRoomIdempotent | connection.cpp:285-286 | asking again for the same room returns the same room and changes nothing |
| Connection.ProvideRoomKeepsValid | connection.cpp:277-299 | providing a room keeps every room announced exactly once |
| Connection.ProvideRooms | connection.cpp:174-178 | after the sync loop every non-empty room id of the payload is known, no known room changes, and no other room appears |
| Connection.ProvideRoomsKeepsValid | connection.cpp:174-178 | the sync loop keeps every room announced exactly once |
| Connection.UserFor | connection.cpp:231-238 | `user(id)` returns the cached user, or a new one that it stores, and changes nothing else |
| Connection.UserForCaches | connection.cpp:231-238 | a second lookup returns the same user with the same id, and the cache grows by at most one |
| Connection.CurrentUser | connection.cpp:240-245 | `user()` is null exactly when no user id is known, and otherwise is `user(userId)` |
| Connection.Sync | connection.cpp:164-171 | with a sync outstanding nothing happens; otherwise a started sync job with the stored token, the 100-event filter and the next counter is stored, and nothing else changes; the timeout defaults to -1 |
| Connection.DefaultSyncSendsNoTimeout | connection.h:58 | a sync without a timeout argument sends no timeout item |
| Connection.SyncIsGuarded | connection.cpp:166-167 | a second sync before the first finishes changes nothing |
| Connection.SyncSendsLastEvent | connection.cpp:170-171 | the sync query carries `since` exactly when a sync token is stored, and always carries the filter |
| Connection.SyncSucceeded | connection.cpp:172-181 | success stores next_batch, makes every non-empty room id known, keeps known rooms, forgets the job and ends with syncDone |
| Connection.SyncFailed | connection.cpp:182-188 | failure forgets the job and emits loginError for an access error and connectionError otherwise, with the job's message |
| Connection.WaitingJobAnswers | jobs/basejob.cpp:131-138 | a job still waiting, with its reply wired, emits success or failure once the reply arrives |
| Connection.SyncReplied | connection.cpp:170-188 | a reply with no sync job outstanding changes nothing; a reply to the outstanding job forgets the job and ends with syncDone, loginError or connectionError; the connection data, the connected flag and the user id never change |
| Connection.SyncTimedOut | connection.cpp:182-188 | a timer tick with no sync job outstanding changes nothing; for the outstanding job it forgets the job and appends connectionError with the timeout message, keeping the sync token and the rooms; the connection data, the connected flag and the user id never change |
| Connection.SyncReplySucceeds | connection.cpp:172-181 | a parsable reply to the outstanding sync moves the token to next_batch, makes its rooms known and ends with syncDone |
| Connection.SyncReplyErrorIsReported | connection.cpp:182-188 | a transport error ends the sync with loginError for access errors and connectionError otherwise, keeping the token |
| Connection.SyncMalformedBodyIsConnectionError | connection.cpp:182-188 | an unparsable sync body is reported as a connection error with the parser's message |
| Connection.SyncTimeoutIsConnectionError | connection.cpp:182-188 | a timed-out sync is reported as a connection error |
| Connection.DisconnectFromServer | connection.cpp:145-153 | disconnecting forgets the sync job and clears the connected flag, and nothing else |
| Connection.DisconnectDropsSync | connection.cpp:145-153 | after disconnecting, a late reply or timer tick of the dropped sync job changes nothing, and a new sync can start |
| Connection.ConnectWithToken | connection.cpp:119-129 | the connection becomes connected with the user id and token stored, and emits connected |
| Connection.OnLogin | connection.cpp:108-114 | `onSuccess` connects with the returned id and token, keeps the base path and emits connected, changing nothing else; `onFailure` emits loginError with the status message and changes nothing else; without a delivery nothing changes |
| Connection.ConnectToServer | connection.cpp:105-117 | the credentials are stored whatever happens; the caches, the sync job, the sync token and the base path stay; until the reply arrives, storing the credentials is all that happens |
| Connection.LoginReplyDelivers | connection.cpp:108-111 | a waiting login call that gets the server's reply hands its access data to `onSuccess` |
| Connection.LoginReplyConnects | connection.cpp:105-117 | a successful login connects with the returned id and token, keeps the credentials and emits connected |
| Connection.LoginRejectedIsReported | connection.cpp:112-114 | a rejected login emits loginError with the reply's error string and leaves the session alone |
| Connection.LoginTimeoutIsSilent | connection.cpp:105-117 | a login that times out only stores the credentials |
| Connection.OnReconnect | connection.cpp:135-142 | the reconnect handlers keep the token, caches and sync job: success stores the user id and emits reconnected, and nothing else; failure emits loginError and clears the connected flag, and nothing else; without a delivery nothing changes |
| Connection.Reconnect | connection.cpp:131-143 | reconnecting logs in with the stored credentials and never changes them, the connection data, the caches or the sync job; until the reply arrives nothing changes |
| Connection.ReconnectRejectedIsReported | connection.cpp:139-142 | a rejected reconnect emits loginError with the reply's error string and clears the connected flag, keeping the token and the user id |
| Connection.ReconnectKeepsToken | connection.cpp:131-143 | a successful reconnect stores the new user id but keeps the old token |
| Connection.Logout | connection.cpp:155-162 | a successful logout clears the token and emits loggedOut; the connected flag stays; a failed logout changes nothing |
| Connection.JoinRoom | connection.cpp:204-211 | joining changes only the room cache and the notices, never drops or replaces a known room, and changes nothing until a successful reply arrives |
| Connection.JoinRoomReplyJoins | connection.cpp:204-211 | a reply naming the room makes it known and emits joinedRoom for it |
| Connection.JoinRoomFailureIsIgnored | connection.cpp:204-211 | a failed join changes nothing |
| Connection.SyncRepliedKeepsValid | connection.cpp:172-188 | the sync handlers keep the invariant |
| Connection.OtherNoticeKeepsValid | connection.cpp:119-188 | emitting any signal but newRoom, with the room and user caches kept and the sync job kept or dropped, keeps every room announced exactly once |
| Connection.SyncHandlersKeepValid | connection.cpp:172-188 | the sync success handler, which provides every decoded room, and the failure handler keep the invariant |
| Connection.JoinRoomKeepsValid | connection.cpp:204-211 | joining keeps the invariant |
| Connection.LoginHandlersKeepValid | connection.cpp:105-143 | the login and reconnect handlers keep the invariant |
| Connection.UserLookupsKeepValid | connection.cpp:231-245 | user lookups keep the invariant |
| Connection.SyncStartKeepsValid | connection.cpp:164-188 | starting a sync and a sync timeout keep the invariant |
| Connection.SessionUpdatesKeepValid | connection.cpp:119-162 | disconnecting, connecting with a token and logging out keep the invariant |
| Connection.SyncStepsKeepValid | connection.cpp:145-188 | a sync request, its reply, its timeout and a disconnect keep the invariant |
| Connection.SessionStepsKeepValid | connection.cpp:105-162 | connecting with a token or a password, reconnecting and logging out keep the invariant |
| Connection.LookupStepsKeepValid | connection.cpp:204-299 | joining a room and looking up a room, a user or the current user keep the invariant |
| Connection.StepKeepsValid | connection.cpp:105-245 | every connection event keeps the invariant |
| Connection.RunKeepsValid | connection.cpp:277-299 | from construction on, every room is announced by newRoom exactly once and no other room is announced; caches stay keyed by id; a stored sync job is still waiting |

## Left out

- The network stack is left out: `QNetworkAccessManager`, `QNetworkReply`
  and `QUrl` encoding. A reply is an error kind, an error string and a
  body. The request is a path, a query list, a header and a body.
- The TLS handling is left out. `sslErrors` in jobs/basejob.cpp:239-245
  and serverapi/call.cpp:107-113 ignores every certificate error
  unconditionally, which is insecure. The model has no TLS layer to state
  this against.
- Timers, `deleteLater` and the Qt event loop are left out. Timer firings
  and replies are events. An object that has finished is modelled as one
  that ignores later events.
- JSON text is not parsed or serialised. Parsing is a function parameter
  (`Json.Parser`), and `Data::dump()` stays symbolic (`Dump(obj)`).
- JSON numbers are integers; floating point is left out.
- `Json.AsInt`: Qt 5 returns the default 0 for a number outside the int
  range, and the model does the same. Qt versions that truncate such a
  number instead are not modelled.
- `Transport.BuildRequest`: the model is of a build with Qt 5.6 or later.
  Older Qt skips the redirect settings guarded by `QT_VERSION` in
  jobs/basejob.cpp:102-105 and serverapi/call.cpp:69-72.
- `Connection.ConnectToServer`: a call and the event that ends it are one
  step, so no other event can come between starting the login and its
  reply. In the source, a `reconnect` issued while the login reply is
  still pending already uses the new credentials (connection.cpp:115-116),
  and the login's success arrives later. Those interleavings are not
  modelled.
- `Connection.Reconnect`: as for `ConnectToServer`, the login call and its
  reply are one step, so no event can come between them.
- `Connection.JoinRoom`: as for `ConnectToServer`, the join call and its
  reply are one step, so no event can come between them.
- Decoding and scaling images is left out. `QPixmap::loadFromData`,
  `scaled` and `copy` are function parameters.
- Building events from JSON (`eventsFromJson`, `RoomMemberEvent`) is left
  out; events stay JSON values.
- `Room` and `Room::updateData` are left out. A room is its id.
- `Connection::resolveServer` (DNS) is left out.
- `Connection::postMessage`, `postReceipt`, `leaveRoom` and `getMessages`
  are left out. They only construct and start a job, whose configuration
  and parsing are modelled in `Jobs`. PostReceiptJob and LeaveRoomJob are
  not part of this model.
- The templates `callApi` and `callServer` are left out. The model
  constructs the job or call directly.
- Logging is left out.
- `Connection.Logout`: the `Logout` call configuration (its header is not
  part of this model) is not modelled. The function takes only whether the
  call succeeded.
- `SyncJob.NewSyncJob`: the default `presence` argument lives in a header
  that is not part of this model. `Connection.Sync` passes "", which adds
  no set_presence item.
- `Calls.NewGetMediaThumbnail`: the default thumbnail type lives in a
  header that is not part of this model, so it is a parameter of
  `User.RequestAvatar`.
- `SyncJob.Decode`: Qt's `QJsonObject::keys()` is sorted. The model visits
  a bucket's members in the order the object holds them, so the order of
  room entries within a bucket may differ from the source.
- `SyncJob.ParseJson`: the source appends to the job's `roomData` without
  clearing it. The model assumes `parseJson` runs once per job.
- `Connection.ProvideRoom`: `createRoom` is assumed never to fail. The
  branch in connection.cpp:294-296 that returns null is not modelled.
- `Jobs.NewCheckAuthMethods`: `session()` is never assigned in the source
  and always returns "". It is not modelled.
- `Jobs.NewRoomMessagesJob`: `Connection::getMessages` passes `from`
  explicitly (connection.h:62, connection.cpp:219-221). It relies on the
  default `limit` and `dir` of the RoomMessagesJob constructor, and the
  header that declares them is not part of this model. Both are parameters.
- `CallStatus.CodeLevels`: serverapi/callconfig.h repeats the status
  types of serverapi/servercallsetup.h, so the model defines them once.
- `Json.Insert`: `QJsonObject` keeps its keys sorted. The model's objects
  keep the keys in insertion order, so only the key set and the values are
  promised to match Qt, not the order of `keys()`.
- `User.CroppedAvatar`: the scaled pixmap's pixels are opaque. Only its
  size and the crop offsets are stated, not the image contents.

=== FILE: basejob.dfy ===
/** BaseJob: the older job generation. A job is created idle, start() sends
    the request and arms a 120 s timer, and then the reply, the timer or
    abandon() finishes it. Signals are recorded in an appended trace. */
module BaseJob {
  import opened Wrappers
  import opened Json
  import opened Request
  import opened Transport
  import opened JobStatus

  datatype Signal = Finished | ResultSignal | SuccessSignal | FailureSignal

  /** request is the request handed to the transport (None before start);
      timer holds the armed interval; replyConnected says gotReply is still
      wired to the reply. */
  datatype Job = Job(
    config: RequestConfig,
    status: Status,
    request: Option<NetworkRequest>,
    timer: Option<nat>,
    replyConnected: bool,
    trace: seq<Signal>)

  /** The per-job parseJson override. */
  type JsonHandler = Json -> Status

  /** A new job: status NoError, no reply, nothing running, nothing emitted. */
  function New(rc: RequestConfig): (j: Job)
    ensures j.config == rc && j.status == FromCode(NoError) && Good(j.status)
    ensures j.request.None? && j.timer.None? && !j.replyConnected && j.trace == []
  {
    Job(rc, FromCode(NoError), None, None, false, [])
  }

  /** Private::sendRequest: the Content-Type header is always JSON. */
  function SendRequest(conn: ConnectionData, rc: RequestConfig): (r: NetworkRequest)
    ensures r.contentTypeHeader == "application/json"
    ensures r.path == conn.basePath + rc.endpoint
    ensures (rc.needsToken ==> |r.query| == |rc.query| + 1 && r.query[|rc.query|] == ("access_token", conn.accessToken))
    ensures (!rc.needsToken ==> r.query == rc.query)
    ensures r.body.Some? <==> (rc.verb == Post || rc.verb == Put)
  {
    BuildRequest(conn, rc, JsonMimeType)
  }

  /** start(): send the request, wire gotReply, arm the timer at 120000 ms. */
  function Start(j: Job, conn: ConnectionData): (r: Job)
    ensures r.request == Some(SendRequest(conn, j.config))
    ensures r.timer == Some(120000) && r.replyConnected
    ensures r.config == j.config && r.status == j.status && r.trace == j.trace
  {
    j.(request := Some(SendRequest(conn, j.config)), timer := Some(TimeoutMs), replyConnected := true)
  }

  /** checkReply: transport success is NoError, the three access errors are
      ContentAccessError, every other error is NetworkError. */
  function CheckReply(reply: Reply): (s: Status)
    ensures s.code == NoError <==> reply.error == ReplyOk
    ensures s.code == ContentAccessError <==>
              reply.error in {AuthenticationRequiredError, ContentAccessDenied, ContentOperationNotPermittedError}
    ensures s.code == NetworkError <==> reply.error.OtherError?
    ensures reply.error != ReplyOk ==> s.message == reply.errorString
    ensures Good(s) <==> reply.error == ReplyOk
  {
    match reply.error
    case ReplyOk => FromCode(NoError)
    case AuthenticationRequiredError => Status(ContentAccessError, reply.errorString)
    case ContentAccessDenied => Status(ContentAccessError, reply.errorString)
    case ContentOperationNotPermittedError => Status(ContentAccessError, reply.errorString)
    case OtherError(_) => Status(NetworkError, reply.errorString)
  }

  /** The default parseJson: success without looking at the document. */
  function DefaultParseJson(doc: Json): (s: Status)
    ensures s.code == Success && Good(s)
  {
    FromCode(Success)
  }

  /** parseReply: parseJson on a valid document, JsonParseError with the
      parser's message otherwise. */
  function ParseReply(parse: Parser, parseJson: JsonHandler, data: Bytes): (s: Status)
    ensures parse(data).Malformed? ==> s == Status(JsonParseError, parse(data).error) && !Good(s)
    ensures parse(data).Parsed? ==> s == parseJson(parse(data).doc)
  {
    match parse(data)
    case Parsed(doc) => parseJson(doc)
    case Malformed(err, _) => Status(JsonParseError, err)
  }

  /** The signals finishJob emits. failure/success follow error() != 0,
      not Status::good(). */
  function Emission(s: Status, emitResult: bool): (t: seq<Signal>)
    ensures |t| == (if emitResult then 3 else 1) && t[0] == Finished
    ensures ResultSignal in t <==> emitResult
    ensures SuccessSignal in t <==> emitResult && s.code == 0
    ensures FailureSignal in t <==> emitResult && s.code != 0
    ensures emitResult ==> t[1] == ResultSignal
  {
    if !emitResult then [Finished]
    else if s.code != 0 then [Finished, ResultSignal, FailureSignal]
    else [Finished, ResultSignal, SuccessSignal]
  }

  /** finishJob: stop the timer, detach the reply, emit. */
  function FinishJob(j: Job, emitResult: bool): (r: Job)
    ensures r.timer.None? && !r.replyConnected
    ensures r.trace == j.trace + Emission(j.status, emitResult)
    ensures r.status == j.status && r.config == j.config && r.request == j.request
  {
    j.(timer := None, replyConnected := false, trace := j.trace + Emission(j.status, emitResult))
  }

  /** gotReply: status from checkReply, overwritten by parseReply only when
      checkReply was good; then finishJob(true). */
  function GotReply(j: Job, reply: Reply, parse: Parser, parseJson: JsonHandler): (r: Job)
    ensures !j.replyConnected ==> r == j
    ensures j.replyConnected && !Good(CheckReply(reply)) ==> r.status == CheckReply(reply)
    ensures j.replyConnected && Good(CheckReply(reply)) ==> r.status == ParseReply(parse, parseJson, reply.body)
    ensures j.replyConnected ==> r.trace == j.trace + Emission(r.status, true)
    ensures j.replyConnected ==> r.timer.None? && !r.replyConnected
  {
    if !j.replyConnected then j
    else
      var checked := CheckReply(reply);
      var s := if Good(checked) then ParseReply(parse, parseJson, reply.body) else checked;
      FinishJob(j.(status := s), true)
  }

  const TimeoutMessage := "The job has timed out"

  /** timeout: TimeoutError, then finishJob(true). The timer only fires
      while armed. */
  function Timeout(j: Job): (r: Job)
    ensures j.timer.None? ==> r == j
    ensures j.timer.Some? ==> r.status == Status(TimeoutError, TimeoutMessage) && !Good(r.status)
    ensures j.timer.Some? ==> r.trace == j.trace + [Finished, ResultSignal, FailureSignal]
    ensures j.timer.Some? ==> r.timer.None? && !r.replyConnected
  {
    if j.timer.None? then j
    else FinishJob(j.(status := Status(TimeoutError, TimeoutMessage)), true)
  }

  /** abandon(): finishJob(false). It carries no guard of its own. */
  function Abandon(j: Job): (r: Job)
    ensures r.trace == j.trace + [Finished]
    ensures r.status == j.status && r.timer.None? && !r.replyConnected
  {
    FinishJob(j, false)
  }

  /** error() and errorString(). */
  function Error(j: Job): int { j.status.code }
  function ErrorString(j: Job): string { j.status.message }

  /** A failing checkReply leaves the parser and parseJson unconsulted: the
      outcome is the same whatever they are. */
  lemma FailedCheckSkipsParsing(j: Job, reply: Reply, p1: Parser, h1: JsonHandler, p2: Parser, h2: JsonHandler)
    requires !Good(CheckReply(reply))
    ensures GotReply(j, reply, p1, h1) == GotReply(j, reply, p2, h2)
  {
  }

  /** A body that is not JSON, on an otherwise successful transfer, fails
      the job with JsonParseError. */
  lemma MalformedBodyFails(j: Job, reply: Reply, parse: Parser, parseJson: JsonHandler)
    requires j.replyConnected && reply.error == ReplyOk
    requires parse(reply.body).Malformed?
    ensures GotReply(j, reply, parse, parseJson).status.code == JsonParseError
    ensures GotReply(j, reply, parse, parseJson).trace == j.trace + [Finished, ResultSignal, FailureSignal]
  {
  }

  // Runs of events after start().

  datatype Event = ReplyArrived(reply: Reply) | TimerFired | AbandonCalled

  function Step(j: Job, e: Event, parse: Parser, parseJson: JsonHandler): Job {
    match e
    case ReplyArrived(reply) => GotReply(j, reply, parse, parseJson)
    case TimerFired => Timeout(j)
    case AbandonCalled => Abandon(j)
  }

  function Run(j: Job, events: seq<Event>, parse: Parser, parseJson: JsonHandler): Job
    decreases |events|
  {
    if |events| == 0 then j else Run(Step(j, events[0], parse, parseJson), events[1..], parse, parseJson)
  }

  function Count(t: seq<Signal>, s: Signal): nat {
    if |t| == 0 then 0 else (if t[0] == s then 1 else 0) + Count(t[1..], s)
  }

  lemma CountAppend(a: seq<Signal>, b: seq<Signal>, s: Signal)
    ensures Count(a + b, s) == Count(a, s) + Count(b, s)
  {
    if |a| > 0 {
      assert (a + b)[1..] == a[1..] + b;
      CountAppend(a[1..], b, s);
    } else {
      assert a + b == b;
    }
  }

  lemma CountZero(t: seq<Signal>, s: Signal)
    ensures Count(t, s) == 0 <==> s !in t
  {
  }

  /** At most one result, success or failure only with it, and agreeing with
      the final error code; nothing result-like while the reply is wired. */
  ghost predicate Consistent(j: Job) {
    && (j.timer.Some? <==> j.replyConnected)
    && (j.replyConnected ==> Count(j.trace, ResultSignal) == 0)
    && Count(j.trace, ResultSignal) <= 1
    && Count(j.trace, SuccessSignal) + Count(j.trace, FailureSignal) == Count(j.trace, ResultSignal)
    && (SuccessSignal in j.trace ==> j.status.code == 0)
    && (FailureSignal in j.trace ==> j.status.code != 0)
  }

  lemma StartedJobIsConsistent(rc: RequestConfig, conn: ConnectionData)
    ensures Consistent(Start(New(rc), conn))
  {
  }

  lemma EmissionCounts(s: Status, emitResult: bool)
    ensures Count(Emission(s, emitResult), ResultSignal) == if emitResult then 1 else 0
    ensures Count(Emission(s, emitResult), SuccessSignal) == if emitResult && s.code == 0 then 1 else 0
    ensures Count(Emission(s, emitResult), FailureSignal) == if emitResult && s.code != 0 then 1 else 0
  {
    var t := Emission(s, emitResult);
    if emitResult {
      forall x: Signal
        ensures Count(t, x) == (if t[0] == x then 1 else 0) + (if t[1] == x then 1 else 0) + (if t[2] == x then 1 else 0)
      {
        assert t[1..][1..][1..] == [];
        assert Count(t[1..][1..], x) == if t[2] == x then 1 else 0;
        assert Count(t[1..], x) == (if t[1] == x then 1 else 0) + Count(t[1..][1..], x);
      }
    } else {
      assert t[1..] == [];
    }
  }

  lemma FinishKeepsConsistent(j: Job, s: Status, emitResult: bool)
    requires Consistent(j)
    requires emitResult || s == j.status
    requires j.status != s || emitResult ==> j.replyConnected
    ensures Consistent(FinishJob(j.(status := s), emitResult))
  {
    var r := FinishJob(j.(status := s), emitResult);
    CountAppend(j.trace, Emission(s, emitResult), ResultSignal);
    CountAppend(j.trace, Emission(s, emitResult), SuccessSignal);
    CountAppend(j.trace, Emission(s, emitResult), FailureSignal);
    EmissionCounts(s, emitResult);
    CountZero(j.trace, ResultSignal);
    CountZero(j.trace, SuccessSignal);
    CountZero(j.trace, FailureSignal);
    CountZero(r.trace, SuccessSignal);
    CountZero(r.trace, FailureSignal);
    CountZero(Emission(s, emitResult), SuccessSignal);
    CountZero(Emission(s, emitResult), FailureSignal);
  }

  lemma StepKeepsConsistent(j: Job, e: Event, parse: Parser, parseJson: JsonHandler)
    requires Consistent(j)
    ensures Consistent(Step(j, e, parse, parseJson))
  {
    match e
    case ReplyArrived(reply) =>
      if j.replyConnected {
        var checked := CheckReply(reply);
        var s := if Good(checked) then ParseReply(parse, parseJson, reply.body) else checked;
        FinishKeepsConsistent(j, s, true);
      }
    case TimerFired =>
      if j.timer.Some? {
        FinishKeepsConsistent(j, Status(TimeoutError, TimeoutMessage), true);
      }
    case AbandonCalled =>
      assert j.(status := j.status) == j;
      FinishKeepsConsistent(j, j.status, false);
  }

  /** Whatever replies, timer events and abandons arrive after start(), the
      job emits result at most once, success or failure exactly with it, and
      success only for code 0. */
  lemma {:induction false} RunKeepsConsistent(j: Job, events: seq<Event>, parse: Parser, parseJson: JsonHandler)
    requires Consistent(j)
    ensures Consistent(Run(j, events, parse, parseJson))
    decreases |events|
  {
    if |events| > 0 {
      StepKeepsConsistent(j, events[0], parse, parseJson);
      RunKeepsConsistent(Step(j, events[0], parse, parseJson), events[1..], parse, parseJson);
    }
  }

  /** The trace of a started job that is never abandoned: nothing yet, or
      exactly finished, result and the outcome matching error(). */
  ghost predicate SingleOutcome(j: Job) {
    || (j.replyConnected && j.timer.Some? && j.trace == [])
    || (!j.replyConnected && j.timer.None? &&
        (|| (j.trace == [Finished, ResultSignal, SuccessSignal] && j.status.code == 0)
         || (j.trace == [Finished, ResultSignal, FailureSignal] && j.status.code != 0)))
  }

  lemma {:induction false} RunWithoutAbandonFinishesOnce(j: Job, events: seq<Event>, parse: Parser, parseJson: JsonHandler)
    requires SingleOutcome(j)
    requires forall i :: 0 <= i < |events| ==> !events[i].AbandonCalled?
    ensures SingleOutcome(Run(j, events, parse, parseJson))
    decreases |events|
  {
    if |events| > 0 {
      var next := Step(j, events[0], parse, parseJson);
      assert SingleOutcome(next);
      RunWithoutAbandonFinishesOnce(next, events[1..], parse, parseJson);
    }
  }

  /** A started job reaches exactly one terminal notification sequence
      through its reply or its timer. */
  lemma StartedJobFinishesOnce(rc: RequestConfig, conn: ConnectionData, events: seq<Event>, parse: Parser, parseJson: JsonHandler)
    requires forall i :: 0 <= i < |events| ==> !events[i].AbandonCalled?
    ensures SingleOutcome(Run(Start(New(rc), conn), events, parse, parseJson))
  {
    RunWithoutAbandonFinishesOnce(Start(New(rc), conn), events, parse, parseJson);
  }
}

=== FILE: calls.dfy ===
/** The endpoint configurations of the newer generation: each is a
    RequestConfig for ServerCall plus the parseReply the call's decoder
    runs. */
module Calls {
  import opened Wrappers
  import opened Json
  import opened Request
  import opened Transport
  import opened CallStatus
  import ServerCall
  import Decimal

  // PasswordLogin

  /** What a successful login yields. */
  datatype AccessData = AccessData(token: string, server: string, id: string)

  const UnexpectedData := "Unexpected data"

  /** The login body: type m.login.password, user and password. */
  function LoginBody(user: string, password: string): (o: Object)
    ensures UniqueKeys(o)
    ensures Value(o, "type") == Some(JString("m.login.password"))
    ensures Value(o, "user") == Some(JString(user)) && Value(o, "password") == Some(JString(password))
  {
    var l := [("type", JString("m.login.password")), ("user", JString(user)), ("password", JString(password))];
    FromPairsLookup(l, 0);
    FromPairsLookup(l, 1);
    FromPairsLookup(l, 2);
    FromPairs(l)
  }

  /** The constructor: a POST of the login body to the login path, with no
      query items and without the access token. */
  function NewPasswordLogin(user: string, password: string): (rc: RequestConfig)
    ensures rc.name == "PasswordLogin" && rc.verb == Post && !rc.needsToken
    ensures rc.endpoint == ApiPath("_matrix/client/r0/login") && rc.query == []
    ensures rc.data == Dump(LoginBody(user, password)) && rc.contentType == JsonMimeType
  {
    NewJson("PasswordLogin", Post, ApiPath("_matrix/client/r0/login"), [], LoginBody(user, password), false)
  }

  /** parseReply: UserDefinedError unless access_token, home_server and
      user_id are all there; otherwise their string values. */
  function ParsePasswordLogin(json: Object): (p: Parsed<AccessData>)
    ensures p.Wrapped?
    ensures Good(p.result.status) <==>
              Contains(json, "access_token") && Contains(json, "home_server") && Contains(json, "user_id")
    ensures !Good(p.result.status) ==> p.result == FromStatus(Status(UserDefinedError, UnexpectedData))
    ensures Good(p.result.status) ==>
              p.result == FromValue(AccessData(AsString(Value(json, "access_token")),
                                               AsString(Value(json, "home_server")),
                                               AsString(Value(json, "user_id"))))
  {
    if !Contains(json, "access_token") || !Contains(json, "home_server") || !Contains(json, "user_id") then
      Wrapped(FromStatus(Status(UserDefinedError, UnexpectedData)))
    else
      Wrapped(FromValue(AccessData(AsString(Value(json, "access_token")),
                                   AsString(Value(json, "home_server")),
                                   AsString(Value(json, "user_id")))))
  }

  /** The reply a homeserver sends for a login. */
  function LoginReply(ad: AccessData): Object {
    FromPairs([("access_token", JString(ad.token)), ("home_server", JString(ad.server)), ("user_id", JString(ad.id))])
  }

  /** Parsing the server's login reply gives back the access data it
      carries, with Success. */
  lemma LoginReplyRoundTrip(ad: AccessData)
    ensures Wrap(ParsePasswordLogin(LoginReply(ad))) == FromValue(ad)
  {
    var l := [("access_token", JString(ad.token)), ("home_server", JString(ad.server)), ("user_id", JString(ad.id))];
    assert UniqueKeys(l) by {
      assert |l[0].0| == 12 && |l[1].0| == 11 && |l[2].0| == 7;
    }
    var o := LoginReply(ad);
    assert o == FromPairs(l);
    FromPairsLookup(l, 0);
    FromPairsLookup(l, 1);
    FromPairsLookup(l, 2);
    ValueFound(o, "access_token");
    ValueFound(o, "home_server");
    ValueFound(o, "user_id");
    assert ParsePasswordLogin(o) == Wrapped(FromValue(ad));
  }

  /** A login reply missing any of the three keys fails, and the failure
      reaches the call's status and its failure signal. */
  lemma LoginWithoutTokenFails(conn: ConnectionData, user: string, password: string, reply: Reply, parse: Parser)
    requires reply.error == ReplyOk && parse(reply.body).Parsed? && parse(reply.body).doc.JObject?
    requires !Contains(parse(reply.body).doc.members, "access_token")
    ensures var c := ServerCall.Construct<AccessData>(conn, NewPasswordLogin(user, password));
            var r := ServerCall.GotReply(c, reply, ServerCall.JsonDecoder(parse, ParsePasswordLogin));
            r.promise == FromStatus(Status(UserDefinedError, UnexpectedData))
            && r.trace == [ServerCall.ResultReady, ServerCall.FailureSignal(Status(UserDefinedError, UnexpectedData))]
  {
  }

  // JoinRoom

  const RoomIdMissing := "No room_id in the JSON response"

  /** The constructor: a POST on ApiPath("/join/" + alias) that sends the
      access token. */
  function NewJoinRoom(roomAlias: string): (rc: RequestConfig)
    ensures rc.name == "JoinRoom" && rc.verb == Post && rc.needsToken
    ensures rc.endpoint == ApiPath("/join/" + roomAlias) && rc.query == [] && rc.data == Dump([])
    ensures rc.contentType == JsonMimeType
  {
    NewJson("JoinRoom", Post, ApiPath("/join/" + roomAlias))
  }

  /** The leading slash of the short path doubles the separator. */
  lemma JoinPathHasDoubleSlash(roomAlias: string)
    ensures NewJoinRoom(roomAlias).endpoint == "/_matrix/client/r0//join/" + roomAlias
  {
  }

  /** parseReply: the room_id's string value with Success when the key is
      there, otherwise UserDefinedError. */
  function ParseJoinRoom(json: Object): (p: Parsed<string>)
    ensures Good(Wrap(p).status) <==> Contains(json, "room_id")
    ensures Contains(json, "room_id") ==> Wrap(p) == FromValue(AsString(Value(json, "room_id")))
    ensures !Contains(json, "room_id") ==> Wrap(p) == FromStatus(Status(UserDefinedError, RoomIdMissing))
  {
    if Contains(json, "room_id") then Wrapped(FromValue(AsString(Value(json, "room_id"))))
    else Wrapped(FromStatus(Status(UserDefinedError, RoomIdMissing)))
  }

  /** A reply naming the joined room gives back that room id. */
  lemma JoinReplyRoundTrip(roomId: string)
    ensures Wrap(ParseJoinRoom([("room_id", JString(roomId))])) == FromValue(roomId)
  {
    assert Keys([("room_id", JString(roomId))]) == ["room_id"];
  }

  // GetMediaThumbnail

  /** A QUrl: whether it is valid, the host and path the thumbnail request
      uses, and its scheme and remaining components (user info, port, query,
      fragment), which QUrl's operator== compares as well. */
  datatype Url = Url(valid: bool, scheme: string, host: string, path: string, rest: string)

  /** QUrl(): empty and invalid. */
  const EmptyUrl := Url(false, "", "", "", "")

  datatype Size = Size(width: int, height: int)

  datatype ThumbnailType = Scale | Crop

  const UnreadableImage := "Could not read image data from"

  function MethodText(t: ThumbnailType): string {
    if t == Scale then "scale" else "crop"
  }

  /** The thumbnail query: width, height and the method, in that order. */
  function ThumbnailQuery(requestedSize: Size, thumbnailType: ThumbnailType): (q: Query)
    ensures |q| == 3 && q[0].0 == "width" && q[1].0 == "height" && q[2].0 == "method"
    ensures Decimal.ParseInt(q[0].1) == Some(requestedSize.width)
    ensures Decimal.ParseInt(q[1].1) == Some(requestedSize.height)
    ensures q[2].1 == "scale" <==> thumbnailType == Scale
    ensures q[2].1 == "crop" <==> thumbnailType == Crop
  {
    Decimal.IntToStringRoundTrip(requestedSize.width);
    Decimal.IntToStringRoundTrip(requestedSize.height);
    MakeQuery([("width", Decimal.IntToString(requestedSize.width)),
               ("height", Decimal.IntToString(requestedSize.height)),
               ("method", MethodText(thumbnailType))])
  }

  /** The constructor: a GET whose short path is the media thumbnail path
      of the URL's host and path, sending the thumbnail query. */
  function NewGetMediaThumbnail(url: Url, requestedSize: Size, thumbnailType: ThumbnailType): (rc: RequestConfig)
    ensures rc.name == "MediaThumbnailJob" && rc.verb == Get && rc.needsToken
    ensures rc.endpoint == ApiPath("/_matrix/media/v1/thumbnail/" + url.host + url.path)
    ensures rc.query == ThumbnailQuery(requestedSize, thumbnailType)
    ensures rc.contentType == JsonMimeType && rc.data == Dump([])
  {
    NewJson("MediaThumbnailJob", Get, ApiPath("/_matrix/media/v1/thumbnail/" + url.host + url.path),
             ThumbnailQuery(requestedSize, thumbnailType))
  }

  /** The thumbnail path passes through ApiPath with its defaults, so the
      client prefix precedes the whole media path and the separator between
      them is doubled. */
  lemma ThumbnailPathKeepsClientPrefix(url: Url, requestedSize: Size, thumbnailType: ThumbnailType)
    ensures var e := NewGetMediaThumbnail(url, requestedSize, thumbnailType).endpoint;
            && e == "/_matrix/client/r0/" + ("/_matrix/media/v1/thumbnail/" + url.host + url.path)
            && e[18] == '/' && e[19] == '/'
  {
    var shortPath := "/_matrix/media/v1/thumbnail/" + url.host + url.path;
    DefaultApiPathPrefix(shortPath);
    var e := "/_matrix/client/r0/" + shortPath;
    assert e[19] == shortPath[0];
  }

  /** parseReply: the decoded image with Success, or UserDefinedError naming
      the path when the bytes do not decode. decode stands for
      QPixmap::loadFromData. */
  function ParseThumbnail<Image>(decode: Bytes -> Option<Image>, apiPath: string, bytes: Bytes): (p: Parsed<Image>)
    ensures decode(bytes).Some? ==> Wrap(p) == FromValue(decode(bytes).value)
    ensures decode(bytes).None? ==> Wrap(p) == FromStatus(Status(UserDefinedError, UnreadableImage + apiPath))
    ensures Good(Wrap(p).status) <==> decode(bytes).Some?
  {
    match decode(bytes)
    case Some(image) => Wrapped(FromValue(image))
    case None => Wrapped(FromStatus(Status(UserDefinedError, UnreadableImage + apiPath)))
  }

  /** The decoder a thumbnail call uses: the whole reply body goes to the
      image decoder. */
  function ThumbnailDecoder<Image>(decode: Bytes -> Option<Image>, rc: RequestConfig): ServerCall.Decoder<Image> {
    ServerCall.ReplyDecoder((reply: Reply) => ParseThumbnail(decode, rc.endpoint, reply.body))
  }

  /** An undecodable thumbnail fails the call with a message that ends in
      the call's path. */
  lemma UndecodableThumbnailFails<Image>(conn: ConnectionData, url: Url, size: Size, t: ThumbnailType,
                                         decode: Bytes -> Option<Image>, reply: Reply)
    requires reply.error == ReplyOk && decode(reply.body).None?
    ensures var rc := NewGetMediaThumbnail(url, size, t);
            var r := ServerCall.GotReply(ServerCall.Construct<Image>(conn, rc), reply, ThumbnailDecoder(decode, rc));
            var m := r.promise.status.message;
            r.promise.status.code == UserDefinedError
            && |rc.endpoint| <= |m| && m[|m| - |rc.endpoint|..] == rc.endpoint
  {
    var rc := NewGetMediaThumbnail(url, size, t);
    var m := UnreadableImage + rc.endpoint;
    assert m[|m| - |rc.endpoint|..] == rc.endpoint;
  }
}

=== FILE: callstatus.dfy ===
/** ServerApi::StatusCode, ServerApi::Status and ServerApi::Result<T> (the
    newer call generation). A status is good below WarningLevel (50), so the
    PendingResult code (1) counts as good. */
module CallStatus {
  import opened Wrappers

  const NoError := 0
  const InfoLevel := 0
  const Success := 0
  const PendingResult := 1
  const WarningLevel := 50
  const ErrorLevel := 100
  const NetworkError := 100
  const JsonParseError := 101
  const TimeoutError := 102
  const ContentAccessError := 103
  const UserDefinedError := 200

  datatype Status = Status(code: int, message: string)

  predicate Good(s: Status) {
    s.code < WarningLevel
  }

  /** Status(StatusCode): the message stays empty. */
  function FromCode(c: int): (s: Status)
    ensures s.code == c && s.message == ""
  {
    Status(c, "")
  }

  /** PendingResult and Success are good; every code from WarningLevel on,
      and so every error code, is not. */
  lemma CodeLevels(c: int)
    ensures Good(FromCode(Success)) && Good(FromCode(PendingResult))
    ensures c >= WarningLevel ==> !Good(FromCode(c))
    ensures !Good(FromCode(NetworkError)) && !Good(FromCode(JsonParseError))
    ensures !Good(FromCode(TimeoutError)) && !Good(FromCode(ContentAccessError))
    ensures !Good(FromCode(UserDefinedError))
  {
  }

  /** Result<T>: a status and a value. None stands for the default-constructed
      value held by a Result built from a status alone. Result<void> is
      Result<()> whose value is always None. */
  datatype Result<T> = Result(status: Status, value: Option<T>)

  /** Result(const Status&) and Result(int, QString). */
  function FromStatus<T>(s: Status): (r: Result<T>)
    ensures r.status == s && r.value.None?
  {
    Result(s, None)
  }

  /** Result(const T&, const Status& = Success). */
  function FromValue<T>(v: T, s: Status := FromCode(Success)): (r: Result<T>)
    ensures r.status == s && r.value == Some(v)
  {
    Result(s, Some(v))
  }

  /** Result<T>::get(), given the default-constructed T. */
  function Get<T>(r: Result<T>, default: T): T {
    r.value.GetOr(default)
  }

  /** Result<T>::passTo: the handler receives get(). */
  function PassTo<T, U>(r: Result<T>, default: T, handler: T -> U): U {
    handler(Get(r, default))
  }

  /** Result<void>::passTo: the handler takes no argument. */
  function PassToVoid<U>(r: Result<()>, handler: () -> U): U {
    handler()
  }

  /** What a parseReply may return: a bare value, an already wrapped Result,
      or a bare Status (which impl::Wrap turns into Result<void>). */
  datatype Parsed<T> = Plain(v: T) | Wrapped(result: Result<T>) | StatusOnly(status: Status)

  /** impl::Wrap: T to Result<T>, Result<T> unchanged, Status to a
      value-less result. */
  function Wrap<T>(p: Parsed<T>): (r: Result<T>)
    ensures p.Plain? ==> Good(r.status) && r.value == Some(p.v)
    ensures p.Wrapped? ==> r == p.result
    ensures p.StatusOnly? ==> r.status == p.status && r.value.None?
  {
    match p
    case Plain(v) => FromValue(v)
    case Wrapped(res) => res
    case StatusOnly(s) => FromStatus(s)
  }

  /** Wrapping an already wrapped result changes nothing. */
  lemma WrapIdempotent<T>(p: Parsed<T>)
    ensures Wrap(Wrapped(Wrap(p))) == Wrap(p)
  {
  }

  /** A value-only Result reports Success and hands that value to passTo. */
  lemma ValueResultPassesValue<T, U>(v: T, default: T, handler: T -> U)
    ensures FromValue(v).status == Status(Success, "")
    ensures PassTo(FromValue(v), default, handler) == handler(v)
  {
  }
}

=== FILE: connection.dfy ===
/** Connection: the client's session with one homeserver — the login state,
    the single outstanding sync job, and the caches of rooms and users.
    Replies, timer events and the JSON parser are inputs; the connection's
    signals are appended to a notice trace. */
module Connection {
  import opened Wrappers
  import opened Json
  import opened Transport
  import JobStatus
  import CallStatus
  import BaseJob
  import ServerCall
  import SyncJob
  import Calls
  import User

  /** A room as the connection holds it; Room's own state is not modelled. */
  datatype Room = Room(id: string)

  datatype Notice =
    | Connected
    | Reconnected
    | LoggedOut
    | SyncDone
    | NewRoom(roomId: string)
    | JoinedRoom(roomId: string)
    | LoginError(message: string)
    | ConnectionError(message: string)

  /** lastEvent is the sync token kept in ConnectionData. jobCounter is the
      process-wide SyncJob name counter, threaded through this one
      connection. */
  datatype State = State(
    data: ConnectionData,
    lastEvent: string,
    isConnected: bool,
    username: string,
    password: string,
    userId: string,
    jobCounter: SyncJob.JobCounter,
    syncJob: Option<BaseJob.Job>,
    roomMap: map<string, Room>,
    userMap: map<string, User.User>,
    notices: seq<Notice>)

  /** The path of https://matrix.org, the server the default constructor
      uses: that URL has an empty path. */
  const DefaultBasePath := ""

  /** The filter every sync sends: at most 100 timeline events per room. */
  const SyncFilter := "{\"room\": { \"timeline\": { \"limit\": 100 } } }"

  /** The constructor: not connected, no sync job, empty caches. basePath is
      the path of the server URL, which every request path starts with. */
  function Initial(basePath: string): (st: State)
    ensures st.data.basePath == basePath && st.data.accessToken == "" && st.lastEvent == ""
    ensures !st.isConnected && st.userId == "" && st.syncJob.None?
    ensures st.roomMap == map[] && st.userMap == map[] && st.notices == []
  {
    State(ConnectionData(basePath, ""), "", false, "", "", "", 0, None, map[], map[], [])
  }

  /** The default constructor: a connection to https://matrix.org, whose
      requests therefore go to paths that start right at the API path. */
  function Default(): (st: State)
    ensures st.data.basePath == "" && st.data.accessToken == "" && !st.isConnected
    ensures st.roomMap == map[] && st.userMap == map[] && st.syncJob.None? && st.notices == []
  {
    Initial(DefaultBasePath)
  }

  // The state invariant.

  /** Every room in the map was announced by newRoom exactly once, and no
      other room ever was. */
  ghost predicate AnnouncedOnce(st: State) {
    forall id :: multiset(st.notices)[NewRoom(id)] == if id in st.roomMap then 1 else 0
  }

  ghost predicate Keyed(st: State) {
    && (forall id :: id in st.roomMap ==> id != "" && st.roomMap[id].id == id)
    && (forall id :: id in st.userMap ==> st.userMap[id].id == id)
  }

  /** A stored sync job is still waiting: wired to its reply, timer armed,
      nothing emitted. */
  ghost predicate SyncPending(st: State) {
    st.syncJob.Some? ==> st.syncJob.value.trace == [] && st.syncJob.value.replyConnected && st.syncJob.value.timer.Some?
  }

  ghost predicate Valid(st: State) {
    AnnouncedOnce(st) && Keyed(st) && SyncPending(st)
  }

  lemma InitialIsValid(basePath: string)
    ensures Valid(Initial(basePath))
  {
  }

  // Rooms and users.

  /** provideRoom: nothing for an empty id, the cached room for a known id,
      otherwise a new room that is stored and announced. */
  function ProvideRoom(st: State, id: string): (r: (State, Option<Room>))
    ensures id == "" ==> r == (st, None)
    ensures id != "" && id in st.roomMap ==> r == (st, Some(st.roomMap[id]))
    ensures id != "" ==> id in r.0.roomMap && r.1 == Some(r.0.roomMap[id]) && r.0.roomMap.Keys == st.roomMap.Keys + {id}
    ensures forall k :: k in st.roomMap ==> k in r.0.roomMap && r.0.roomMap[k] == st.roomMap[k]
    ensures id != "" && id !in st.roomMap ==> r.0.notices == st.notices + [NewRoom(id)] && r.1 == Some(Room(id))
    ensures r.0.(roomMap := st.roomMap, notices := st.notices) == st
  {
    if id == "" then (st, None)
    else if id in st.roomMap then (st, Some(st.roomMap[id]))
    else (st.(roomMap := st.roomMap[id := Room(id)], notices := st.notices + [NewRoom(id)]), Some(Room(id)))
  }

  /** Asking again for the same room returns the same room and changes
      nothing. */
  lemma ProvideRoomIdempotent(st: State, id: string)
    ensures var first := ProvideRoom(st, id);
            ProvideRoom(first.0, id) == first
  {
  }

  lemma ProvideRoomKeepsValid(st: State, id: string)
    requires Valid(st)
    ensures Valid(ProvideRoom(st, id).0)
  {
  }

  /** The sync success loop: every entry goes through provideRoom, in order. */
  function ProvideRooms(st: State, rooms: seq<SyncJob.SyncRoomData>): (r: State)
    ensures forall i :: 0 <= i < |rooms| && rooms[i].roomId != "" ==> rooms[i].roomId in r.roomMap
    ensures forall k :: k in st.roomMap ==> k in r.roomMap && r.roomMap[k] == st.roomMap[k]
    ensures forall k :: k in r.roomMap ==> k in st.roomMap || exists i :: 0 <= i < |rooms| && rooms[i].roomId == k
    ensures r.(roomMap := st.roomMap, notices := st.notices) == st
    ensures st.notices <= r.notices
    decreases |rooms|
  {
    if |rooms| == 0 then st
    else
      var next := ProvideRoom(st, rooms[0].roomId).0;
      var r := ProvideRooms(next, rooms[1..]);
      assert forall i :: 0 <= i < |rooms[1..]| ==> rooms[1..][i] == rooms[i + 1];
      r
  }

  lemma {:induction false} ProvideRoomsKeepsValid(st: State, rooms: seq<SyncJob.SyncRoomData>)
    requires Valid(st)
    ensures Valid(ProvideRooms(st, rooms))
    decreases |rooms|
  {
    if |rooms| > 0 {
      ProvideRoomKeepsValid(st, rooms[0].roomId);
      ProvideRoomsKeepsValid(ProvideRoom(st, rooms[0].roomId).0, rooms[1..]);
    }
  }

  /** user(id): the cached user, or a new one that is stored. */
  function UserFor(st: State, id: string): (r: (State, User.User))
    ensures r.0.userMap.Keys == st.userMap.Keys + {id} && id in r.0.userMap && r.0.userMap[id] == r.1
    ensures id in st.userMap ==> r == (st, st.userMap[id])
    ensures id !in st.userMap ==> r.1 == User.New(id)
    ensures forall k :: k in st.userMap ==> r.0.userMap[k] == st.userMap[k]
    ensures r.0.(userMap := st.userMap) == st
  {
    if id in st.userMap then (st, st.userMap[id])
    else (st.(userMap := st.userMap[id := User.New(id)]), User.New(id))
  }

  /** Repeated lookups return the cached user: the map grows by at most one
      entry, once. */
  lemma UserForCaches(st: State, id: string)
    requires Keyed(st)
    ensures var first := UserFor(st, id);
            && first.1.id == id
            && UserFor(first.0, id) == first && |first.0.userMap| <= |st.userMap| + 1
  {
    var first := UserFor(st, id);
    if id !in st.userMap {
      assert first.0.userMap.Keys == st.userMap.Keys + {id};
    }
  }

  /** user(): none while no user id is known, otherwise user(userId). */
  function CurrentUser(st: State): (r: (State, Option<User.User>))
    ensures r.1.None? <==> st.userId == ""
    ensures st.userId == "" ==> r.0 == st
    ensures st.userId != "" ==> r == (UserFor(st, st.userId).0, Some(UserFor(st, st.userId).1))
  {
    if st.userId == "" then (st, None)
    else
      var (st1, u) := UserFor(st, st.userId);
      (st1, Some(u))
  }

  // Sync.

  /** sync(timeout): nothing while a sync job is outstanding; otherwise a
      new SyncJob from the stored token, the fixed filter and the timeout is
      started and remembered. The timeout defaults to -1 (none), as in the
      declaration of sync; the presence argument keeps its default. */
  function Sync(st: State, timeout: int := -1): (r: State)
    ensures st.syncJob.Some? ==> r == st
    ensures st.syncJob.None? ==>
              var job := SyncJob.NewSyncJob(st.jobCounter, st.lastEvent, SyncFilter, timeout, "");
              && r.syncJob == Some(BaseJob.Start(BaseJob.New(job.0), st.data))
              && r.jobCounter == job.1
              && r.(syncJob := st.syncJob, jobCounter := st.jobCounter) == st
  {
    if st.syncJob.Some? then st
    else
      var job := SyncJob.NewSyncJob(st.jobCounter, st.lastEvent, SyncFilter, timeout, "");
      st.(syncJob := Some(BaseJob.Start(BaseJob.New(job.0), st.data)), jobCounter := job.1)
  }

  /** At most one sync job at a time: a second sync before the first one
      ends is ignored. */
  lemma SyncIsGuarded(st: State, t1: int, t2: int)
    ensures Sync(Sync(st, t1), t2) == Sync(st, t1)
  {
  }

  /** The started job sends the stored token as `since` exactly when there
      is one, and the filter always. */
  lemma SyncSendsLastEvent(st: State, timeout: int)
    requires st.syncJob.None?
    ensures var q := Sync(st, timeout).syncJob.value.config.query;
            && (("since", st.lastEvent) in q <==> st.lastEvent != "")
            && ("filter", SyncFilter) in q
  {
    SyncJob.SyncQueryStringItems(st.lastEvent, SyncFilter, timeout, "");
  }

  /** sync() without an argument sends no timeout item: the server's own
      default applies. */
  lemma DefaultSyncSendsNoTimeout(st: State)
    requires st.syncJob.None?
    ensures var q := Sync(st).syncJob.value.config.query;
            forall i :: 0 <= i < |q| ==> q[i].0 != "timeout"
  {
    SyncJob.SyncQueryTimeout(st.lastEvent, SyncFilter, -1, "");
  }

  /** What the SyncJob holds after parseJson: the decoded body when it
      parsed, empty data otherwise. */
  function SyncResult(parse: Parser, body: Bytes): SyncJob.SyncData {
    match parse(body)
    case Parsed(doc) => SyncJob.Decode(doc)
    case Malformed(_, _) => SyncJob.SyncData("", [])
  }

  /** The success handler: store next_batch, hand every room entry to
      provideRoom, forget the job, emit syncDone. */
  function SyncSucceeded(st: State, data: SyncJob.SyncData): (r: State)
    ensures r.lastEvent == data.nextBatch && r.syncJob.None?
    ensures st.notices <= r.notices
    ensures |r.notices| > 0 && r.notices[|r.notices| - 1] == SyncDone
    ensures forall i :: 0 <= i < |data.rooms| && data.rooms[i].roomId != "" ==> data.rooms[i].roomId in r.roomMap
    ensures forall k :: k in st.roomMap ==> k in r.roomMap && r.roomMap[k] == st.roomMap[k]
    ensures r.isConnected == st.isConnected && r.userId == st.userId && r.data == st.data
  {
    var provided := ProvideRooms(st.(lastEvent := data.nextBatch), data.rooms);
    provided.(syncJob := None, notices := provided.notices + [SyncDone])
  }

  /** The failure handler: forget the job, then loginError for an access
      error and connectionError for any other, with the job's errorString. */
  function SyncFailed(st: State, s: JobStatus.Status): (r: State)
    ensures r.syncJob.None?
    ensures s.code == JobStatus.ContentAccessError ==> r.notices == st.notices + [LoginError(s.message)]
    ensures s.code != JobStatus.ContentAccessError ==> r.notices == st.notices + [ConnectionError(s.message)]
    ensures r.(syncJob := st.syncJob, notices := st.notices) == st
  {
    var notice := if s.code == JobStatus.ContentAccessError then LoginError(s.message) else ConnectionError(s.message);
    st.(syncJob := None, notices := st.notices + [notice])
  }

  /** The handlers wired to the job's success and failure signals. */
  function SyncJobFinished(st: State, j: BaseJob.Job, data: SyncJob.SyncData): State {
    if BaseJob.SuccessSignal in j.trace then SyncSucceeded(st, data)
    else if BaseJob.FailureSignal in j.trace then SyncFailed(st, j.status)
    else st.(syncJob := Some(j))
  }

  /** A waiting job that receives its reply emits success or failure. */
  lemma WaitingJobAnswers(j: BaseJob.Job, reply: Reply, parse: Parser)
    ensures j.trace == [] && j.replyConnected ==>
              var g := BaseJob.GotReply(j, reply, parse, SyncJob.ParseJsonStatus);
              BaseJob.SuccessSignal in g.trace || BaseJob.FailureSignal in g.trace
  {
    if j.trace == [] && j.replyConnected {
      var g := BaseJob.GotReply(j, reply, parse, SyncJob.ParseJsonStatus);
      assert g.trace == BaseJob.Emission(g.status, true);
    }
  }

  /** The outstanding job's reply arrives. */
  function SyncReplied(st: State, reply: Reply, parse: Parser): (r: State)
    ensures st.syncJob.None? ==> r == st
    ensures SyncPending(st) && st.syncJob.Some? ==>
              && r.syncJob.None? && |r.notices| > |st.notices|
              && var last := r.notices[|r.notices| - 1];
                 last == SyncDone || last.LoginError? || last.ConnectionError?
    ensures r.data == st.data && r.isConnected == st.isConnected && r.userId == st.userId
  {
    match st.syncJob
    case None => st
    case Some(j) =>
      WaitingJobAnswers(j, reply, parse);
      SyncJobFinished(st, BaseJob.GotReply(j, reply, parse, SyncJob.ParseJsonStatus), SyncResult(parse, reply.body))
  }

  /** The outstanding job's timer fires. */
  function SyncTimedOut(st: State): (r: State)
    ensures st.syncJob.None? ==> r == st
    ensures SyncPending(st) && st.syncJob.Some? ==>
              && r.syncJob.None? && r.notices == st.notices + [ConnectionError(BaseJob.TimeoutMessage)]
              && r.lastEvent == st.lastEvent && r.roomMap == st.roomMap
    ensures r.data == st.data && r.isConnected == st.isConnected && r.userId == st.userId
  {
    match st.syncJob
    case None => st
    case Some(j) => SyncJobFinished(st, BaseJob.Timeout(j), SyncJob.SyncData("", []))
  }

  /** A reply that arrives and parses completes the sync: the token moves
      to next_batch, every decoded room is known, syncDone is emitted. */
  lemma SyncReplySucceeds(st: State, reply: Reply, parse: Parser)
    requires SyncPending(st) && st.syncJob.Some?
    requires reply.error == ReplyOk && parse(reply.body).Parsed?
    ensures var r := SyncReplied(st, reply, parse);
            var data := SyncJob.Decode(parse(reply.body).doc);
            && r.lastEvent == data.nextBatch && r.syncJob.None?
            && r.notices[|r.notices| - 1] == SyncDone
            && (forall i :: 0 <= i < |data.rooms| && data.rooms[i].roomId != "" ==> data.rooms[i].roomId in r.roomMap)
  {
    var j := BaseJob.GotReply(st.syncJob.value, reply, parse, SyncJob.ParseJsonStatus);
    assert j.trace == BaseJob.Emission(j.status, true);
  }

  /** A transport error ends the sync with loginError for the access errors
      and connectionError for the rest, carrying the reply's error string;
      the token is kept. */
  lemma SyncReplyErrorIsReported(st: State, reply: Reply, parse: Parser)
    requires SyncPending(st) && st.syncJob.Some?
    requires reply.error != ReplyOk
    ensures var r := SyncReplied(st, reply, parse);
            && r.syncJob.None? && r.lastEvent == st.lastEvent
            && (reply.error.OtherError? ==> r.notices == st.notices + [ConnectionError(reply.errorString)])
            && (!reply.error.OtherError? ==> r.notices == st.notices + [LoginError(reply.errorString)])
  {
    var j := BaseJob.GotReply(st.syncJob.value, reply, parse, SyncJob.ParseJsonStatus);
    assert j.trace == BaseJob.Emission(j.status, true);
  }

  /** An unparsable body is a connection error carrying the parser's
      message. */
  lemma SyncMalformedBodyIsConnectionError(st: State, reply: Reply, parse: Parser)
    requires SyncPending(st) && st.syncJob.Some?
    requires reply.error == ReplyOk && parse(reply.body).Malformed?
    ensures var r := SyncReplied(st, reply, parse);
            r.syncJob.None? && r.notices == st.notices + [ConnectionError(parse(reply.body).error)]
  {
    var j := BaseJob.GotReply(st.syncJob.value, reply, parse, SyncJob.ParseJsonStatus);
    assert j.trace == BaseJob.Emission(j.status, true);
  }

  /** A timed-out sync is reported as a connection error. */
  lemma SyncTimeoutIsConnectionError(st: State)
    requires SyncPending(st) && st.syncJob.Some?
    ensures var r := SyncTimedOut(st);
            r.syncJob.None? && r.notices == st.notices + [ConnectionError(BaseJob.TimeoutMessage)]
  {
  }

  /** disconnectFromServer: abandon and forget any sync job, mark the
      connection as not connected. */
  function DisconnectFromServer(st: State): (r: State)
    ensures r.syncJob.None? && !r.isConnected
    ensures r.(syncJob := st.syncJob, isConnected := st.isConnected) == st
  {
    st.(syncJob := None, isConnected := false)
  }

  /** The abandoned job emits only finished, which nothing listens to: a
      late reply changes nothing, and a new sync can start. */
  lemma DisconnectDropsSync(st: State, reply: Reply, parse: Parser, timeout: int)
    ensures var d := DisconnectFromServer(st);
            SyncReplied(d, reply, parse) == d && SyncTimedOut(d) == d && Sync(d, timeout).syncJob.Some?
  {
  }

  // Login and session.

  /** connectWithToken: connected, with the user id and the token stored. */
  function ConnectWithToken(st: State, userId: string, token: string): (r: State)
    ensures r.isConnected && r.userId == userId && r.data.accessToken == token
    ensures r.notices == st.notices + [Connected]
    ensures r.data.basePath == st.data.basePath
    ensures r.(isConnected := st.isConnected, userId := st.userId, data := st.data, notices := st.notices) == st
  {
    st.(isConnected := true, userId := userId, data := st.data.(accessToken := token),
        notices := st.notices + [Connected])
  }

  /** The handler a finished call triggers: onSuccess or onFailure after a
      result, nothing after a silent finish or while pending. */
  function Handler<T>(c: ServerCall.Call<T>, default: T): Option<ServerCall.Delivery<T>> {
    if |c.trace| == 2 then Some(ServerCall.Deliver(c, default, c.trace[1])) else None
  }

  const NoAccess := Calls.AccessData("", "", "")

  /** A PasswordLogin call and the one event that ends it. */
  function LoginCall(data: ConnectionData, user: string, password: string, outcome: ServerCall.Event, parse: Parser)
    : ServerCall.Call<Calls.AccessData>
  {
    ServerCall.Step(ServerCall.Construct(data, Calls.NewPasswordLogin(user, password)), outcome,
                    ServerCall.JsonDecoder(parse, Calls.ParsePasswordLogin))
  }

  /** The login handlers: on success connect with the returned id and
      token, on failure emit loginError. */
  function OnLogin(st: State, handled: Option<ServerCall.Delivery<Calls.AccessData>>): (r: State)
    ensures r.roomMap == st.roomMap && r.userMap == st.userMap && r.syncJob == st.syncJob
    ensures handled.Some? && handled.value.ToSuccess? ==>
              && r.isConnected && r.userId == handled.value.value.id
              && r.data.accessToken == handled.value.value.token && r.data.basePath == st.data.basePath
              && r.notices == st.notices + [Connected]
              && r.(isConnected := st.isConnected, userId := st.userId, data := st.data, notices := st.notices) == st
    ensures handled.Some? && handled.value.ToFailure? ==>
              r == st.(notices := st.notices + [LoginError(handled.value.status.message)])
    ensures !(handled.Some? && (handled.value.ToSuccess? || handled.value.ToFailure?)) ==> r == st
  {
    if handled.Some? && handled.value.ToSuccess? then
      ConnectWithToken(st, handled.value.value.id, handled.value.value.token)
    else if handled.Some? && handled.value.ToFailure? then
      st.(notices := st.notices + [LoginError(handled.value.status.message)])
    else st
  }

  /** connectToServer: keep the credentials for reconnect and wire the
      login handlers to the call. */
  function ConnectToServer(st: State, user: string, password: string, outcome: ServerCall.Event, parse: Parser): (r: State)
    ensures r.username == user && r.password == password
    ensures r.roomMap == st.roomMap && r.userMap == st.userMap && r.syncJob == st.syncJob
    ensures r.lastEvent == st.lastEvent && r.data.basePath == st.data.basePath
    ensures !outcome.ReplyArrived? ==> r == st.(username := user, password := password)
  {
    OnLogin(st.(username := user, password := password),
            Handler(LoginCall(st.data, user, password, outcome, parse), NoAccess))
  }

  /** A waiting login call that receives the server's reply hands its
      access data to onSuccess. */
  lemma LoginReplyDelivers(c: ServerCall.Call<Calls.AccessData>, reply: Reply, parse: Parser, ad: Calls.AccessData)
    requires c.replyHeld && c.trace == []
    requires reply.error == ReplyOk && parse(reply.body) == Parsed(JObject(Calls.LoginReply(ad)))
    ensures Handler(ServerCall.GotReply(c, reply, ServerCall.JsonDecoder(parse, Calls.ParsePasswordLogin)), NoAccess)
            == Some(ServerCall.ToSuccess(ad))
  {
    Calls.LoginReplyRoundTrip(ad);
  }

  /** The server's login reply connects the session with the id and token
      it carries. */
  lemma LoginReplyConnects(st: State, user: string, password: string, reply: Reply, parse: Parser, ad: Calls.AccessData)
    requires reply.error == ReplyOk && parse(reply.body) == Parsed(JObject(Calls.LoginReply(ad)))
    ensures var r := ConnectToServer(st, user, password, ServerCall.ReplyArrived(reply), parse);
            && r.isConnected && r.userId == ad.id && r.data.accessToken == ad.token
            && r.username == user && r.password == password
            && r.notices == st.notices + [Connected]
  {
    var c := ServerCall.Construct<Calls.AccessData>(st.data, Calls.NewPasswordLogin(user, password));
    LoginReplyDelivers(c, reply, parse, ad);
  }

  /** A login the server rejects emits loginError with the reply's error
      string and leaves the session as it was. */
  lemma LoginRejectedIsReported(st: State, user: string, password: string, reply: Reply, parse: Parser)
    requires reply.error != ReplyOk
    ensures var r := ConnectToServer(st, user, password, ServerCall.ReplyArrived(reply), parse);
            && r.notices == st.notices + [LoginError(reply.errorString)]
            && r.isConnected == st.isConnected && r.data == st.data
  {
  }

  /** A login call that times out finishes silently: only the credentials
      are kept. */
  lemma LoginTimeoutIsSilent(st: State, user: string, password: string, parse: Parser)
    ensures ConnectToServer(st, user, password, ServerCall.TimerFired, parse) == st.(username := user, password := password)
  {
  }

  /** The reconnect handlers: success stores the user id, failure emits
      loginError and marks the connection down. */
  function OnReconnect(st: State, handled: Option<ServerCall.Delivery<Calls.AccessData>>): (r: State)
    ensures r.data == st.data && r.roomMap == st.roomMap && r.userMap == st.userMap && r.syncJob == st.syncJob
    ensures handled.Some? && handled.value.ToSuccess? ==>
              && r.userId == handled.value.value.id && r.notices == st.notices + [Reconnected]
              && r.(userId := st.userId, notices := st.notices) == st
    ensures handled.Some? && handled.value.ToFailure? ==>
              && !r.isConnected && r.notices == st.notices + [LoginError(handled.value.status.message)]
              && r.(isConnected := st.isConnected, notices := st.notices) == st
    ensures !(handled.Some? && (handled.value.ToSuccess? || handled.value.ToFailure?)) ==> r == st
  {
    if handled.Some? && handled.value.ToSuccess? then
      st.(userId := handled.value.value.id, notices := st.notices + [Reconnected])
    else if handled.Some? && handled.value.ToFailure? then
      st.(isConnected := false, notices := st.notices + [LoginError(handled.value.status.message)])
    else st
  }

  /** reconnect: log in again with the kept credentials. */
  function Reconnect(st: State, outcome: ServerCall.Event, parse: Parser): (r: State)
    ensures r.data == st.data && r.username == st.username && r.password == st.password
    ensures r.roomMap == st.roomMap && r.userMap == st.userMap && r.syncJob == st.syncJob
    ensures !outcome.ReplyArrived? ==> r == st
  {
    OnReconnect(st, Handler(LoginCall(st.data, st.username, st.password, outcome, parse), NoAccess))
  }

  /** A reconnect the server rejects emits loginError with the reply's
      error string and marks the connection down, keeping the token. */
  lemma ReconnectRejectedIsReported(st: State, reply: Reply, parse: Parser)
    requires reply.error != ReplyOk
    ensures var r := Reconnect(st, ServerCall.ReplyArrived(reply), parse);
            && r.notices == st.notices + [LoginError(reply.errorString)]
            && !r.isConnected && r.data == st.data && r.userId == st.userId
  {
  }

  /** A successful reconnect stores the new user id but keeps the old
      access token. */
  lemma ReconnectKeepsToken(st: State, reply: Reply, parse: Parser, ad: Calls.AccessData)
    requires reply.error == ReplyOk && parse(reply.body) == Parsed(JObject(Calls.LoginReply(ad)))
    ensures var r := Reconnect(st, ServerCall.ReplyArrived(reply), parse);
            r.userId == ad.id && r.data.accessToken == st.data.accessToken && r.notices == st.notices + [Reconnected]
  {
    var c := ServerCall.Construct<Calls.AccessData>(st.data, Calls.NewPasswordLogin(st.username, st.password));
    LoginReplyDelivers(c, reply, parse, ad);
  }

  /** logout: the Logout call's success handler clears the token and emits
      loggedOut; failure has no handler. */
  function Logout(st: State, succeeded: bool): (r: State)
    ensures succeeded ==> r.data.accessToken == "" && r.notices == st.notices + [LoggedOut]
    ensures !succeeded ==> r == st
    ensures r.isConnected == st.isConnected && r.data.basePath == st.data.basePath
    ensures r.(data := st.data, notices := st.notices) == st
  {
    if succeeded then st.(data := st.data.(accessToken := ""), notices := st.notices + [LoggedOut]) else st
  }

  /** joinRoom: on success, provideRoom for the returned id and joinedRoom
      when there is a room; a failure has no handler. */
  function JoinRoom(st: State, roomAlias: string, outcome: ServerCall.Event, parse: Parser): (r: State)
    ensures r.(roomMap := st.roomMap, notices := st.notices) == st
    ensures forall k :: k in st.roomMap ==> k in r.roomMap && r.roomMap[k] == st.roomMap[k]
    ensures !outcome.ReplyArrived? || outcome.reply.error != ReplyOk ==> r == st
  {
    var c := ServerCall.Step(ServerCall.Construct<string>(st.data, Calls.NewJoinRoom(roomAlias)), outcome,
                             ServerCall.JsonDecoder(parse, Calls.ParseJoinRoom));
    var handled := Handler(c, "");
    if handled.Some? && handled.value.ToSuccess? then
      var (st1, room) := ProvideRoom(st, handled.value.value);
      if room.Some? then st1.(notices := st1.notices + [JoinedRoom(room.value.id)]) else st1
    else st
  }

  /** A reply naming the room makes it known and emits joinedRoom for it. */
  lemma JoinRoomReplyJoins(st: State, roomAlias: string, reply: Reply, parse: Parser, roomId: string)
    requires Keyed(st)
    requires reply.error == ReplyOk && parse(reply.body) == Parsed(JObject([("room_id", JString(roomId))]))
    requires roomId != ""
    ensures var r := JoinRoom(st, roomAlias, ServerCall.ReplyArrived(reply), parse);
            && roomId in r.roomMap
            && r.notices[|r.notices| - 1] == JoinedRoom(roomId)
  {
    Calls.JoinReplyRoundTrip(roomId);
    var c := ServerCall.GotReply(ServerCall.Construct<string>(st.data, Calls.NewJoinRoom(roomAlias)), reply,
                                 ServerCall.JsonDecoder(parse, Calls.ParseJoinRoom));
    assert c.promise == CallStatus.FromValue(roomId);
    assert c.trace == [ServerCall.ResultReady, ServerCall.SuccessSignal];
    assert Handler(c, "") == Some(ServerCall.ToSuccess(roomId));
  }

  /** A failed join changes nothing. */
  lemma JoinRoomFailureIsIgnored(st: State, roomAlias: string, reply: Reply, parse: Parser)
    requires reply.error != ReplyOk
    ensures JoinRoom(st, roomAlias, ServerCall.ReplyArrived(reply), parse) == st
  {
  }

  // Runs of events and the invariant.

  datatype Event =
    | SyncRequested(timeout: int)
    | SyncReply(reply: Reply)
    | SyncTimer
    | Disconnect
    | TokenConnect(userId: string, token: string)
    | Login(user: string, password: string, loginOutcome: ServerCall.Event)
    | ReconnectRequested(reconnectOutcome: ServerCall.Event)
    | LogoutFinished(succeeded: bool)
    | Join(roomAlias: string, joinOutcome: ServerCall.Event)
    | RoomLookup(roomId: string)
    | UserLookup(lookupId: string)
    | CurrentUserLookup

  function Step(st: State, e: Event, parse: Parser): State {
    match e
    case SyncRequested(timeout) => Sync(st, timeout)
    case SyncReply(reply) => SyncReplied(st, reply, parse)
    case SyncTimer => SyncTimedOut(st)
    case Disconnect => DisconnectFromServer(st)
    case TokenConnect(userId, token) => ConnectWithToken(st, userId, token)
    case Login(user, password, outcome) => ConnectToServer(st, user, password, outcome, parse)
    case ReconnectRequested(outcome) => Reconnect(st, outcome, parse)
    case LogoutFinished(succeeded) => Logout(st, succeeded)
    case Join(roomAlias, outcome) => JoinRoom(st, roomAlias, outcome, parse)
    case RoomLookup(roomId) => ProvideRoom(st, roomId).0
    case UserLookup(id) => UserFor(st, id).0
    case CurrentUserLookup => CurrentUser(st).0
  }

  function Run(st: State, events: seq<Event>, parse: Parser): State
    decreases |events|
  {
    if |events| == 0 then st else Run(Step(st, events[0], parse), events[1..], parse)
  }

  /** Appending a notice other than newRoom, with the rooms and users kept
      and the sync job kept or dropped, keeps the invariant. */
  lemma OtherNoticeKeepsValid(st: State, r: State, n: Notice)
    requires Valid(st) && !n.NewRoom?
    requires r.roomMap == st.roomMap && r.userMap == st.userMap
    requires r.syncJob == st.syncJob || r.syncJob.None?
    requires r.notices == st.notices + [n]
    ensures Valid(r)
  {
    assert multiset(r.notices) == multiset(st.notices) + multiset{n};
  }

  lemma SyncHandlersKeepValid(st: State, s: JobStatus.Status, data: SyncJob.SyncData)
    requires Valid(st)
    ensures Valid(SyncSucceeded(st, data)) && Valid(SyncFailed(st, s))
  {
    var provided := ProvideRooms(st.(lastEvent := data.nextBatch), data.rooms);
    ProvideRoomsKeepsValid(st.(lastEvent := data.nextBatch), data.rooms);
    OtherNoticeKeepsValid(provided, SyncSucceeded(st, data), SyncDone);
    var notice := if s.code == JobStatus.ContentAccessError then LoginError(s.message) else ConnectionError(s.message);
    OtherNoticeKeepsValid(st, SyncFailed(st, s), notice);
  }

  lemma SyncRepliedKeepsValid(st: State, reply: Reply, parse: Parser)
    requires Valid(st)
    ensures Valid(SyncReplied(st, reply, parse))
  {
    if st.syncJob.Some? {
      var j := BaseJob.GotReply(st.syncJob.value, reply, parse, SyncJob.ParseJsonStatus);
      assert j.trace == BaseJob.Emission(j.status, true);
      assert BaseJob.SuccessSignal in j.trace || BaseJob.FailureSignal in j.trace;
      SyncHandlersKeepValid(st, j.status, SyncResult(parse, reply.body));
    }
  }

  lemma JoinRoomKeepsValid(st: State, roomAlias: string, outcome: ServerCall.Event, parse: Parser)
    requires Valid(st)
    ensures Valid(JoinRoom(st, roomAlias, outcome, parse))
  {
    var c := ServerCall.Step(ServerCall.Construct<string>(st.data, Calls.NewJoinRoom(roomAlias)), outcome,
                             ServerCall.JsonDecoder(parse, Calls.ParseJoinRoom));
    var handled := Handler(c, "");
    if handled.Some? && handled.value.ToSuccess? {
      ProvideRoomKeepsValid(st, handled.value.value);
    }
  }

  lemma LoginHandlersKeepValid(st: State, handled: Option<ServerCall.Delivery<Calls.AccessData>>)
    requires Valid(st)
    ensures Valid(OnLogin(st, handled)) && Valid(OnReconnect(st, handled))
  {
    if handled.Some? && handled.value.ToSuccess? {
      OtherNoticeKeepsValid(st, OnLogin(st, handled), Connected);
      OtherNoticeKeepsValid(st, OnReconnect(st, handled), Reconnected);
    } else if handled.Some? && handled.value.ToFailure? {
      OtherNoticeKeepsValid(st, OnLogin(st, handled), LoginError(handled.value.status.message));
      OtherNoticeKeepsValid(st, OnReconnect(st, handled), LoginError(handled.value.status.message));
    }
  }

  lemma UserLookupsKeepValid(st: State, id: string)
    requires Valid(st)
    ensures Valid(UserFor(st, id).0) && Valid(CurrentUser(st).0)
  {
  }

  lemma SyncStartKeepsValid(st: State, timeout: int)
    requires Valid(st)
    ensures Valid(Sync(st, timeout)) && Valid(SyncTimedOut(st))
  {
  }

  lemma SessionUpdatesKeepValid(st: State, userId: string, token: string, succeeded: bool)
    requires Valid(st)
    ensures Valid(DisconnectFromServer(st)) && Valid(ConnectWithToken(st, userId, token)) && Valid(Logout(st, succeeded))
  {
  }

  /** The sync events keep the invariant. */
  lemma SyncStepsKeepValid(st: State, e: Event, parse: Parser)
    requires Valid(st)
    requires e.SyncRequested? || e.SyncReply? || e.SyncTimer? || e.Disconnect?
    ensures Valid(Step(st, e, parse))
  {
    if e.SyncRequested? {
      SyncStartKeepsValid(st, e.timeout);
    } else if e.SyncReply? {
      SyncRepliedKeepsValid(st, e.reply, parse);
    } else if e.SyncTimer? {
      SyncStartKeepsValid(st, 0);
    } else {
      SessionUpdatesKeepValid(st, "", "", false);
    }
  }

  /** The login, reconnect and logout events keep the invariant. */
  lemma SessionStepsKeepValid(st: State, e: Event, parse: Parser)
    requires Valid(st)
    requires e.TokenConnect? || e.Login? || e.ReconnectRequested? || e.LogoutFinished?
    ensures Valid(Step(st, e, parse))
  {
    if e.TokenConnect? {
      SessionUpdatesKeepValid(st, e.userId, e.token, false);
    } else if e.Login? {
      var handled := Handler(LoginCall(st.data, e.user, e.password, e.loginOutcome, parse), NoAccess);
      LoginHandlersKeepValid(st.(username := e.user, password := e.password), handled);
      assert Step(st, e, parse) == OnLogin(st.(username := e.user, password := e.password), handled);
    } else if e.ReconnectRequested? {
      var handled := Handler(LoginCall(st.data, st.username, st.password, e.reconnectOutcome, parse), NoAccess);
      LoginHandlersKeepValid(st, handled);
      assert Step(st, e, parse) == OnReconnect(st, handled);
    } else {
      SessionUpdatesKeepValid(st, "", "", e.succeeded);
    }
  }

  /** Joining and the room and user lookups keep the invariant. */
  lemma LookupStepsKeepValid(st: State, e: Event, parse: Parser)
    requires Valid(st)
    requires e.Join? || e.RoomLookup? || e.UserLookup? || e.CurrentUserLookup?
    ensures Valid(Step(st, e, parse))
  {
    if e.Join? {
      JoinRoomKeepsValid(st, e.roomAlias, e.joinOutcome, parse);
    } else if e.RoomLookup? {
      ProvideRoomKeepsValid(st, e.roomId);
    } else if e.UserLookup? {
      UserLookupsKeepValid(st, e.lookupId);
    } else {
      UserLookupsKeepValid(st, st.userId);
    }
  }

  lemma StepKeepsValid(st: State, e: Event, parse: Parser)
    requires Valid(st)
    ensures Valid(Step(st, e, parse))
  {
    if e.SyncRequested? || e.SyncReply? || e.SyncTimer? || e.Disconnect? {
      SyncStepsKeepValid(st, e, parse);
    } else if e.TokenConnect? || e.Login? || e.ReconnectRequested? || e.LogoutFinished? {
      SessionStepsKeepValid(st, e, parse);
    } else {
      LookupStepsKeepValid(st, e, parse);
    }
  }

  /** Whatever happens from construction on, every room is announced
      exactly once and a stored sync job is always one still waiting. */
  lemma {:induction false} RunKeepsValid(st: State, events: seq<Event>, parse: Parser)
    requires Valid(st)
    ensures Valid(Run(st, events, parse))
    decreases |events|
  {
    if |events| > 0 {
      StepKeepsValid(st, events[0], parse);
      RunKeepsValid(Step(st, events[0], parse), events[1..], parse);
    }
  }
}

=== FILE: decimal.dfy ===
/** Decimal rendering of integers, as QString::number(int) and
    QString::arg(size_t) produce it, together with its inverse. */
module Decimal {
  import opened Wrappers

  predicate IsDigit(c: char) {
    '0' <= c <= '9'
  }

  /** A non-empty run of decimal digits. */
  predicate IsDigits(s: string) {
    |s| > 0 && forall i :: 0 <= i < |s| ==> IsDigit(s[i])
  }

  function DigitChar(d: nat): (c: char)
    requires d < 10
    ensures IsDigit(c)
    ensures c as int - '0' as int == d
  {
    ('0' as int + d) as char
  }

  /** Base-10 digits of n, most significant first, without leading zeros. */
  function NatToString(n: nat): (s: string)
    ensures IsDigits(s)
    ensures s[0] == '0' <==> n == 0
    ensures n == 0 ==> s == "0"
    decreases n
  {
    if n < 10 then [DigitChar(n)] else NatToString(n / 10) + [DigitChar(n % 10)]
  }

  /** QString::number for an int: a minus sign in front of negative values. */
  function IntToString(i: int): (s: string)
    ensures i >= 0 ==> IsDigits(s) && (s[0] == '0' <==> i == 0)
    ensures i < 0 ==> |s| > 1 && s[0] == '-' && IsDigits(s[1..]) && s[1] != '0'
  {
    if i < 0 then
      var digits := NatToString(-i);
      assert ("-" + digits)[1..] == digits;
      "-" + digits
    else NatToString(i)
  }

  function DigitValue(c: char): nat
    requires IsDigit(c)
  {
    c as int - '0' as int
  }

  /** The value of a run of digits (the reference reading of a decimal). */
  function DigitsValue(s: string): nat
    requires forall i :: 0 <= i < |s| ==> IsDigit(s[i])
  {
    if |s| == 0 then 0
    else DigitsValue(s[..|s| - 1]) * 10 + DigitValue(s[|s| - 1])
  }

  /** Reads an optionally signed decimal back into an int. */
  function ParseInt(s: string): Option<int> {
    if |s| > 1 && s[0] == '-' && IsDigits(s[1..]) then Some(0 - DigitsValue(s[1..]) as int)
    else if IsDigits(s) then Some(DigitsValue(s))
    else None
  }

  lemma {:induction false} NatToStringRoundTrip(n: nat)
    ensures DigitsValue(NatToString(n)) == n
    decreases n
  {
    var s := NatToString(n);
    if n >= 10 {
      NatToStringRoundTrip(n / 10);
      assert s[..|s| - 1] == NatToString(n / 10);
    }
  }

  /** Reading back what QString::number wrote gives the same int. */
  lemma IntToStringRoundTrip(i: int)
    ensures ParseInt(IntToString(i)) == Some(i)
  {
    if i < 0 {
      NatToStringRoundTrip(-i);
      assert IntToString(i)[1..] == NatToString(-i);
    } else {
      NatToStringRoundTrip(i);
    }
  }

  /** Distinct ints are written as distinct strings. */
  lemma IntToStringInjective(a: int, b: int)
    requires a != b
    ensures IntToString(a) != IntToString(b)
  {
    IntToStringRoundTrip(a);
    IntToStringRoundTrip(b);
  }
}

=== FILE: jobs.dfy ===
/** The endpoint jobs of the older generation: each is a RequestConfig for
    BaseJob plus the parseJson override BaseJob calls on a well-formed
    reply. */
module Jobs {
  import opened Wrappers
  import opened Json
  import opened Request
  import opened Transport
  import opened JobStatus
  import BaseJob
  import Decimal

  // RoomMessagesJob

  datatype FetchDirection = Backward | Forward

  /** The text the dir item carries. */
  function DirText(dir: FetchDirection): string {
    if dir == Backward then "b" else "f"
  }

  /** Reading a dir item back: "b" is Backward, anything else Forward. */
  function DirFromText(s: string): FetchDirection {
    if s == "b" then Backward else Forward
  }

  /** The constructor: a GET on the room's messages with exactly the items
      from, dir and limit, in that order. */
  function NewRoomMessagesJob(roomId: string, from: string, limit: int, dir: FetchDirection): (rc: RequestConfig)
    ensures rc.name == "RoomMessagesJob" && rc.verb == Get && rc.needsToken
    ensures rc.endpoint == ApiPath("/_matrix/client/r0/rooms/" + roomId + "/messages")
    ensures rc.contentType == JsonMimeType && rc.data == Dump([])
    ensures |rc.query| == 3 && rc.query[0] == ("from", from)
    ensures rc.query[1].0 == "dir" && rc.query[2].0 == "limit"
    ensures rc.query[1].1 == "b" <==> dir == Backward
    ensures rc.query[1].1 == "f" <==> dir == Forward
    ensures Decimal.ParseInt(rc.query[2].1) == Some(limit)
  {
    Decimal.IntToStringRoundTrip(limit);
    NewJson("RoomMessagesJob", Get, ApiPath("/_matrix/client/r0/rooms/" + roomId + "/messages"),
            MakeQuery([("from", from), ("dir", DirText(dir)), ("limit", Decimal.IntToString(limit))]))
  }

  /** The query of a messages job gives back the direction and the limit it
      was built from. */
  lemma RoomMessagesQueryRoundTrip(roomId: string, from: string, limit: int, dir: FetchDirection)
    ensures var q := NewRoomMessagesJob(roomId, from, limit, dir).query;
            DirFromText(q[1].1) == dir && Decimal.ParseInt(q[2].1) == Some(limit) && q[0].1 == from
  {
  }

  /** What parseJson stores: the chunk events and the end token. */
  datatype Messages = Messages(events: seq<Json>, end: string)

  /** parseJson: the chunk array (empty when absent or not an array), the end
      string ("" when absent or not a string), and Success for any document. */
  function ParseRoomMessages(doc: Json): (r: (Status, Messages))
    ensures r.0 == FromCode(Success) && Good(r.0)
    ensures forall items :: Value(DocObject(doc), "chunk") == Some(JArray(items)) ==> r.1.events == items
    ensures !(Value(DocObject(doc), "chunk").Some? && Value(DocObject(doc), "chunk").value.JArray?) ==> r.1.events == []
    ensures forall s :: Value(DocObject(doc), "end") == Some(JString(s)) ==> r.1.end == s
    ensures !(Value(DocObject(doc), "end").Some? && Value(DocObject(doc), "end").value.JString?) ==> r.1.end == ""
  {
    var obj := DocObject(doc);
    (FromCode(Success), Messages(AsArray(Value(obj, "chunk")), AsString(Value(obj, "end"))))
  }

  /** The status half of parseJson, as BaseJob calls it. */
  function RoomMessagesStatus(doc: Json): Status {
    ParseRoomMessages(doc).0
  }

  /** A started messages job that receives a well-formed reply finishes with
      success. */
  lemma RoomMessagesSucceedOnWellFormedReply(j: BaseJob.Job, reply: Reply, parse: Parser)
    requires j.replyConnected && reply.error == ReplyOk && parse(reply.body).Parsed?
    ensures var r := BaseJob.GotReply(j, reply, parse, RoomMessagesStatus);
            r.status == FromCode(Success) && r.trace == j.trace + [BaseJob.Finished, BaseJob.ResultSignal, BaseJob.SuccessSignal]
  {
  }

  // PostMessageJob

  const EventIdMissing := "No event_id in the JSON response"

  /** The body of a message: msgtype and body. */
  function MessageBody(msgtype: string, message: string): (o: Object)
    ensures UniqueKeys(o) && forall k :: Contains(o, k) <==> k == "msgtype" || k == "body"
    ensures Value(o, "msgtype") == Some(JString(msgtype)) && Value(o, "body") == Some(JString(message))
  {
    var l := [("msgtype", JString(msgtype)), ("body", JString(message))];
    var o := FromPairs(l);
    FromPairsLookup(l, 0);
    FromPairsLookup(l, 1);
    assert Keys(l) == ["msgtype", "body"];
    o
  }

  /** The constructor: a POST of the message body to the room's send path
      for m.room.message, with no query items. */
  function NewPostMessageJob(roomId: string, msgtype: string, message: string): (rc: RequestConfig)
    ensures rc.name == "PostMessageJob" && rc.verb == Post && rc.needsToken
    ensures rc.endpoint == ApiPath("_matrix/client/r0/rooms/" + roomId + "/send/m.room.message")
    ensures rc.query == [] && rc.contentType == JsonMimeType
    ensures rc.data.Dump? && Value(rc.data.obj, "msgtype") == Some(JString(msgtype))
    ensures Value(rc.data.obj, "body") == Some(JString(message))
    ensures forall k :: Contains(rc.data.obj, k) <==> k == "msgtype" || k == "body"
  {
    NewJson("PostMessageJob", Post, ApiPath("_matrix/client/r0/rooms/" + roomId + "/send/m.room.message"),
            [], MessageBody(msgtype, message))
  }

  /** parseJson: Success exactly when the object has an event_id, otherwise
      UserDefinedError saying so. */
  function ParsePostMessage(doc: Json): (s: Status)
    ensures Good(s) <==> Contains(DocObject(doc), "event_id")
    ensures Good(s) ==> s == FromCode(Success)
    ensures !Good(s) ==> s == Status(UserDefinedError, EventIdMissing)
  {
    if Contains(DocObject(doc), "event_id") then FromCode(Success)
    else Status(UserDefinedError, EventIdMissing)
  }

  /** A reply echoing an event id makes the job succeed; a well-formed reply
      without one makes it fail with the missing-event_id message. */
  lemma PostMessageOutcome(j: BaseJob.Job, reply: Reply, parse: Parser)
    requires j.replyConnected && reply.error == ReplyOk && parse(reply.body).Parsed?
    ensures var r := BaseJob.GotReply(j, reply, parse, ParsePostMessage);
            var has := Contains(DocObject(parse(reply.body).doc), "event_id");
            && (has ==> r.trace == j.trace + [BaseJob.Finished, BaseJob.ResultSignal, BaseJob.SuccessSignal])
            && (!has ==> r.trace == j.trace + [BaseJob.Finished, BaseJob.ResultSignal, BaseJob.FailureSignal]
                         && BaseJob.ErrorString(r) == EventIdMissing)
  {
  }

  // CheckAuthMethods

  const NotImplemented := "Not implemented"

  /** The constructor: a GET on the login path that does not send the
      access token. */
  function NewCheckAuthMethods(): (rc: RequestConfig)
    ensures rc.name == "CheckAuthMethods" && rc.verb == Get && !rc.needsToken
    ensures rc.endpoint == ApiPath("_matrix/client/r0/login") && rc.query == []
  {
    NewShort("CheckAuthMethods", Get, ApiPath("_matrix/client/r0/login"), false)
  }

  /** The request sent for CheckAuthMethods carries no query items at all,
      so in particular no access token. */
  lemma CheckAuthMethodsSendsNoToken(conn: ConnectionData)
    ensures BaseJob.SendRequest(conn, NewCheckAuthMethods()).query == []
  {
  }

  /** parseJson: UserDefinedError "Not implemented", whatever the document. */
  function ParseCheckAuthMethods(doc: Json): (s: Status)
    ensures !Good(s) && s.code == UserDefinedError && s.message == NotImplemented
  {
    Status(UserDefinedError, NotImplemented)
  }

  /** Whatever the server answers, a CheckAuthMethods job that gets a reply
      ends in failure. */
  lemma CheckAuthMethodsAlwaysFails(j: BaseJob.Job, reply: Reply, parse: Parser)
    requires j.replyConnected
    ensures var r := BaseJob.GotReply(j, reply, parse, ParseCheckAuthMethods);
            !Good(r.status) && r.trace == j.trace + [BaseJob.Finished, BaseJob.ResultSignal, BaseJob.FailureSignal]
  {
  }
}

=== FILE: jobstatus.dfy ===
/** BaseJob::StatusCode and BaseJob::Status (the older job generation).
    A status is good below ErrorLevel (100). */
module JobStatus {

  const NoError := 0
  const Success := 0
  const ErrorLevel := 100
  const NetworkError := 100
  const JsonParseError := 101
  const TimeoutError := 102
  const ContentAccessError := 103
  const UserDefinedError := 200

  /** A code, described but not delimited by the constants above, and a
      free-form message. */
  datatype Status = Status(code: int, message: string)

  predicate Good(s: Status) {
    s.code < ErrorLevel
  }

  /** Status(StatusCode): the message stays empty. */
  function FromCode(c: int): (s: Status)
    ensures s.code == c && s.message == ""
  {
    Status(c, "")
  }

  /** Success is good; each predefined error code, and every code from
      ErrorLevel on, is not. */
  lemma CodeLevels(c: int)
    ensures Good(FromCode(Success))
    ensures c >= ErrorLevel ==> !Good(FromCode(c))
    ensures !Good(FromCode(NetworkError)) && !Good(FromCode(JsonParseError))
    ensures !Good(FromCode(TimeoutError)) && !Good(FromCode(ContentAccessError))
    ensures !Good(FromCode(UserDefinedError))
  {
  }
}

=== FILE: json.dfy ===
/** An abstract JSON value, standing for QJsonValue / QJsonObject /
    QJsonArray. JSON text itself is never read or written here: parsing is a
    function-typed parameter (Parser) and serialisation is kept symbolic. */
module Json {
  import opened Wrappers

  type Bytes = seq<bv8>

  /** Numbers are integers: floating point is not part of this model. */
  datatype Json =
    | JNull
    | JBool(b: bool)
    | JNumber(n: int)
    | JString(str: string)
    | JArray(items: seq<Json>)
    | JObject(members: Object)

  /** Object members in the order the object yields them. */
  type Object = seq<(string, Json)>

  /** Outcome of QJsonDocument::fromJson: a document, or the parser's error
      string and the byte offset at which it stopped. */
  datatype ParseOutcome = Parsed(doc: Json) | Malformed(error: string, offset: int)

  type Parser = Bytes -> ParseOutcome

  function Keys(o: Object): (ks: seq<string>)
    ensures |ks| == |o|
    ensures forall i :: 0 <= i < |o| ==> ks[i] == o[i].0
  {
    if |o| == 0 then [] else [o[0].0] + Keys(o[1..])
  }

  predicate Contains(o: Object, key: string) {
    key in Keys(o)
  }

  /** A QJsonObject never holds a key twice. */
  predicate UniqueKeys(o: Object) {
    forall i, j :: 0 <= i < j < |o| ==> o[i].0 != o[j].0
  }

  /** QJsonObject::value: None stands for QJsonValue::Undefined. */
  function Value(o: Object, key: string): Option<Json> {
    if |o| == 0 then None
    else if o[0].0 == key then Some(o[0].1)
    else Value(o[1..], key)
  }

  /** A lookup finds a value exactly for the keys the object holds, and the
      value it finds is paired with that key in the object. */
  lemma {:induction false} ValueFound(o: Object, key: string)
    ensures Value(o, key).Some? <==> Contains(o, key)
    ensures Value(o, key).Some? ==> (key, Value(o, key).value) in o
  {
    if |o| > 0 && o[0].0 != key {
      ValueFound(o[1..], key);
      assert Keys(o) == [o[0].0] + Keys(o[1..]);
    }
  }

  lemma {:induction false} ValueAt(o: Object, i: int)
    requires UniqueKeys(o)
    requires 0 <= i < |o|
    ensures Value(o, o[i].0) == Some(o[i].1)
  {
    if i > 0 {
      assert UniqueKeys(o[1..]) by {
        forall a, b | 0 <= a < b < |o[1..]| ensures o[1..][a].0 != o[1..][b].0 {
          assert o[1..][a] == o[a + 1] && o[1..][b] == o[b + 1];
        }
      }
      assert o[0].0 != o[i].0;
      ValueAt(o[1..], i - 1);
    }
  }

  // QJsonValue conversions; each falls back to Qt's default when the value
  // is undefined or of another type.

  function AsString(v: Option<Json>): (s: string)
    ensures v == Some(JString(s)) || s == ""
  {
    if v.Some? && v.value.JString? then v.value.str else ""
  }

  function AsObject(v: Option<Json>): (o: Object)
    ensures v == Some(JObject(o)) || o == []
  {
    if v.Some? && v.value.JObject? then v.value.members else []
  }

  function AsArray(v: Option<Json>): (a: seq<Json>)
    ensures v == Some(JArray(a)) || a == []
  {
    if v.Some? && v.value.JArray? then v.value.items else []
  }

  function AsBool(v: Option<Json>): (b: bool)
    ensures b ==> v == Some(JBool(true))
  {
    v.Some? && v.value.JBool? && v.value.b
  }

  /** The range of a C++ int, which is what toInt() returns. */
  const IntMin := -0x8000_0000
  const IntMax := 0x7fff_ffff

  predicate FitsInt(n: int) {
    IntMin <= n <= IntMax
  }

  /** QJsonValue::toInt(): the number held when it fits in an int, and the
      default 0 for anything else, out-of-range numbers included. */
  function AsInt(v: Option<Json>): (n: int)
    ensures FitsInt(n)
    ensures v == Some(JNumber(n)) || n == 0
    ensures forall m :: v == Some(JNumber(m)) && FitsInt(m) ==> n == m
    ensures forall m :: v == Some(JNumber(m)) && !FitsInt(m) ==> n == 0
  {
    if v.Some? && v.value.JNumber? && FitsInt(v.value.n) then v.value.n else 0
  }

  /** QJsonDocument::object(): an empty object unless the document is one. */
  function DocObject(doc: Json): (o: Object)
    ensures doc == JObject(o) || o == []
  {
    if doc.JObject? then doc.members else []
  }

  /** QJsonObject::insert: replaces the value of an existing key in place,
      otherwise adds the key. A new key goes at the end here; Qt keeps the
      keys sorted instead. */
  function Insert(o: Object, key: string, v: Json): (r: Object)
    ensures Value(r, key) == Some(v)
    ensures forall k :: k != key ==> Value(r, k) == Value(o, k)
    ensures Keys(r) == if Contains(o, key) then Keys(o) else Keys(o) + [key]
  {
    if |o| == 0 then [(key, v)]
    else if o[0].0 == key then
      assert Keys([(key, v)] + o[1..]) == Keys(o);
      [(key, v)] + o[1..]
    else
      var rest := Insert(o[1..], key, v);
      assert ([o[0]] + rest)[1..] == rest;
      assert Keys(o) == [o[0].0] + Keys(o[1..]);
      [o[0]] + rest
  }

  /** Inserting into a QJsonObject keeps its keys unique. */
  lemma InsertKeepsUniqueKeys(o: Object, key: string, v: Json)
    requires UniqueKeys(o)
    ensures UniqueKeys(Insert(o, key, v))
  {
    var r := Insert(o, key, v);
    forall i, j | 0 <= i < j < |r| ensures r[i].0 != r[j].0 {
      assert Keys(r)[i] == r[i].0 && Keys(r)[j] == r[j].0;
      if j < |o| {
        assert Keys(o)[i] == o[i].0 && Keys(o)[j] == o[j].0;
      } else {
        assert !Contains(o, key) && Keys(r)[j] == key;
        assert Keys(o)[i] == Keys(r)[i];
      }
    }
  }

  /** After an insert the object holds the keys it held, and the new one. */
  lemma InsertContains(o: Object, key: string, v: Json)
    ensures forall k :: Contains(Insert(o, key, v), k) <==> Contains(o, k) || k == key
  {
    var r := Insert(o, key, v);
    forall k ensures Contains(r, k) <==> Contains(o, k) || k == key {
      if !Contains(o, key) {
        assert Keys(r) == Keys(o) + [key];
      }
    }
  }

  lemma KeysOfSnoc(o: Object, m: (string, Json))
    ensures Keys(o + [m]) == Keys(o) + [m.0]
  {
    var a := Keys(o + [m]);
    var b := Keys(o) + [m.0];
    assert |a| == |b|;
    forall i | 0 <= i < |a| ensures a[i] == b[i] {
      if i < |o| { assert (o + [m])[i] == o[i]; }
    }
  }

  /** Inserting the last pair into an object holding the keys of the others
      yields an object holding the keys of all the pairs. */
  lemma InsertLast(l: seq<(string, Json)>, init: Object)
    requires |l| > 0
    requires forall k :: Contains(init, k) <==> k in Keys(l[..|l| - 1])
    ensures forall k :: Contains(Insert(init, l[|l| - 1].0, l[|l| - 1].1), k) <==> k in Keys(l)
  {
    var last := l[|l| - 1];
    var prefix := l[..|l| - 1];
    KeysOfSnoc(prefix, last);
    assert prefix + [last] == l;
    var ks := Keys(l);
    assert ks == Keys(prefix) + [last.0];
    InsertContains(init, last.0, last.1);
    forall k ensures Contains(Insert(init, last.0, last.1), k) <==> k in ks {
      assert k in ks <==> k in Keys(prefix) || k == last.0;
    }
  }

  /** Data(initializer_list): every pair inserted, left to right. */
  function FromPairs(l: seq<(string, Json)>): (r: Object)
    ensures UniqueKeys(r)
    ensures forall k :: Contains(r, k) <==> k in Keys(l)
  {
    if |l| == 0 then []
    else
      var init := FromPairs(l[..|l| - 1]);
      InsertKeepsUniqueKeys(init, l[|l| - 1].0, l[|l| - 1].1);
      InsertLast(l, init);
      Insert(init, l[|l| - 1].0, l[|l| - 1].1)
  }

  /** With distinct keys, every pair given to Data(...) is found again. */
  lemma {:induction false} FromPairsLookup(l: seq<(string, Json)>, i: int)
    requires UniqueKeys(l)
    requires 0 <= i < |l|
    ensures Value(FromPairs(l), l[i].0) == Some(l[i].1)
  {
    if i < |l| - 1 {
      var init := l[..|l| - 1];
      assert init[i] == l[i];
      FromPairsLookup(init, i);
    }
  }

  /** QJsonArray::fromStringList. */
  function StringArray(sl: seq<string>): (r: Json)
    ensures r.JArray? && |r.items| == |sl|
    ensures forall i :: 0 <= i < |sl| ==> r.items[i] == JString(sl[i])
  {
    JArray(seq(|sl|, i requires 0 <= i < |sl| => JString(sl[i])))
  }
}

=== FILE: request.dfy ===
/** RequestConfig, ApiPath, Query and Data. The jobs/ and serverapi/
    namespaces carry the same definitions, so they are modelled once. */
module Request {
  import opened Json
  import Decimal

  datatype HttpVerb = Get | Put | Post | Delete

  /** A request body: raw bytes, or Dump(o) standing for the serialised JSON
      text of o (Data::dump). */
  datatype Payload = Raw(bytes: Bytes) | Dump(obj: Object)

  /** URL query items, in order. */
  type Query = seq<(string, string)>

  const JsonMimeType := "application/json"

  const MatrixPrefix := "/_matrix/"

  /** ApiPath: plain concatenation of the prefix, scope, version and the
      short path, whatever the short path already contains. */
  function ApiPath(shortPath: string, scope: string := "client", version: string := "r0"): (p: string)
    ensures |p| == |MatrixPrefix| + |scope| + |version| + 2 + |shortPath|
    ensures p[..|MatrixPrefix|] == MatrixPrefix
    ensures p[|p| - |shortPath|..] == shortPath
  {
    MatrixPrefix + scope + "/" + version + "/" + shortPath
  }

  /** The default scope and version give the client r0 prefix. */
  lemma DefaultApiPathPrefix(shortPath: string)
    ensures ApiPath(shortPath) == "/_matrix/client/r0/" + shortPath
  {
  }

  /** Distinct short paths give distinct full paths. */
  lemma ApiPathInjective(a: string, b: string, scope: string, version: string)
    requires ApiPath(a, scope, version) == ApiPath(b, scope, version)
    ensures a == b
  {
    var n := |MatrixPrefix| + |scope| + |version| + 2;
    var pa := ApiPath(a, scope, version);
    assert pa[n..] == a;
    assert ApiPath(b, scope, version)[n..] == b;
  }

  /** The description of one call. endpoint holds apiPath(), the full path
      built by ApiPath; contentType holds the MIME type's name ("" for none). */
  datatype RequestConfig = RequestConfig(
    name: string,
    verb: HttpVerb,
    endpoint: string,
    contentType: string,
    data: Payload,
    query: Query,
    needsToken: bool)

  /** The raw constructor: every argument stored as given. */
  function NewRaw(name: string, verb: HttpVerb, endpoint: string, contentType: string,
                  data: Bytes, query: Query := [], needsToken: bool := true): (rc: RequestConfig)
    ensures rc.name == name && rc.verb == verb && rc.endpoint == endpoint
    ensures rc.contentType == contentType && rc.data == Raw(data)
    ensures rc.query == query && rc.needsToken == needsToken
  {
    RequestConfig(name, verb, endpoint, contentType, Raw(data), query, needsToken)
  }

  /** The JSON constructor: JSON content type, body data.dump(). */
  function NewJson(name: string, verb: HttpVerb, endpoint: string, query: Query := [],
                   data: Object := [], needsToken: bool := true): (rc: RequestConfig)
    ensures rc.name == name && rc.verb == verb && rc.endpoint == endpoint
    ensures rc.contentType == JsonMimeType && rc.data == Dump(data)
    ensures rc.query == query && rc.needsToken == needsToken
  {
    RequestConfig(name, verb, endpoint, JsonMimeType, Dump(data), query, needsToken)
  }

  /** The (name, type, endpoint, needsToken) constructor: empty query, empty
      JSON object as body. */
  function NewShort(name: string, verb: HttpVerb, endpoint: string, needsToken: bool := true): (rc: RequestConfig)
    ensures rc.name == name && rc.verb == verb && rc.endpoint == endpoint
    ensures rc.query == [] && rc.data == Dump([]) && rc.contentType == JsonMimeType
    ensures rc.needsToken == needsToken
  {
    NewJson(name, verb, endpoint, [], [], needsToken)
  }

  /** setQuery replaces the query and nothing else. */
  function SetQuery(rc: RequestConfig, q: Query): (r: RequestConfig)
    ensures r.query == q
    ensures r.name == rc.name && r.verb == rc.verb && r.endpoint == rc.endpoint
    ensures r.contentType == rc.contentType && r.data == rc.data && r.needsToken == rc.needsToken
  {
    rc.(query := q)
  }

  /** setData replaces the body with json.dump() and nothing else. */
  function SetData(rc: RequestConfig, json: Object): (r: RequestConfig)
    ensures r.data == Dump(json)
    ensures r.name == rc.name && r.verb == rc.verb && r.endpoint == rc.endpoint
    ensures r.contentType == rc.contentType && r.query == rc.query && r.needsToken == rc.needsToken
  {
    rc.(data := Dump(json))
  }

  /** QUrlQuery::addQueryItem: appends one item after the existing ones. */
  function AddQueryItem(q: Query, name: string, value: string): (r: Query)
    ensures |r| == |q| + 1 && r[..|q|] == q && r[|q|] == (name, value)
  {
    q + [(name, value)]
  }

  /** The items of l added one after another with addQueryItem. */
  function AddQueryItems(q: Query, l: seq<(string, string)>): Query
    decreases |l|
  {
    if |l| == 0 then q else AddQueryItems(AddQueryItem(q, l[0].0, l[0].1), l[1..])
  }

  /** Adding items one by one leaves them after the existing ones, in the
      order given. */
  lemma {:induction false} AddQueryItemsAppends(q: Query, l: seq<(string, string)>)
    ensures AddQueryItems(q, l) == q + l
    decreases |l|
  {
    if |l| > 0 {
      AddQueryItemsAppends(AddQueryItem(q, l[0].0, l[0].1), l[1..]);
      assert (q + [l[0]]) + l[1..] == q + l;
    }
  }

  /** makeQuery and Query(list): setQueryItems on an empty query, which is
      the query that adding each listed item in turn builds. */
  function MakeQuery(l: seq<(string, string)>): (q: Query)
    ensures q == AddQueryItems([], l)
    ensures |q| == |l| && forall i :: 0 <= i < |l| ==> q[i] == l[i]
  {
    AddQueryItemsAppends([], l);
    l
  }

  /** Query::addQueryItem(name, int): the value written in decimal. */
  function AddIntQueryItem(q: Query, name: string, value: int): (r: Query)
    ensures |r| == |q| + 1 && r[..|q|] == q && r[|q|].0 == name
    ensures Decimal.ParseInt(r[|q|].1) == Wrappers.Some(value)
  {
    Decimal.IntToStringRoundTrip(value);
    AddQueryItem(q, name, Decimal.IntToString(value))
  }

  /** Data::insert(name, QStringList): a JSON array of the strings, in order. */
  function InsertStringList(d: Object, name: string, sl: seq<string>): (r: Object)
    ensures Value(r, name).Some? && Value(r, name).value.JArray?
    ensures |Value(r, name).value.items| == |sl|
    ensures forall i :: 0 <= i < |sl| ==> Value(r, name).value.items[i] == JString(sl[i])
    ensures forall k :: k != name ==> Value(r, k) == Value(d, k)
  {
    Insert(d, name, StringArray(sl))
  }
}

=== FILE: servercall.dfy ===
/** ServerApi::Call and PendingCall<T>: the newer call generation. The
    request is sent from the constructor, the promise starts as
    PendingResult, finish() is guarded by the presence of the reply, and a
    timeout finishes the call silently. */
module ServerCall {
  import opened Wrappers
  import opened Json
  import opened Request
  import opened Transport
  import opened CallStatus
  import Decimal

  datatype Signal = ResultReady | SuccessSignal | FailureSignal(status: Status)

  /** replyHeld says the call still owns its reply: finish() resets it, and
      the object is deleted right after, so neither the reply nor the timer
      reaches a call that no longer holds one. timerMs is the interval the
      constructor armed. */
  datatype Call<T> = Call(
    config: RequestConfig,
    request: NetworkRequest,
    promise: Result<T>,
    replyHeld: bool,
    timerMs: nat,
    trace: seq<Signal>)

  /** How a configuration reads the reply: either through readAsJson and a
      parseReply taking the JSON object, or with a parseReply taking the
      whole reply. */
  datatype Decoder<T> =
    | JsonDecoder(parse: Parser, parseJson: Object -> Parsed<T>)
    | ReplyDecoder(parseReply: Reply -> Parsed<T>)

  /** sendRequest: the Content-Type header comes from the configuration. */
  function SendRequest(conn: ConnectionData, rc: RequestConfig): (r: NetworkRequest)
    ensures r.contentTypeHeader == rc.contentType
    ensures r.path == conn.basePath + rc.endpoint
    ensures (rc.needsToken ==> |r.query| == |rc.query| + 1 && r.query[|rc.query|] == ("access_token", conn.accessToken))
    ensures (!rc.needsToken ==> r.query == rc.query)
    ensures r.body.Some? <==> (rc.verb == Post || rc.verb == Put)
  {
    BuildRequest(conn, rc, rc.contentType)
  }

  /** The PendingCall constructor: the request goes out at once, the timer
      is armed at 120000 ms, the promise is PendingResult. */
  function Construct<T>(conn: ConnectionData, rc: RequestConfig): (c: Call<T>)
    ensures c.request == SendRequest(conn, rc) && c.config == rc
    ensures c.promise.status == FromCode(PendingResult) && Good(c.promise.status)
    ensures c.promise.value.None?
    ensures c.replyHeld && c.timerMs == 120000 && c.trace == []
  {
    Call(rc, SendRequest(conn, rc), FromStatus(FromCode(PendingResult)), true, TimeoutMs, [])
  }

  /** checkReply: the same mapping as the older generation, in this
      generation's Status. */
  function CheckReply(reply: Reply): (s: Status)
    ensures s.code == NoError <==> reply.error == ReplyOk
    ensures s.code == ContentAccessError <==>
              reply.error in {AuthenticationRequiredError, ContentAccessDenied, ContentOperationNotPermittedError}
    ensures s.code == NetworkError <==> reply.error.OtherError?
    ensures reply.error != ReplyOk ==> s.message == reply.errorString
    ensures Good(s) <==> reply.error == ReplyOk
  {
    match reply.error
    case ReplyOk => FromCode(NoError)
    case AuthenticationRequiredError => Status(ContentAccessError, reply.errorString)
    case ContentAccessDenied => Status(ContentAccessError, reply.errorString)
    case ContentOperationNotPermittedError => Status(ContentAccessError, reply.errorString)
    case OtherError(_) => Status(NetworkError, reply.errorString)
  }

  /** FromByteArray::load: the body, unchanged. */
  function LoadBytes(reply: Reply): (b: Bytes)
    ensures b == reply.body
  {
    reply.body
  }

  const NoTopLevelObject := "The received JSON has no top-level object"

  function InvalidJsonMessage(error: string, offset: int): string {
    "Invalid JSON: " + error + " at offset " + Decimal.IntToString(offset)
  }

  /** FromJsonObject::load: the top-level object with Success, otherwise
      JsonParseError naming the parser's error and offset, or saying the
      document is not an object. */
  function LoadJsonObject(parse: Parser, body: Bytes): (r: Result<Object>)
    ensures Good(r.status) <==> parse(body).Parsed? && parse(body).doc.JObject?
    ensures Good(r.status) ==> r == FromValue(parse(body).doc.members)
    ensures !Good(r.status) ==> r.status.code == JsonParseError && r.value.None?
    ensures parse(body).Malformed? ==>
              r.status.message == InvalidJsonMessage(parse(body).error, parse(body).offset)
    ensures parse(body).Parsed? && !parse(body).doc.JObject? ==> r.status.message == NoTopLevelObject
  {
    match parse(body)
    case Malformed(err, off) => FromStatus(Status(JsonParseError, InvalidJsonMessage(err, off)))
    case Parsed(doc) =>
      if doc.JObject? then FromValue(doc.members)
      else FromStatus(Status(JsonParseError, NoTopLevelObject))
  }

  /** The offset at the end of an "Invalid JSON" message reads back as the
      parser's offset. */
  lemma InvalidJsonMessageCarriesOffset(error: string, offset: int)
    ensures var m := InvalidJsonMessage(error, offset);
            var n := |Decimal.IntToString(offset)|;
            n <= |m| && Decimal.ParseInt(m[|m| - n..]) == Some(offset)
  {
    var m := InvalidJsonMessage(error, offset);
    var n := |Decimal.IntToString(offset)|;
    assert m[|m| - n..] == Decimal.IntToString(offset);
    Decimal.IntToStringRoundTrip(offset);
  }

  /** CallConfigNoReplyBody::parseReply and SimpleCallConfig::parseReply:
      Success, whatever the reply holds. */
  function IgnoreReplyBody(reply: Reply): (s: Status)
    ensures s == FromCode(Success) && Good(s)
  {
    FromCode(Success)
  }

  /** The decoder of a configuration whose reply body is ignored. */
  function NoReplyBodyDecoder(): Decoder<()> {
    ReplyDecoder(reply => StatusOnly(IgnoreReplyBody(reply)))
  }

  /** impl::fillResult: on the JSON path a failing readAsJson is passed on
      and parseReply is not called. */
  function FillResult<T>(reply: Reply, dec: Decoder<T>): (r: Result<T>)
    ensures dec.JsonDecoder? && !Good(LoadJsonObject(dec.parse, reply.body).status) ==>
              r == FromStatus(LoadJsonObject(dec.parse, reply.body).status)
    ensures dec.JsonDecoder? && Good(LoadJsonObject(dec.parse, reply.body).status) ==>
              r == Wrap(dec.parseJson(LoadJsonObject(dec.parse, reply.body).value.value))
    ensures dec.ReplyDecoder? ==> r == Wrap(dec.parseReply(reply))
  {
    match dec
    case JsonDecoder(parse, parseJson) =>
      var src := LoadJsonObject(parse, reply.body);
      if Good(src.status) then Wrap(parseJson(src.value.value)) else FromStatus(src.status)
    case ReplyDecoder(parseReply) => Wrap(parseReply(reply))
  }

  /** finish(): nothing at all once the reply is gone; otherwise resultReady
      and then success or failure by Status::good() when asked, and the
      reply is released. The status argument is not stored. */
  function Finish<T>(c: Call<T>, s: Status, emitResult: bool): (r: Call<T>)
    ensures !c.replyHeld ==> r == c
    ensures c.replyHeld ==> !r.replyHeld && r.promise == c.promise
    ensures c.replyHeld && !emitResult ==> r.trace == c.trace
    ensures c.replyHeld && emitResult && Good(s) ==> r.trace == c.trace + [ResultReady, SuccessSignal]
    ensures c.replyHeld && emitResult && !Good(s) ==> r.trace == c.trace + [ResultReady, FailureSignal(s)]
  {
    if !c.replyHeld then c
    else
      var emitted := if !emitResult then []
                     else if Good(s) then [ResultReady, SuccessSignal]
                     else [ResultReady, FailureSignal(s)];
      c.(trace := c.trace + emitted, replyHeld := false)
  }

  /** gotReply: the promise takes checkReply's status, then fillResult's
      result when that status is good; finish(status, true). */
  function GotReply<T>(c: Call<T>, reply: Reply, dec: Decoder<T>): (r: Call<T>)
    ensures !c.replyHeld ==> r == c
    ensures c.replyHeld && !Good(CheckReply(reply)) ==> r.promise == FromStatus(CheckReply(reply))
    ensures c.replyHeld && Good(CheckReply(reply)) ==> r.promise == FillResult(reply, dec)
    ensures c.replyHeld ==> !r.replyHeld
    ensures c.replyHeld && Good(r.promise.status) ==> r.trace == c.trace + [ResultReady, SuccessSignal]
    ensures c.replyHeld && !Good(r.promise.status) ==> r.trace == c.trace + [ResultReady, FailureSignal(r.promise.status)]
  {
    if !c.replyHeld then c
    else
      var checked: Result<T> := FromStatus(CheckReply(reply));
      var p := if Good(checked.status) then FillResult(reply, dec) else checked;
      Finish(c.(promise := p), p.status, true)
  }

  const TimeoutMessage := "The job has timed out"

  /** timeout: detach the reply and finish silently. The promise is left as
      it was, so status() still reads PendingResult. */
  function Timeout<T>(c: Call<T>): (r: Call<T>)
    ensures r.trace == c.trace && r.promise == c.promise && !r.replyHeld
  {
    Finish(c, Status(TimeoutError, TimeoutMessage), false)
  }

  /** abandon(): finish(status(), false). */
  function Abandon<T>(c: Call<T>): (r: Call<T>)
    ensures r.trace == c.trace && r.promise == c.promise && !r.replyHeld
  {
    Finish(c, c.promise.status, false)
  }

  /** result(): the stored value, or the default-constructed one. */
  function ResultOf<T>(c: Call<T>, default: T): T {
    CallStatus.Get(c.promise, default)
  }

  /** status(). */
  function StatusOf<T>(c: Call<T>): Status {
    c.promise.status
  }

  /** What the onAnyResult, onSuccess and onFailure handlers receive. */
  datatype Delivery<T> = ToAnyResult(result: Result<T>) | ToSuccess(value: T) | ToFailure(status: Status)

  /** The handler call a signal triggers: onSuccess passes the stored value
      on, onFailure reads status() rather than the signal's argument. */
  function Deliver<T>(c: Call<T>, default: T, sig: Signal): (d: Delivery<T>)
    ensures sig.ResultReady? ==> d == ToAnyResult(c.promise)
    ensures sig.SuccessSignal? ==> d == ToSuccess(ResultOf(c, default))
    ensures sig.FailureSignal? ==> d == ToFailure(StatusOf(c))
  {
    match sig
    case ResultReady => ToAnyResult(c.promise)
    case SuccessSignal => PassTo(c.promise, default, v => ToSuccess(v))
    case FailureSignal(_) => ToFailure(StatusOf(c))
  }

  /** After gotReply, the onFailure handler sees the very status the failure
      signal carried. */
  lemma FailureHandlerSeesSignalledStatus<T>(c: Call<T>, reply: Reply, dec: Decoder<T>, default: T)
    requires c.replyHeld && c.trace == []
    requires !Good(GotReply(c, reply, dec).promise.status)
    ensures var r := GotReply(c, reply, dec);
            r.trace[1].FailureSignal? && Deliver(r, default, r.trace[1]) == ToFailure(r.trace[1].status)
  {
  }

  /** A call whose configuration ignores the body succeeds whenever the
      transport does. */
  lemma IgnoredBodyCallSucceeds(conn: ConnectionData, rc: RequestConfig, reply: Reply)
    requires reply.error == ReplyOk
    ensures var r := GotReply(Construct<()>(conn, rc), reply, NoReplyBodyDecoder());
            r.promise.status == FromCode(Success) && r.trace == [ResultReady, SuccessSignal]
  {
  }

  // Runs of events after construction.

  datatype Event = ReplyArrived(reply: Reply) | TimerFired | AbandonCalled

  function Step<T>(c: Call<T>, e: Event, dec: Decoder<T>): Call<T> {
    match e
    case ReplyArrived(reply) => GotReply(c, reply, dec)
    case TimerFired => Timeout(c)
    case AbandonCalled => Abandon(c)
  }

  function Run<T>(c: Call<T>, events: seq<Event>, dec: Decoder<T>): Call<T>
    decreases |events|
  {
    if |events| == 0 then c else Run(Step(c, events[0], dec), events[1..], dec)
  }

  /** Nothing emitted while the reply is held; afterwards nothing, or exactly
      resultReady followed by the outcome that matches status(). */
  ghost predicate AtMostOneOutcome<T>(c: Call<T>) {
    || (c.replyHeld && c.trace == [])
    || (!c.replyHeld &&
        (|| c.trace == []
         || (c.trace == [ResultReady, SuccessSignal] && Good(c.promise.status))
         || (c.trace == [ResultReady, FailureSignal(c.promise.status)] && !Good(c.promise.status))))
  }

  /** Once the reply is released, no event changes the call. */
  lemma {:induction false} ReleasedCallIsInert<T>(c: Call<T>, events: seq<Event>, dec: Decoder<T>)
    requires !c.replyHeld
    ensures Run(c, events, dec) == c
    decreases |events|
  {
    if |events| > 0 {
      ReleasedCallIsInert(Step(c, events[0], dec), events[1..], dec);
    }
  }

  /** Whatever replies, timer events and abandons arrive, a call emits at
      most one result sequence, and it agrees with status(). */
  lemma {:induction false} RunEmitsAtMostOnce<T>(c: Call<T>, events: seq<Event>, dec: Decoder<T>)
    requires AtMostOneOutcome(c)
    ensures AtMostOneOutcome(Run(c, events, dec))
    decreases |events|
  {
    if |events| > 0 {
      if c.replyHeld {
        var next := Step(c, events[0], dec);
        assert AtMostOneOutcome(next);
        ReleasedCallIsInert(next, events[1..], dec);
      } else {
        ReleasedCallIsInert(c, events, dec);
      }
    }
  }

  lemma ConstructedCallEmitsAtMostOnce<T>(conn: ConnectionData, rc: RequestConfig, events: seq<Event>, dec: Decoder<T>)
    ensures AtMostOneOutcome(Run(Construct<T>(conn, rc), events, dec))
  {
    RunEmitsAtMostOnce(Construct<T>(conn, rc), events, dec);
  }
}

=== FILE: syncjob.dfy ===
/** SyncJob: the GET request for /sync and the decoder that turns one sync
    payload into a continuation token and per-room data, bucket by bucket in
    the order join, invite, leave. */
module SyncJob {
  import opened Wrappers
  import opened Json
  import opened Request
  import opened JobStatus
  import Decimal

  /** UnknownJoinState stands for an enum value outside the three named ones. */
  datatype JoinState = Join | Invite | Leave | UnknownJoinState(value: int)

  /** One room of a sync payload. The room's JSON object is kept and each
      field the constructor fills is read from it by a member function, with
      the same value the constructor would have stored: the event lists that
      the join state allows, and the timeline flags and unread counters
      whatever the state. Events stay JSON values; building event objects
      from them is not part of this model. */
  datatype SyncRoomData = SyncRoomData(roomId: string, joinState: JoinState, room: Object)
  {
    function InviteState(): seq<Json> {
      if joinState == Invite then EventList(room, "invite_state") else []
    }

    function State(): seq<Json> {
      if joinState == Join || joinState == Leave then EventList(room, "state") else []
    }

    function Timeline(): seq<Json> {
      if joinState == Join || joinState == Leave then EventList(room, "timeline") else []
    }

    function Ephemeral(): seq<Json> {
      if joinState == Join then EventList(room, "ephemeral") else []
    }

    function AccountData(): seq<Json> {
      if joinState == Join then EventList(room, "account_data") else []
    }

    function TimelineLimited(): bool {
      AsBool(Value(AsObject(Value(room, "timeline")), "limited"))
    }

    function TimelinePrevBatch(): string {
      AsString(Value(AsObject(Value(room, "timeline")), "prev_batch"))
    }

    function HighlightCount(): int {
      AsInt(Value(AsObject(Value(room, "unread_notifications")), "highlight_count"))
    }

    function NotificationCount(): int {
      AsInt(Value(AsObject(Value(room, "unread_notifications")), "notification_count"))
    }
  }

  datatype SyncData = SyncData(nextBatch: string, rooms: seq<SyncRoomData>)

  /** The short path the constructor hands to ApiPath, prefix included. */
  const SyncShortPath := "_matrix/client/r0/sync"

  /** The job-name counter is a size_t. */
  const SizeMax := 0x1_0000_0000_0000_0000

  type JobCounter = n: nat | n < SizeMax

  function JobName(n: nat): string {
    "SyncJob-" + Decimal.NatToString(n)
  }

  /** The position of a sync query key in the order the constructor adds them. */
  function QueryRank(key: string): nat {
    if key == "filter" then 0
    else if key == "set_presence" then 1
    else if key == "timeout" then 2
    else if key == "since" then 3
    else 4
  }

  lemma KeyRanks()
    ensures QueryRank("filter") == 0 && QueryRank("set_presence") == 1
    ensures QueryRank("timeout") == 2 && QueryRank("since") == 3
  {
  }

  /** An item added only when its condition holds. */
  function OptionalItem(present: bool, name: string, value: string): (q: Query)
    ensures |q| == if present then 1 else 0
  {
    if present then [(name, value)] else []
  }

  /** Keys strictly increasing in QueryRank, all of them below bound. */
  predicate RankedBelow(q: Query, bound: nat) {
    && (forall i, j :: 0 <= i < j < |q| ==> QueryRank(q[i].0) < QueryRank(q[j].0))
    && (forall i :: 0 <= i < |q| ==> QueryRank(q[i].0) < bound)
  }

  /** Appending an optional item of the next rank keeps the keys ordered. */
  lemma AppendRanked(q: Query, rank: nat, present: bool, name: string, value: string)
    requires QueryRank(name) == rank
    requires RankedBelow(q, rank)
    ensures RankedBelow(q + OptionalItem(present, name, value), rank + 1)
  {
    var r := q + OptionalItem(present, name, value);
    forall i | 0 <= i < |r| ensures QueryRank(r[i].0) < rank + 1 {
      if i < |q| { assert r[i] == q[i]; }
    }
    forall i, j | 0 <= i < j < |r| ensures QueryRank(r[i].0) < QueryRank(r[j].0) {
      assert r[i] == q[i];
      if j < |q| { assert r[j] == q[j]; }
    }
  }

  /** The four optional items, appended in the order the constructor adds
      them, have strictly increasing ranks. */
  lemma SyncItemsRanked(since: string, filter: string, timeoutText: string, hasTimeout: bool, presence: string)
    ensures var q := OptionalItem(filter != "", "filter", filter)
                     + OptionalItem(presence != "", "set_presence", presence)
                     + OptionalItem(hasTimeout, "timeout", timeoutText)
                     + OptionalItem(since != "", "since", since);
            && |q| == (if filter != "" then 1 else 0) + (if presence != "" then 1 else 0)
                      + (if hasTimeout then 1 else 0) + (if since != "" then 1 else 0)
            && forall i, j :: 0 <= i < j < |q| ==> QueryRank(q[i].0) < QueryRank(q[j].0)
  {
    KeyRanks();
    var q1 := OptionalItem(filter != "", "filter", filter);
    assert RankedBelow(q1, 1) by {
      AppendRanked([], 0, filter != "", "filter", filter);
      assert [] + q1 == q1;
    }
    var q2 := q1 + OptionalItem(presence != "", "set_presence", presence);
    assert RankedBelow(q2, 2) by {
      AppendRanked(q1, 1, presence != "", "set_presence", presence);
    }
    var q3 := q2 + OptionalItem(hasTimeout, "timeout", timeoutText);
    assert RankedBelow(q3, 3) by {
      AppendRanked(q2, 2, hasTimeout, "timeout", timeoutText);
    }
    AppendRanked(q3, 3, since != "", "since", since);
    assert RankedBelow(q3 + OptionalItem(since != "", "since", since), 4);
  }

  /** The constructor's query: filter, set_presence and since only when
      non-empty, timeout (in decimal) only when not negative, appended in
      that order. */
  function SyncQuery(since: string, filter: string, timeout: int, presence: string): (q: Query)
    ensures |q| == (if filter != "" then 1 else 0) + (if presence != "" then 1 else 0)
                   + (if timeout >= 0 then 1 else 0) + (if since != "" then 1 else 0)
    ensures forall i, j :: 0 <= i < j < |q| ==> QueryRank(q[i].0) < QueryRank(q[j].0)
  {
    SyncItemsRanked(since, filter, Decimal.IntToString(timeout), timeout >= 0, presence);
    OptionalItem(filter != "", "filter", filter)
    + OptionalItem(presence != "", "set_presence", presence)
    + OptionalItem(timeout >= 0, "timeout", Decimal.IntToString(timeout))
    + OptionalItem(since != "", "since", since)
  }

  /** filter, set_presence and since are in the query exactly when they are
      non-empty, each paired with its own value. */
  lemma SyncQueryStringItems(since: string, filter: string, timeout: int, presence: string)
    ensures var q := SyncQuery(since, filter, timeout, presence);
            && (("filter", filter) in q <==> filter != "")
            && (("set_presence", presence) in q <==> presence != "")
            && (("since", since) in q <==> since != "")
  {
    var q1 := OptionalItem(filter != "", "filter", filter);
    var q2 := OptionalItem(presence != "", "set_presence", presence);
    var q3 := OptionalItem(timeout >= 0, "timeout", Decimal.IntToString(timeout));
    var q4 := OptionalItem(since != "", "since", since);
    var q := SyncQuery(since, filter, timeout, presence);
    assert q == ((q1 + q2) + q3) + q4;
    forall m ensures m in q <==> m in q1 || m in q2 || m in q3 || m in q4 { }
  }

  /** The timeout item is present exactly when the timeout is not negative,
      and its value reads back as the timeout. */
  lemma SyncQueryTimeout(since: string, filter: string, timeout: int, presence: string)
    ensures var q := SyncQuery(since, filter, timeout, presence);
            && ((exists i :: 0 <= i < |q| && q[i].0 == "timeout") <==> timeout >= 0)
            && (forall i :: 0 <= i < |q| && q[i].0 == "timeout" ==> Decimal.ParseInt(q[i].1) == Some(timeout))
  {
    var q1 := OptionalItem(filter != "", "filter", filter);
    var q2 := q1 + OptionalItem(presence != "", "set_presence", presence);
    var q3 := q2 + OptionalItem(timeout >= 0, "timeout", Decimal.IntToString(timeout));
    var q := SyncQuery(since, filter, timeout, presence);
    assert q == q3 + OptionalItem(since != "", "since", since);
    assert forall i :: 0 <= i < |q2| ==> q2[i].0 == "filter" || q2[i].0 == "set_presence";
    Decimal.IntToStringRoundTrip(timeout);
    forall i | 0 <= i < |q| && q[i].0 == "timeout"
      ensures i == |q2| && timeout >= 0 && Decimal.ParseInt(q[i].1) == Some(timeout)
    {
      if i < |q2| {
        assert false;
      } else if i >= |q3| {
        assert false;
      }
    }
    if timeout >= 0 {
      assert q[|q2|].0 == "timeout";
    }
  }

  /** The constructor: a GET named after the pre-incremented counter, on
      ApiPath(SyncShortPath), with the query above. Returns the configuration
      and the new counter value. */
  function NewSyncJob(counter: JobCounter, since: string, filter: string, timeout: int, presence: string): (r: (RequestConfig, JobCounter))
    ensures r.1 == (counter + 1) % SizeMax
    ensures r.0.name == JobName(r.1)
    ensures r.0.verb == Get && r.0.endpoint == ApiPath(SyncShortPath) && r.0.needsToken
    ensures r.0.query == SyncQuery(since, filter, timeout, presence)
  {
    var n := (counter + 1) % SizeMax;
    (SetQuery(NewJson(JobName(n), Get, ApiPath(SyncShortPath)), SyncQuery(since, filter, timeout, presence)), n)
  }

  /** The short path already holds the prefix, so the prefix appears twice. */
  lemma SyncPathRepeatsPrefix()
    ensures ApiPath(SyncShortPath) == "/_matrix/client/r0/_matrix/client/r0/sync"
  {
    DefaultApiPathPrefix(SyncShortPath);
    assert "/_matrix/client/r0/" + SyncShortPath == "/_matrix/client/r0/_matrix/client/r0/sync";
  }

  /** Distinct counter values give distinct job names. */
  lemma JobNamesDiffer(a: nat, b: nat)
    requires a != b
    ensures JobName(a) != JobName(b)
  {
    Decimal.NatToStringRoundTrip(a);
    Decimal.NatToStringRoundTrip(b);
    var p := "SyncJob-";
    assert JobName(a)[|p|..] == Decimal.NatToString(a);
    assert JobName(b)[|p|..] == Decimal.NatToString(b);
  }

  /** Successive jobs always get distinct names, the wrap of the counter
      included; short of the wrap their numbers are consecutive. */
  lemma SuccessiveJobNamesDiffer(counter: JobCounter, since: string, filter: string, timeout: int, presence: string)
    ensures var first := NewSyncJob(counter, since, filter, timeout, presence);
            var second := NewSyncJob(first.1, since, filter, timeout, presence);
            && second.0.name != first.0.name
            && (counter + 2 < SizeMax ==> first.1 == counter + 1 && second.1 == first.1 + 1)
            && (counter == SizeMax - 1 ==> first.1 == 0 && second.1 == 1)
  {
    var first := NewSyncJob(counter, since, filter, timeout, presence);
    var second := NewSyncJob(first.1, since, filter, timeout, presence);
    NextCounters(counter);
    JobNamesDiffer(first.1, second.1);
  }

  /** Two increments of a size_t: distinct values, consecutive short of the
      wrap. */
  lemma NextCounters(counter: JobCounter)
    ensures var n1 := (counter + 1) % SizeMax;
            var n2 := (n1 + 1) % SizeMax;
            && n1 != n2
            && (counter + 2 < SizeMax ==> n1 == counter + 1 && n2 == n1 + 1)
            && (counter == SizeMax - 1 ==> n1 == 0 && n2 == 1)
  {
    var n1 := (counter + 1) % SizeMax;
    if counter + 1 < SizeMax {
      BelowSizeMax(counter + 1);
    } else {
      assert n1 == 0;
    }
    if n1 + 1 < SizeMax {
      BelowSizeMax(n1 + 1);
    }
  }

  lemma BelowSizeMax(n: nat)
    requires n < SizeMax
    ensures n % SizeMax == n
  { }

  /** The BaseJob parseJson override: always Success. */
  function ParseJsonStatus(doc: Json): (s: Status)
    ensures s == FromCode(Success) && Good(s)
  {
    FromCode(Success)
  }

  /** EventList::fromJson: room[jsonKey]["events"] as an array, or nothing. */
  function EventList(room: Object, jsonKey: string): (events: seq<Json>)
    ensures Value(room, jsonKey).Some? && Value(room, jsonKey).value.JObject? &&
            Value(Value(room, jsonKey).value.members, "events").Some? &&
            Value(Value(room, jsonKey).value.members, "events").value.JArray?
            ==> events == Value(Value(room, jsonKey).value.members, "events").value.items
    ensures events != [] ==> Value(room, jsonKey).Some? && Value(room, jsonKey).value.JObject?
  {
    AsArray(Value(AsObject(Value(room, jsonKey)), "events"))
  }

  /** What the constructor reads for each join state: an invitation has
      only its invite_state events, a left room only state and timeline
      events, a joined room everything but invite_state; each list present
      is the room's events array for that key, or empty when the key, its
      object or its events array is missing. */
  lemma EventListsFollowJoinState(d: SyncRoomData)
    ensures d.joinState == Invite ==>
              d.State() == [] && d.Timeline() == [] && d.Ephemeral() == [] && d.AccountData() == []
    ensures d.joinState == Leave ==> d.Ephemeral() == [] && d.AccountData() == [] && d.InviteState() == []
    ensures d.joinState == Join ==> d.InviteState() == []
    ensures d.joinState.UnknownJoinState? ==>
              d.State() == [] && d.Timeline() == [] && d.Ephemeral() == [] && d.AccountData() == [] && d.InviteState() == []
    ensures d.joinState in {Join, Leave} ==>
              (forall events :: Value(d.room, "timeline") == Some(JObject([("events", JArray(events))])) ==> d.Timeline() == events)
    ensures d.joinState == Invite ==> d.InviteState() == EventList(d.room, "invite_state")
    ensures d.joinState == Join ==>
              && d.Ephemeral() == EventList(d.room, "ephemeral")
              && d.AccountData() == EventList(d.room, "account_data")
    ensures d.joinState in {Join, Leave} ==>
              d.State() == EventList(d.room, "state") && d.Timeline() == EventList(d.room, "timeline")
  {
  }

  /** The timeline flags and the unread counters are read whatever the join
      state: limited and prev_batch from the timeline object, the two counts
      from unread_notifications, each defaulting when absent; a count that
      does not fit in an int reads as 0. */
  lemma RoomSummaryIgnoresJoinState(d: SyncRoomData, joinState: JoinState)
    ensures var e := d.(joinState := joinState);
            && e.TimelineLimited() == d.TimelineLimited() && e.TimelinePrevBatch() == d.TimelinePrevBatch()
            && e.HighlightCount() == d.HighlightCount() && e.NotificationCount() == d.NotificationCount()
    ensures var tl := Value(d.room, "timeline");
            && (tl.Some? && tl.value.JObject? ==>
                  && (d.TimelineLimited() <==> Value(tl.value.members, "limited") == Some(JBool(true)))
                  && d.TimelinePrevBatch() == AsString(Value(tl.value.members, "prev_batch")))
            && (!(tl.Some? && tl.value.JObject?) ==> !d.TimelineLimited() && d.TimelinePrevBatch() == "")
    ensures var un := Value(d.room, "unread_notifications");
            && (un.Some? && un.value.JObject? ==>
                  && (forall n :: Value(un.value.members, "highlight_count") == Some(JNumber(n)) ==>
                        d.HighlightCount() == if FitsInt(n) then n else 0)
                  && (forall n :: Value(un.value.members, "notification_count") == Some(JNumber(n)) ==>
                        d.NotificationCount() == if FitsInt(n) then n else 0))
            && (!(un.Some? && un.value.JObject?) ==> d.HighlightCount() == 0 && d.NotificationCount() == 0)
  {
  }

  /** The entry parseJson builds for one member of a bucket: the member's key
      as room id, the bucket's join state and the member's value as the room
      object (RoomEntryIsLookup relates this to looking the key up). */
  function RoomEntry(member: (string, Json), joinState: JoinState): (d: SyncRoomData)
    ensures d.roomId == member.0 && d.joinState == joinState
  {
    SyncRoomData(member.0, joinState, AsObject(Some(member.1)))
  }

  /** One SyncRoomData per member of a bucket, in the bucket's order. */
  function Entries(rs: Object, joinState: JoinState): (es: seq<SyncRoomData>)
    ensures |es| == |rs|
    ensures forall i :: 0 <= i < |rs| ==> es[i] == RoomEntry(rs[i], joinState)
  {
    if |rs| == 0 then []
    else
      var prefix := Entries(rs[..|rs| - 1], joinState);
      prefix + [RoomEntry(rs[|rs| - 1], joinState)]
  }

  /** Since a JSON object holds each key once, the room object of an entry is
      what looking its room id up in the bucket yields. */
  lemma RoomEntryIsLookup(rs: Object, joinState: JoinState, i: int)
    requires UniqueKeys(rs)
    requires 0 <= i < |rs|
    ensures Entries(rs, joinState)[i].room == AsObject(Value(rs, Entries(rs, joinState)[i].roomId))
  {
    ValueAt(rs, i);
  }

  /** The buckets in the order parseJson walks them. */
  const RoomStates: seq<(string, JoinState)> := [("join", Join), ("invite", Invite), ("leave", Leave)]

  function Bucket(rooms: Object, key: string): Object {
    AsObject(Value(rooms, key))
  }

  /** The entries of the given buckets, one bucket after another. */
  function BucketEntries(rooms: Object, states: seq<(string, JoinState)>): seq<SyncRoomData> {
    if |states| == 0 then []
    else BucketEntries(rooms, states[..|states| - 1])
         + Entries(Bucket(rooms, states[|states| - 1].0), states[|states| - 1].1)
  }

  function RoomsOf(doc: Json): Object {
    AsObject(Value(DocObject(doc), "rooms"))
  }

  /** parseJson: next_batch as a string ("" when absent or not a string) and
      the entries of the join, invite and leave buckets. */
  function Decode(doc: Json): (d: SyncData)
    ensures var v := Value(DocObject(doc), "next_batch");
            && (v.Some? && v.value.JString? ==> d.nextBatch == v.value.str)
            && (!(v.Some? && v.value.JString?) ==> d.nextBatch == "")
    ensures var rooms := AsObject(Value(DocObject(doc), "rooms"));
            d.rooms == Entries(AsObject(Value(rooms, "join")), Join) + Entries(AsObject(Value(rooms, "invite")), Invite)
                       + Entries(AsObject(Value(rooms, "leave")), Leave)
  {
    DecodedBuckets(RoomsOf(doc));
    SyncData(AsString(Value(DocObject(doc), "next_batch")), BucketEntries(RoomsOf(doc), RoomStates))
  }

  lemma EntriesSnoc(rs: Object, k: int, joinState: JoinState)
    requires 0 <= k < |rs|
    ensures Entries(rs[..k + 1], joinState) == Entries(rs[..k], joinState) + [RoomEntry(rs[k], joinState)]
  {
    assert rs[..k + 1][..k] == rs[..k];
  }

  lemma BucketEntriesSnoc(rooms: Object, s: int)
    requires 0 <= s < |RoomStates|
    ensures BucketEntries(rooms, RoomStates[..s + 1])
            == BucketEntries(rooms, RoomStates[..s]) + Entries(Bucket(rooms, RoomStates[s].0), RoomStates[s].1)
  {
    assert RoomStates[..s + 1][..s] == RoomStates[..s];
  }

  /** The inner loop of parseJson: one entry per member of a bucket,
      appended to the entries gathered so far. */
  method AppendBucket(roomData: seq<SyncRoomData>, rs: Object, joinState: JoinState)
    returns (r: seq<SyncRoomData>)
    ensures r == roomData + Entries(rs, joinState)
  {
    r := roomData;
    var k := 0;
    while k < |rs|
      invariant 0 <= k <= |rs|
      invariant r == roomData + Entries(rs[..k], joinState)
    {
      EntriesSnoc(rs, k, joinState);
      r := r + [RoomEntry(rs[k], joinState)];
      k := k + 1;
    }
    assert rs[..k] == rs;
  }

  /** parseJson as the source writes it, with its two nested loops. */
  method ParseJson(doc: Json) returns (status: Status, nextBatch: string, roomData: seq<SyncRoomData>)
    ensures status == FromCode(Success)
    ensures SyncData(nextBatch, roomData) == Decode(doc)
  {
    var json := DocObject(doc);
    nextBatch := AsString(Value(json, "next_batch"));
    var rooms := AsObject(Value(json, "rooms"));
    roomData := [];
    var s := 0;
    while s < |RoomStates|
      invariant 0 <= s <= |RoomStates|
      invariant roomData == BucketEntries(rooms, RoomStates[..s])
    {
      BucketEntriesSnoc(rooms, s);
      roomData := AppendBucket(roomData, Bucket(rooms, RoomStates[s].0), RoomStates[s].1);
      s := s + 1;
    }
    assert RoomStates[..s] == RoomStates;
    status := ParseJsonStatus(doc);
  }

  /** The decoded rooms are the join bucket's entries, then the invite
      bucket's, then the leave bucket's. */
  lemma DecodedBuckets(rooms: Object)
    ensures BucketEntries(rooms, RoomStates) ==
      Entries(Bucket(rooms, "join"), Join) + Entries(Bucket(rooms, "invite"), Invite)
      + Entries(Bucket(rooms, "leave"), Leave)
  {
    var s := RoomStates;
    assert s[..3] == s;
    assert s[2] == ("leave", Leave);
    assert BucketEntries(rooms, s) == BucketEntries(rooms, s[..2]) + Entries(Bucket(rooms, "leave"), Leave);
    assert s[..2][..1] == s[..1];
    assert BucketEntries(rooms, s[..2]) == BucketEntries(rooms, s[..1]) + Entries(Bucket(rooms, "invite"), Invite);
    assert s[..1][..0] == [];
    assert BucketEntries(rooms, s[..1]) == Entries(Bucket(rooms, "join"), Join);
  }

  /** Where each bucket's entries sit in the concatenation of three buckets. */
  lemma ThreeBucketLayout(join: Object, invite: Object, leave: Object)
    ensures var rs := Entries(join, Join) + Entries(invite, Invite) + Entries(leave, Leave);
            && |rs| == |join| + |invite| + |leave|
            && (forall i :: 0 <= i < |join| ==> rs[i] == RoomEntry(join[i], Join))
            && (forall i :: 0 <= i < |invite| ==> rs[|join| + i] == RoomEntry(invite[i], Invite))
            && (forall i :: 0 <= i < |leave| ==> rs[|join| + |invite| + i] == RoomEntry(leave[i], Leave))
  {
    var ej := Entries(join, Join);
    var ei := Entries(invite, Invite);
    var el := Entries(leave, Leave);
    var rs := ej + ei + el;
    forall i | 0 <= i < |invite| ensures rs[|join| + i] == RoomEntry(invite[i], Invite) {
      assert rs[|join| + i] == ei[i];
    }
    forall i | 0 <= i < |leave| ensures rs[|join| + |invite| + i] == RoomEntry(leave[i], Leave) {
      assert rs[|join| + |invite| + i] == el[i];
    }
  }

  /** The layout of the decoded rooms: the join bucket's members first, then
      the invite bucket's, then the leave bucket's, each entry built from its
      own member and its bucket's join state; nothing else. */
  lemma BucketLayout(rooms: Object, join: Object, invite: Object, leave: Object)
    requires join == Bucket(rooms, "join") && invite == Bucket(rooms, "invite") && leave == Bucket(rooms, "leave")
    ensures var rs := BucketEntries(rooms, RoomStates);
            && |rs| == |join| + |invite| + |leave|
            && (forall i :: 0 <= i < |join| ==> rs[i] == RoomEntry(join[i], Join))
            && (forall i :: 0 <= i < |invite| ==> rs[|join| + i] == RoomEntry(invite[i], Invite))
            && (forall i :: 0 <= i < |leave| ==> rs[|join| + |invite| + i] == RoomEntry(leave[i], Leave))
  {
    DecodedBuckets(rooms);
    ThreeBucketLayout(join, invite, leave);
  }

  lemma KeyInBucket(bucket: Object, k: int)
    requires 0 <= k < |bucket|
    ensures Contains(bucket, bucket[k].0)
  {
    assert Keys(bucket)[k] == bucket[k].0;
  }

  /** The entry at index i of the decoded buckets belongs to the bucket of
      its join state. */
  lemma EntryIsBucketed(rooms: Object, i: int)
    requires 0 <= i < |BucketEntries(rooms, RoomStates)|
    ensures var d := BucketEntries(rooms, RoomStates)[i];
            || (d.joinState == Join && Contains(Bucket(rooms, "join"), d.roomId))
            || (d.joinState == Invite && Contains(Bucket(rooms, "invite"), d.roomId))
            || (d.joinState == Leave && Contains(Bucket(rooms, "leave"), d.roomId))
  {
    var join := Bucket(rooms, "join");
    var invite := Bucket(rooms, "invite");
    var leave := Bucket(rooms, "leave");
    BucketLayout(rooms, join, invite, leave);
    if i < |join| {
      KeyInBucket(join, i);
    } else if i < |join| + |invite| {
      KeyInBucket(invite, i - |join|);
    } else {
      KeyInBucket(leave, i - |join| - |invite|);
    }
  }

  /** Every decoded entry is a join, invite or leave entry (so by
      EventListsFollowJoinState it carries only the event lists its state
      allows), and its room id is a key of the matching bucket. */
  lemma DecodedEntriesAreBucketed(doc: Json)
    ensures forall d :: d in Decode(doc).rooms ==>
              || (d.joinState == Join && Contains(Bucket(RoomsOf(doc), "join"), d.roomId))
              || (d.joinState == Invite && Contains(Bucket(RoomsOf(doc), "invite"), d.roomId))
              || (d.joinState == Leave && Contains(Bucket(RoomsOf(doc), "leave"), d.roomId))
  {
    var rooms := RoomsOf(doc);
    var rs := BucketEntries(rooms, RoomStates);
    assert Decode(doc).rooms == rs;
    forall d | d in rs
      ensures || (d.joinState == Join && Contains(Bucket(rooms, "join"), d.roomId))
              || (d.joinState == Invite && Contains(Bucket(rooms, "invite"), d.roomId))
              || (d.joinState == Leave && Contains(Bucket(rooms, "leave"), d.roomId))
    {
      var i :| 0 <= i < |rs| && rs[i] == d;
      EntryIsBucketed(rooms, i);
    }
  }

  /** A joined room whose timeline holds two events, is limited and has a
      previous-batch token decodes to exactly those values. */
  lemma JoinedTimelineExample(e1: Json, e2: Json)
    ensures var timeline := JObject([("events", JArray([e1, e2])), ("limited", JBool(true)), ("prev_batch", JString("t1"))]);
            var payload := JObject([("next_batch", JString("s9")),
                                    ("rooms", JObject([("join", JObject([("!a:x", JObject([("timeline", timeline)]))]))]))]);
            var d := Decode(payload);
            && d.nextBatch == "s9" && |d.rooms| == 1
            && d.rooms[0].roomId == "!a:x" && d.rooms[0].joinState == Join
            && d.rooms[0].Timeline() == [e1, e2] && d.rooms[0].TimelineLimited()
            && d.rooms[0].TimelinePrevBatch() == "t1" && d.rooms[0].State() == []
            && d.rooms[0].HighlightCount() == 0
  {
    var timelineMembers := [("events", JArray([e1, e2])), ("limited", JBool(true)), ("prev_batch", JString("t1"))];
    var room := [("timeline", JObject(timelineMembers))];
    var join := [("!a:x", JObject(room))];
    var rooms := [("join", JObject(join))];
    var top := [("next_batch", JString("s9")), ("rooms", JObject(rooms))];
    assert Value(top, "next_batch") == Some(JString("s9"));
    assert UniqueKeys(top);
    ValueAt(top, 1);
    assert RoomsOf(JObject(top)) == rooms;
    assert Bucket(rooms, "join") == join;
    assert rooms[1..] == [];
    assert Value(rooms[1..], "invite") == None && Value(rooms[1..], "leave") == None;
    assert Bucket(rooms, "invite") == [];
    assert Bucket(rooms, "leave") == [];
    BucketLayout(rooms, join, [], []);
    var d := Decode(JObject(top)).rooms[0];
    assert d == RoomEntry(join[0], Join);
    assert d.room == room;
    assert Value(room, "timeline") == Some(JObject(timelineMembers));
    assert room[1..] == [];
    assert Value(room[1..], "state") == None && Value(room[1..], "unread_notifications") == None;
    assert Value(room, "state") == None && Value(room, "unread_notifications") == None;
    assert Value(timelineMembers, "events") == Some(JArray([e1, e2]));
    assert UniqueKeys(timelineMembers);
    ValueAt(timelineMembers, 1);
    ValueAt(timelineMembers, 2);
  }
}

=== FILE: transport.dfy ===
/** The network side as the jobs see it: a reply is an error kind, an error
    string and the body bytes; a request is a verb, a path, query items, a
    Content-Type header and an optional body. */
module Transport {
  import opened Wrappers
  import opened Json
  import opened Request

  /** The QNetworkReply error kinds the jobs tell apart; ReplyOk is
      QNetworkReply::NoError. */
  datatype ReplyError =
    | ReplyOk
    | AuthenticationRequiredError
    | ContentAccessDenied
    | ContentOperationNotPermittedError
    | OtherError(code: int)

  datatype Reply = Reply(error: ReplyError, errorString: string, body: Bytes)

  /** What a job reads from ConnectionData: the path of the homeserver's
      base URL and the access token. */
  datatype ConnectionData = ConnectionData(basePath: string, accessToken: string)

  datatype NetworkRequest = NetworkRequest(
    verb: HttpVerb,
    path: string,
    query: Query,
    contentTypeHeader: string,
    body: Option<Payload>,
    followRedirects: bool,
    maxRedirects: nat)

  const MaxRedirects := 10

  /** The timer interval both job generations arm: 120 seconds. */
  const TimeoutMs := 120 * 1000

  /** sendRequest: base path followed by apiPath(), the configured query
      followed by the access token when the call needs one, a body for POST
      and PUT only. Redirects are set as a build with Qt 5.6 or later sets
      them. */
  function BuildRequest(conn: ConnectionData, rc: RequestConfig, contentTypeHeader: string): (r: NetworkRequest)
    ensures r.verb == rc.verb && r.contentTypeHeader == contentTypeHeader
    ensures r.path == conn.basePath + rc.endpoint
    ensures |r.query| == |rc.query| + (if rc.needsToken then 1 else 0)
    ensures r.query[..|rc.query|] == rc.query
    ensures rc.needsToken ==> r.query[|rc.query|] == ("access_token", conn.accessToken)
    ensures r.body.Some? <==> (rc.verb == Post || rc.verb == Put)
    ensures r.body.Some? ==> r.body.value == rc.data
    ensures r.followRedirects && r.maxRedirects == MaxRedirects
  {
    var query := if rc.needsToken then AddQueryItem(rc.query, "access_token", conn.accessToken) else rc.query;
    var body := match rc.verb
      case Get => None
      case Post => Some(rc.data)
      case Put => Some(rc.data)
      case Delete => None;
    NetworkRequest(rc.verb, conn.basePath + rc.endpoint, query, contentTypeHeader, body, true, MaxRedirects)
  }

  /** A call that needs no token carries no access_token item unless its
      own query already had one. */
  lemma NoTokenUnlessNeeded(conn: ConnectionData, rc: RequestConfig, header: string)
    requires !rc.needsToken
    requires forall i :: 0 <= i < |rc.query| ==> rc.query[i].0 != "access_token"
    ensures forall i :: 0 <= i < |BuildRequest(conn, rc, header).query| ==>
              BuildRequest(conn, rc, header).query[i].0 != "access_token"
  {
  }
}

=== FILE: user.dfy ===
/** User: a member's profile as the client caches it — the display name,
    the avatar URL and the bookkeeping around avatar requests. A pixmap
    stands for a QPixmap; scaling and copying are Qt's and are parameters. */
module User {
  import opened Wrappers
  import opened Request
  import Calls
  import Decimal

  type Size = Calls.Size

  /** A QPixmap: its size and an opaque stand-in for its pixels. A pixmap
      without pixels is null, and Qt reports its size as 0x0. */
  datatype Pixmap = Pixmap(size: Size, pixels: nat)

  /** QPixmap(): the null pixmap. */
  const NullPixmap := Pixmap(Calls.Size(0, 0), 0)

  /** QSize::isEmpty: a side that is not positive. */
  predicate EmptySize(s: Size) {
    s.width <= 0 || s.height <= 0
  }

  /** QPixmap::isNull: only a pixmap without pixels has an empty size. */
  predicate IsNull(p: Pixmap) {
    EmptySize(p.size)
  }

  /** A pixmap Qt hands back: a null one is the null pixmap. */
  function Normalized(p: Pixmap): Pixmap {
    if IsNull(p) then NullPixmap else p
  }

  /** QPixmap::scaled: a null pixmap, or an empty target size, gives the null
      pixmap; the scaling itself is Qt's and is the parameter scale. */
  function Scaled(scale: (Pixmap, Size) -> Pixmap, p: Pixmap, s: Size): Pixmap {
    if IsNull(p) || EmptySize(s) then NullPixmap else Normalized(scale(p, s))
  }

  /** QPixmap::copy(x, y, w, h): copying the null pixmap gives the null
      pixmap; the copying itself is Qt's and is the parameter copy. */
  function Copied(copy: (Pixmap, int, int, int, int) -> Pixmap, p: Pixmap, x: int, y: int, w: int, h: int): Pixmap {
    if IsNull(p) then NullPixmap else Normalized(copy(p, x, y, w, h))
  }

  /** Observable effects: the two signals, and the zero-delay timer that
      calls requestAvatar(). */
  datatype Effect = NameChanged(oldName: string) | AvatarChanged | AvatarRequestScheduled(size: Size)

  datatype User = User(
    id: string,
    name: string,
    avatarUrl: Calls.Url,
    avatar: Pixmap,
    requestedSize: Size,
    avatarValid: bool,
    avatarOngoingRequest: bool,
    scaledAvatars: seq<Pixmap>,
    effects: seq<Effect>)

  /** The constructor: a null avatar, no request, and the invalid QSize(). */
  function New(userId: string): (u: User)
    ensures u.id == userId && u.name == "" && u.avatarUrl == Calls.EmptyUrl && u.avatar == NullPixmap
    ensures !u.avatarValid && !u.avatarOngoingRequest
    ensures u.requestedSize == Calls.Size(-1, -1)
    ensures u.scaledAvatars == [] && u.effects == []
  {
    User(userId, "", Calls.EmptyUrl, NullPixmap, Calls.Size(-1, -1), false, false, [], [])
  }

  /** displayname(): the name when there is one, the user id otherwise. */
  function DisplayName(u: User): (n: string)
    ensures n == u.name || (u.name == "" && n == u.id)
    ensures n == "" <==> u.name == "" && u.id == ""
  {
    if u.name != "" then u.name else u.id
  }

  /** The events a user processes; only m.room.member events matter. */
  datatype Event = RoomMember(displayName: string, avatarUrl: Calls.Url) | OtherEvent

  /** processEvent: a member event sets the name (announcing the old one
      when it differs) and the avatar URL (invalidating the avatar when it
      differs); other events are ignored. */
  function ProcessEvent(u: User, e: Event): (r: User)
    ensures !e.RoomMember? ==> r == u
    ensures e.RoomMember? ==> r.name == e.displayName && r.avatarUrl == e.avatarUrl
    ensures e.RoomMember? && u.name != e.displayName ==> r.effects == u.effects + [NameChanged(u.name)]
    ensures e.RoomMember? && u.name == e.displayName ==> r.effects == u.effects
    ensures r.avatarValid <==> u.avatarValid && (e.RoomMember? ==> e.avatarUrl == u.avatarUrl)
    ensures r.id == u.id && r.avatar == u.avatar && r.requestedSize == u.requestedSize
    ensures r.avatarOngoingRequest == u.avatarOngoingRequest && r.scaledAvatars == u.scaledAvatars
  {
    match e
    case OtherEvent => u
    case RoomMember(displayName, avatarUrl) =>
      var named := if u.name != displayName
                   then u.(name := displayName, effects := u.effects + [NameChanged(u.name)])
                   else u;
      if named.avatarUrl != avatarUrl then named.(avatarUrl := avatarUrl, avatarValid := false)
      else named
  }

  /** Processing the same event again changes nothing more. */
  lemma ProcessEventIdempotent(u: User, e: Event)
    ensures ProcessEvent(ProcessEvent(u, e), e) == ProcessEvent(u, e)
  {
  }

  /** A member event whose avatar URL differs from the stored one in any
      component (the scheme or query included) invalidates the avatar, so
      the next croppedAvatar schedules a thumbnail request for any size. */
  lemma ChangedUrlSchedulesRequest(u: User, displayName: string, url: Calls.Url, width: int, height: int,
                                   scaleExpanding: (Pixmap, Size) -> Pixmap,
                                   copy: (Pixmap, int, int, int, int) -> Pixmap)
    requires url != u.avatarUrl && url.valid && !u.avatarOngoingRequest
    ensures var r := ProcessEvent(u, RoomMember(displayName, url));
            && !r.avatarValid && r.avatarUrl == url
            && CroppedAvatar(r, width, height, scaleExpanding, copy).user.effects
               == r.effects + [AvatarRequestScheduled(Calls.Size(width, height))]
  {
  }

  /** After a member event the display name is the event's name, or the
      user id when the event carries none. */
  lemma DisplayNameFollowsMemberEvent(u: User, displayName: string, avatarUrl: Calls.Url)
    ensures var r := ProcessEvent(u, RoomMember(displayName, avatarUrl));
            DisplayName(r) == (if displayName != "" then displayName else u.id)
  {
  }

  /** The request trigger of croppedAvatar: the avatar is stale, or a side
      larger than the last requested one is asked for. */
  predicate NeedsAvatar(u: User, width: int, height: int) {
    !u.avatarValid || width > u.requestedSize.width || height > u.requestedSize.height
  }

  /** C++ integer division by two, which truncates toward zero. */
  function CHalf(a: int): (h: int)
    ensures a >= 0 ==> 2 * h <= a <= 2 * h + 1
    ensures a < 0 ==> 2 * h - 1 <= a <= 2 * h
  {
    if a >= 0 then a / 2 else -((-a) / 2)
  }

  /** max((scaled - target) / 2, 0): the offset that centres the crop. */
  function CropOffset(scaled: int, target: int): (o: int)
    ensures o >= 0
    ensures scaled >= target ==> target + 2 * o <= scaled <= target + 2 * o + 1
    ensures scaled <= target ==> o == 0
  {
    var h := CHalf(scaled - target);
    if h > 0 then h else 0
  }

  /** Once clamped at zero, truncating and flooring division agree, so the
      rounding mode of the source's division does not matter here. */
  lemma CropOffsetIgnoresRounding(scaled: int, target: int)
    ensures CropOffset(scaled, target) == if (scaled - target) / 2 > 0 then (scaled - target) / 2 else 0
  {
  }

  /** The first cached pixmap of the given size, if any, searched from
      index `from`. */
  function FindScaled(cache: seq<Pixmap>, size: Size, from: nat): (i: Option<nat>)
    requires from <= |cache|
    ensures i.Some? ==> from <= i.value < |cache| && cache[i.value].size == size
    ensures i.Some? ==> forall k :: from <= k < i.value ==> cache[k].size != size
    ensures i.None? ==> forall k :: from <= k < |cache| ==> cache[k].size != size
    decreases |cache| - from
  {
    if from == |cache| then None
    else if cache[from].size == size then Some(from)
    else FindScaled(cache, size, from + 1)
  }

  /** What croppedAvatar leaves behind and returns. */
  datatype Cropped = Cropped(user: User, pixmap: Pixmap)

  /** Schedules a request when the trigger holds, no request is ongoing and
      the URL is valid. */
  function MaybeRequest(u: User, width: int, height: int): (r: User)
    ensures NeedsAvatar(u, width, height) && !u.avatarOngoingRequest && u.avatarUrl.valid ==>
              r == u.(requestedSize := Calls.Size(width, height), avatarOngoingRequest := true,
                      effects := u.effects + [AvatarRequestScheduled(Calls.Size(width, height))])
    ensures !(NeedsAvatar(u, width, height) && !u.avatarOngoingRequest && u.avatarUrl.valid) ==> r == u
  {
    if NeedsAvatar(u, width, height) && !u.avatarOngoingRequest && u.avatarUrl.valid then
      var size := Calls.Size(width, height);
      u.(requestedSize := size, avatarOngoingRequest := true, effects := u.effects + [AvatarRequestScheduled(size)])
    else u
  }

  /** croppedAvatar(width, height). scaleExpanding stands for
      QPixmap::scaled with KeepAspectRatioByExpanding and copy for
      QPixmap::copy(x, y, w, h). A null avatar is returned as is; a cached
      pixmap of the size is reused; otherwise the scaled avatar is cropped
      around its centre and cached, even when that gives the null pixmap. */
  function CroppedAvatar(u: User, width: int, height: int,
                         scaleExpanding: (Pixmap, Size) -> Pixmap,
                         copy: (Pixmap, int, int, int, int) -> Pixmap): (r: Cropped)
    ensures r.user.id == u.id && r.user.name == u.name && r.user.avatarUrl == u.avatarUrl
    ensures r.user.avatar == u.avatar && r.user.avatarValid == u.avatarValid
    ensures r.user.effects == MaybeRequest(u, width, height).effects
    ensures r.user.requestedSize == MaybeRequest(u, width, height).requestedSize
    ensures r.user.avatarOngoingRequest == MaybeRequest(u, width, height).avatarOngoingRequest
    ensures IsNull(u.avatar) ==> r.pixmap == u.avatar && r.user.scaledAvatars == u.scaledAvatars
    ensures !IsNull(u.avatar) ==> r.pixmap in r.user.scaledAvatars
    ensures !IsNull(u.avatar) && FindScaled(u.scaledAvatars, Calls.Size(width, height), 0).Some? ==>
              && r.user.scaledAvatars == u.scaledAvatars && r.pixmap.size == Calls.Size(width, height)
              && r.pixmap == u.scaledAvatars[FindScaled(u.scaledAvatars, Calls.Size(width, height), 0).value]
    ensures !IsNull(u.avatar) && FindScaled(u.scaledAvatars, Calls.Size(width, height), 0).None? ==>
              var scaled := Scaled(scaleExpanding, u.avatar, Calls.Size(width, height));
              r.pixmap == Copied(copy, scaled, CropOffset(scaled.size.width, width), CropOffset(scaled.size.height, height),
                                 width, height)
              && r.user.scaledAvatars == u.scaledAvatars + [r.pixmap]
    ensures EmptySize(Calls.Size(width, height)) ==> IsNull(r.pixmap)
  {
    var size := Calls.Size(width, height);
    var u1 := MaybeRequest(u, width, height);
    if IsNull(u1.avatar) then Cropped(u1, u1.avatar)
    else
      match FindScaled(u1.scaledAvatars, size, 0)
      case Some(i) => Cropped(u1, u1.scaledAvatars[i])
      case None =>
        var scaled := Scaled(scaleExpanding, u1.avatar, size);
        var cropped := Copied(copy, scaled, CropOffset(scaled.size.width, width), CropOffset(scaled.size.height, height),
                              width, height);
        Cropped(u1.(scaledAvatars := u1.scaledAvatars + [cropped]), cropped)
  }

  /** While a request is outstanding, croppedAvatar never schedules another. */
  lemma NoRequestWhileOngoing(u: User, width: int, height: int,
                              scaleExpanding: (Pixmap, Size) -> Pixmap, copy: (Pixmap, int, int, int, int) -> Pixmap)
    requires u.avatarOngoingRequest
    ensures var r := CroppedAvatar(u, width, height, scaleExpanding, copy);
            r.user.effects == u.effects && r.user.requestedSize == u.requestedSize
  {
  }

  /** requestAvatar(): a thumbnail call for the avatar URL at the requested
      size. The thumbnail type is the caller's default argument. */
  function RequestAvatar(u: User, thumbnailType: Calls.ThumbnailType): (rc: RequestConfig)
    ensures rc == Calls.NewGetMediaThumbnail(u.avatarUrl, u.requestedSize, thumbnailType)
    ensures Decimal.ParseInt(rc.query[0].1) == Some(u.requestedSize.width)
    ensures Decimal.ParseInt(rc.query[1].1) == Some(u.requestedSize.height)
  {
    Calls.NewGetMediaThumbnail(u.avatarUrl, u.requestedSize, thumbnailType)
  }

  /** A request scheduled by croppedAvatar asks the server for exactly the
      size that was asked for. */
  lemma ScheduledRequestAsksForRequestedSize(u: User, width: int, height: int,
                                              scaleExpanding: (Pixmap, Size) -> Pixmap,
                                              copy: (Pixmap, int, int, int, int) -> Pixmap,
                                              thumbnailType: Calls.ThumbnailType)
    requires !u.avatarValid && !u.avatarOngoingRequest && u.avatarUrl.valid
    ensures var r := CroppedAvatar(u, width, height, scaleExpanding, copy);
            var rc := RequestAvatar(r.user, thumbnailType);
            && r.user.avatarOngoingRequest
            && Decimal.ParseInt(rc.query[0].1) == Some(width)
            && Decimal.ParseInt(rc.query[1].1) == Some(height)
  {
  }

  /** The thumbnail call's success handler. scaleToFit stands for
      QPixmap::scaled with KeepAspectRatio. */
  function AvatarReceived(u: User, thumbnail: Pixmap, scaleToFit: (Pixmap, Size) -> Pixmap): (r: User)
    ensures !r.avatarOngoingRequest && r.avatarValid
    ensures EmptySize(u.requestedSize) || IsNull(thumbnail) ==> r.avatar == NullPixmap
    ensures !EmptySize(u.requestedSize) && !IsNull(thumbnail) ==>
              r.avatar == Normalized(scaleToFit(thumbnail, u.requestedSize))
    ensures r.scaledAvatars == [] && r.effects == u.effects + [AvatarChanged]
    ensures r.id == u.id && r.name == u.name && r.avatarUrl == u.avatarUrl && r.requestedSize == u.requestedSize
  {
    u.(avatarOngoingRequest := false, avatarValid := true,
       avatar := Scaled(scaleToFit, thumbnail, u.requestedSize), scaledAvatars := [],
       effects := u.effects + [AvatarChanged])
  }

  /** A fresh avatar of at least the asked size is not requested again. */
  lemma ReceivedAvatarIsNotRequestedAgain(u: User, thumbnail: Pixmap, scaleToFit: (Pixmap, Size) -> Pixmap,
                                          width: int, height: int)
    requires width <= u.requestedSize.width && height <= u.requestedSize.height
    ensures MaybeRequest(AvatarReceived(u, thumbnail, scaleToFit), width, height) == AvatarReceived(u, thumbnail, scaleToFit)
  {
  }

  /** An avatar asked for at an empty size records that size as the
      requested one, so the thumbnail that arrives is scaled to the null
      pixmap; asking again returns the null pixmap, caches nothing and
      schedules no request. */
  lemma EmptySizeGivesNullAvatar(u: User, width: int, height: int, thumbnail: Pixmap,
                                 scaleExpanding: (Pixmap, Size) -> Pixmap, scaleToFit: (Pixmap, Size) -> Pixmap,
                                 copy: (Pixmap, int, int, int, int) -> Pixmap)
    requires EmptySize(Calls.Size(width, height))
    requires !u.avatarValid && !u.avatarOngoingRequest && u.avatarUrl.valid
    ensures var asked := CroppedAvatar(u, width, height, scaleExpanding, copy).user;
            var received := AvatarReceived(asked, thumbnail, scaleToFit);
            var again := CroppedAvatar(received, width, height, scaleExpanding, copy);
            && asked.avatarOngoingRequest && received.avatar == NullPixmap
            && again.pixmap == NullPixmap && again.user.scaledAvatars == []
            && again.user.effects == received.effects
  {
  }

  // Runs of inputs: the request/receipt pairing.

  /** A thumbnail arrives only for a request that is outstanding. */
  datatype Input = MemberEvent(e: Event) | AvatarAsked(width: int, height: int) | ThumbnailArrived(thumbnail: Pixmap)

  datatype Qt = Qt(scaleExpanding: (Pixmap, Size) -> Pixmap, scaleToFit: (Pixmap, Size) -> Pixmap,
                   copy: (Pixmap, int, int, int, int) -> Pixmap)

  function Step(u: User, i: Input, qt: Qt): User {
    match i
    case MemberEvent(e) => ProcessEvent(u, e)
    case AvatarAsked(w, h) => CroppedAvatar(u, w, h, qt.scaleExpanding, qt.copy).user
    case ThumbnailArrived(p) => if u.avatarOngoingRequest then AvatarReceived(u, p, qt.scaleToFit) else u
  }

  function Run(u: User, inputs: seq<Input>, qt: Qt): User
    decreases |inputs|
  {
    if |inputs| == 0 then u else Run(Step(u, inputs[0], qt), inputs[1..], qt)
  }

  function Scheduled(t: seq<Effect>): nat {
    if |t| == 0 then 0 else Scheduled(t[..|t| - 1]) + (if t[|t| - 1].AvatarRequestScheduled? then 1 else 0)
  }

  function Delivered(t: seq<Effect>): nat {
    if |t| == 0 then 0 else Delivered(t[..|t| - 1]) + (if t[|t| - 1] == AvatarChanged then 1 else 0)
  }

  lemma CountsAppend(t: seq<Effect>, x: Effect)
    ensures Scheduled(t + [x]) == Scheduled(t) + (if x.AvatarRequestScheduled? then 1 else 0)
    ensures Delivered(t + [x]) == Delivered(t) + (if x == AvatarChanged then 1 else 0)
  {
    assert (t + [x])[..|t|] == t;
  }

  /** Requests never overlap: every scheduled request but the outstanding
      one has been answered. */
  ghost predicate RequestsPaired(u: User) {
    Scheduled(u.effects) == Delivered(u.effects) + (if u.avatarOngoingRequest then 1 else 0)
  }

  lemma StepKeepsRequestsPaired(u: User, i: Input, qt: Qt)
    requires RequestsPaired(u)
    ensures RequestsPaired(Step(u, i, qt))
  {
    match i
    case MemberEvent(e) =>
      if e.RoomMember? && u.name != e.displayName {
        CountsAppend(u.effects, NameChanged(u.name));
      }
    case AvatarAsked(w, h) =>
      if NeedsAvatar(u, w, h) && !u.avatarOngoingRequest && u.avatarUrl.valid {
        CountsAppend(u.effects, AvatarRequestScheduled(Calls.Size(w, h)));
      }
    case ThumbnailArrived(p) =>
      if u.avatarOngoingRequest {
        CountsAppend(u.effects, AvatarChanged);
      }
  }

  /** From construction on, whatever events, avatar lookups and thumbnails
      arrive, requests never overlap. */
  lemma {:induction false} RunKeepsRequestsPaired(u: User, inputs: seq<Input>, qt: Qt)
    requires RequestsPaired(u)
    ensures RequestsPaired(Run(u, inputs, qt))
    decreases |inputs|
  {
    if |inputs| > 0 {
      StepKeepsRequestsPaired(u, inputs[0], qt);
      RunKeepsRequestsPaired(Step(u, inputs[0], qt), inputs[1..], qt);
    }
  }

  lemma NewUserRequestsPaired(userId: string)
    ensures RequestsPaired(New(userId))
  {
  }

  /** Only success clears the ongoing flag: when the thumbnail never
      arrives, no further avatar request is ever scheduled. */
  lemma {:induction false} UnansweredRequestBlocksRequests(u: User, inputs: seq<Input>, qt: Qt)
    requires u.avatarOngoingRequest
    requires forall k :: 0 <= k < |inputs| ==> !inputs[k].ThumbnailArrived?
    ensures Run(u, inputs, qt).avatarOngoingRequest
    ensures Scheduled(Run(u, inputs, qt).effects) == Scheduled(u.effects)
    decreases |inputs|
  {
    if |inputs| > 0 {
      var next := Step(u, inputs[0], qt);
      if inputs[0].MemberEvent? && inputs[0].e.RoomMember? && u.name != inputs[0].e.displayName {
        CountsAppend(u.effects, NameChanged(u.name));
      }
      UnansweredRequestBlocksRequests(next, inputs[1..], qt);
    }
  }
}

=== FILE: wrappers.dfy ===
/** Optional values, used where the source returns a null pointer, an
    undefined JSON value or a default-constructed object. */
module Wrappers {

  datatype Option<+T> = None | Some(value: T) {

    /** Returns the value in Some, or the given default for None. */
    function GetOr(default: T): T {
      match this
      case Some(v) => v
      case None => default
    }
  }
}
